=== FILE: README.md ===
# Specialist routing, synthesis and streaming core of chatbot-cot

This project models, in Dafny, the deterministic logic of the chatbot-cot
front-end: the code that sits around the calls to the DeepSeek completion
service. It covers seven parts.

- **Token analyzer** (`TokenAnalyzer`, with the rule tables in `Patterns`).
  It turns a user input into a token estimate, five weights, a
  multi-competence bonus, domain tags, boolean flags and a
  low/medium/high complexity class. Each weight is a sum of fixed
  increments for the rules that match, capped at 1.
- **Rule-based multi-specialist router** (`MultiSpecialistRouter`).
  - A truly simple input goes to the generic model.
  - Otherwise every registry persona is scored. The scores are ranked best
    first (stably), filtered by a dynamic threshold and cut to three.
  - The chosen scores are then divided by their sum, in place. The chosen
    records are the same objects as the entries of the full score list, so
    that list shows the renormalised values too. The model keeps this
    aliasing: `ScoreCell` is a class whose `score` field `SelectSpecialists`
    overwrites.
- **Specialist registry** (`Specialists`). Four fixed profiles whose order
  drives the order of score lists and the tie-breaking.
- **Language-model router** (`AiSpecialistRouter`, with `ReplyFormat`).
  - It extracts the JSON object from the service's reply, validates it and
    converts it into a decision with a full per-registry score list.
  - Any failure falls back to a fixed table of canned answers, or to the
    empathetic facilitator.
- **Synthesizer** (`AiSynthesizer`).
  - It keeps the valid chains of thought and tolerates any reply format.
  - It builds the result from the reply (answer, reasoning, names and
    weight map).
  - Otherwise it uses a local fallback: the chains sorted by weight, the
    heaviest leading, and an apology when no chain is valid.
- **Legacy single-specialist router** (`SpecialistRouter`). A priority
  cascade over the analysis flags.
- **Chat hook** (`ChatSessions`). It covers:
  - the pure updaters of the session list;
  - the first steps of `sendMessage`;
  - the `data:` frame loop of `streamResponse`.
- **Chat API route** (`ChatRoute`). It covers:
  - request validation and system-prompt truncation;
  - the newline line-buffer and `data:` / `[DONE]` framing of the relayed
    stream, and how it ends (closed, or errored when a read fails);
  - the classification of errors into HTTP statuses.

Shared helpers:
- `Wrappers`: Option and Result.
- `Json`: parsed JSON values and JavaScript truthiness.
- `Text`: ASCII lower-casing, JavaScript whitespace trimming, substring
  search, newline splitting and word counts.
- `StableSort`: a stable ranking of positions by a real key, best first.
- `SpecialistTypes`: the analysis and decision records.

The hook runs the creative stream and then the analytical one, one after
the other; there is no parallel orchestrator. A row of the language-model
router's fallback table answers only a whole trimmed input, ignoring case,
so "Ciao, come stai?" goes to the empathetic facilitator.

Regular expressions with word boundaries or case-insensitive matching over
free text are not evaluated. Each pattern is a constructor of `Patterns.Rx`,
and the caller passes an oracle `hit: Rx -> bool` that says which patterns
test true on the input. Anchored word lists (the simple greetings and the
fallback table) are modelled concretely, as membership of the trimmed,
lower-cased input in a set of words. `JSON.parse` is a parameter
`parse: string -> Option<Json>`. A service reply is a parameter: the parsed
body of a successful response, or `None` when the request failed. Numbers
are `real`s.

## Model

| member | source | states |
|---|---|---|
| Specialists.Ids | src/config/specialists.ts:3-135 | one id per registry profile, in registry order |
| Specialists.FindIn | src/services/aiSpecialistRouter.ts:162 | `find` by id succeeds exactly when some profile has that id, and returns the first such profile, which has that id |
| Specialists.Find | src/services/specialistRouter.ts:38-57 | a registry lookup succeeds exactly for the four registry ids and returns a registry member with that id |
| Specialists.DominantCode | src/config/specialists.ts:7-13 | a four-letter code whose letters are the dominant letters of the I/E, N/S, T/F and J/P pairs |
| Specialists.RegistryOrder | src/config/specialists.ts:3-135 | the registry holds exactly analytic-technical, creative-ideator, critical-verifier and empathetic-facilitator, in that order |
| Specialists.IdsDistinct | src/config/specialists.ts:5-104 | the four ids are pairwise distinct |
| Specialists.FindIsPositional | src/config/specialists.ts:3-135 | looking up the id of the i-th profile returns the i-th profile |
| Specialists.ProfilesConsistent | src/config/specialists.ts:7-119 | every profile's opposing MBTI percentages sum to 100, every Big Five trait lies in [0, 1], and every `mbti` code is the dominant code of its profile |
| Patterns.Matched | src/utils/tokenAnalyzer.ts:206-211 | the number of patterns of a table that test true is at most the table's size |
| Patterns.AnyHitIffMatched | src/utils/tokenAnalyzer.ts:157-160 | `some` pattern of a table tests true exactly when the count of those that do is positive |
| Patterns.MatchedMonotone | src/utils/tokenAnalyzer.ts:201-272 | more patterns testing true never lowers the count |
| TokenAnalyzer.TokenCount | src/utils/tokenAnalyzer.ts:72 | the count is the least integer c with 10c >= 13w: the ceiling of 1.3 times the word count |
| TokenAnalyzer.TermMatches | src/utils/tokenAnalyzer.ts:187-191 | at most one match per technical term |
| TokenAnalyzer.TechnicalWeightOf | src/utils/tokenAnalyzer.ts:183-199 | the technical weight lies in [0, 1] |
| TokenAnalyzer.CreativeWeightOf | src/utils/tokenAnalyzer.ts:201-238 | the creative weight lies in [0, 1] |
| TokenAnalyzer.AnalyticalWeightOf | src/utils/tokenAnalyzer.ts:241-272 | the analytical weight lies in [0, 1] |
| TokenAnalyzer.EmotionalWeightOf | src/utils/tokenAnalyzer.ts:274-288 | the emotional weight lies in [0, 0.8]: its increments never reach the cap |
| TokenAnalyzer.UrgencyOf | src/utils/tokenAnalyzer.ts:290-304 | urgency lies in [0, 0.9]: 0.4 for a pattern, at most 0.3 for `!` and at most 0.2 for capitalised words |
| TokenAnalyzer.CompetenceTypes | src/utils/tokenAnalyzer.ts:153-160 | at most four competence families count |
| TokenAnalyzer.MultiCompetenceOf | src/utils/tokenAnalyzer.ts:152-181 | the bonus lies in [0, 1]; it is 0 exactly when fewer than two families and no combination phrase match; otherwise it is at least 0.3; and it exceeds 0.3 exactly with a combination phrase or three or more families |
| TokenAnalyzer.DomainHits | src/utils/tokenAnalyzer.ts:306-317 | every hit is a position of DOMAIN_KEYWORDS examined so far |
| TokenAnalyzer.DomainNames | src/utils/tokenAnalyzer.ts:58-67 | one DOMAIN_KEYWORDS key per position, in order |
| TokenAnalyzer.AnalysisOf | src/utils/tokenAnalyzer.ts:69-149 | every weight and the bonus lie in [0, 1], urgency lies in [0, 0.9], and the token count is at least 2 |
| TokenAnalyzer.CalculateTechnicalWeight | src/utils/tokenAnalyzer.ts:183-199 | the loop adding 0.2 per technical term found, plus the pattern bonuses, capped, yields the technical weight |
| TokenAnalyzer.CalculateCreativeWeight | src/utils/tokenAnalyzer.ts:201-238 | the loop adding 0.35 per creative pattern, plus the request bonuses, capped, yields the creative weight |
| TokenAnalyzer.CalculateAnalyticalWeight | src/utils/tokenAnalyzer.ts:241-272 | the loop adding 0.3 per analytical pattern, plus the request bonuses, capped, yields the analytical weight |
| TokenAnalyzer.CalculateEmotionalWeight | src/utils/tokenAnalyzer.ts:274-288 | the step-by-step sum yields the emotional weight |
| TokenAnalyzer.CalculateUrgencyLevel | src/utils/tokenAnalyzer.ts:290-304 | the step-by-step sum yields the urgency level |
| TokenAnalyzer.DetectMultiCompetence | src/utils/tokenAnalyzer.ts:152-181 | counting families one by one and adding the bonuses yields the multi-competence bonus |
| TokenAnalyzer.IdentifyDomains | src/utils/tokenAnalyzer.ts:306-317 | pushing each matching domain in key order yields the domain tags |
| TokenAnalyzer.Analyze | src/utils/tokenAnalyzer.ts:69-149 | the step-by-step analysis equals the analysis function, whose bounds and complexity rules the lemmas state |
| TokenAnalyzer.ComplexityRules | src/utils/tokenAnalyzer.ts:111-128 | a short simple input is low; otherwise a combination phrase or three families makes it high, over 50 tokens makes it high, and questions or a creative request keep it above low; a low input that is not short and simple has no questions, at most 15 tokens and no creative request |
| TokenAnalyzer.BlankInputCounts | src/utils/tokenAnalyzer.ts:70-72 | an empty or whitespace-only input counts one word and two tokens |
| TokenAnalyzer.LowerNeverContainsCapital | src/utils/tokenAnalyzer.ts:159 | a term starting with a capital never occurs in a lower-cased text |
| TokenAnalyzer.TechnicalFamilyIgnoresApi | src/utils/tokenAnalyzer.ts:159 | the technical family test behaves as if "API" were not in the term list, while the technical weight matches it as "api" |
| TokenAnalyzer.WeightsMonotone | src/utils/tokenAnalyzer.ts:183-304 | more patterns testing true never lowers any weight, urgency or the bonus |
| TokenAnalyzer.DomainHitsSpec | src/utils/tokenAnalyzer.ts:306-317 | a position is among the hits exactly when its domain matches, and the hits ascend |
| TokenAnalyzer.DomainNamesDistinct | src/utils/tokenAnalyzer.ts:58-67 | the DOMAIN_KEYWORDS keys are pairwise distinct |
| TokenAnalyzer.DomainsSpec | src/utils/tokenAnalyzer.ts:306-317 | a domain is tagged exactly when one of its keywords occurs in the lower-cased input; the tags have no repetitions and follow the key order of DOMAIN_KEYWORDS |
| MultiSpecialistRouter.FiredSound | src/services/multiSpecialistRouter.ts:88-254 | rules that add positive amounts and belong to one persona give contributions that do too |
| MultiSpecialistRouter.AnalyticRulesSound | src/services/multiSpecialistRouter.ts:100-138 | every analyst rule adds a positive amount when it fires and belongs to the analyst |
| MultiSpecialistRouter.CreativeRulesSound | src/services/multiSpecialistRouter.ts:141-192 | the same for the creative ideator's rules |
| MultiSpecialistRouter.VerifierRulesSound | src/services/multiSpecialistRouter.ts:195-220 | the same for the critical verifier's rules |
| MultiSpecialistRouter.EmpatheticRulesSound | src/services/multiSpecialistRouter.ts:223-254 | the same for the empathetic facilitator's rules |
| MultiSpecialistRouter.PersonaRulesSound | src/services/multiSpecialistRouter.ts:93-254 | every rule applied to a profile, the shared baseline included, adds a positive amount and belongs to that profile or to the baseline |
| MultiSpecialistRouter.TotalOfPositives | src/services/multiSpecialistRouter.ts:88-257 | a sum of positive increments is non-negative, and positive exactly when one fired |
| MultiSpecialistRouter.ScoreSpec | src/services/multiSpecialistRouter.ts:83-266 | a score lies in [0, 1]; it is 0 exactly when no rule fired (the "low match" case); each contribution is the baseline or one of the persona's own rules |
| MultiSpecialistRouter.UnknownSpecialistGetsBaseline | src/services/multiSpecialistRouter.ts:93-97 | a profile outside the four blocks gets only the baseline bonus × 0.2, and only when the bonus is positive |
| MultiSpecialistRouter.ApplyRules | src/services/multiSpecialistRouter.ts:88-257 | testing the rules in order, the reasons are the rules that fired and the score is their total |
| MultiSpecialistRouter.CalculateSpecialistScore | src/services/multiSpecialistRouter.ts:83-266 | the score is the capped total of the rules that fired, with those rules as reasons |
| MultiSpecialistRouter.AtLeastMembers | src/services/multiSpecialistRouter.ts:271 | the filter keeps exactly the positions whose score reaches the threshold |
| MultiSpecialistRouter.AtLeastNonIncreasing | src/services/multiSpecialistRouter.ts:271 | filtering a best-first list keeps it best first |
| MultiSpecialistRouter.AtLeastTies | src/services/multiSpecialistRouter.ts:271 | filtering keeps tied scores in registry order |
| MultiSpecialistRouter.AtLeastDistinct | src/services/multiSpecialistRouter.ts:271 | filtering a list without repetitions gives one without repetitions |
| MultiSpecialistRouter.Eligible | src/services/multiSpecialistRouter.ts:270-271 | the eligible positions are positions of the score list |
| MultiSpecialistRouter.Chosen | src/services/multiSpecialistRouter.ts:276 | at most three positions are chosen, all of them positions of the score list |
| MultiSpecialistRouter.NewScores | src/services/multiSpecialistRouter.ts:278-285 | renormalisation gives one score per record |
| MultiSpecialistRouter.EligibleSpec | src/services/multiSpecialistRouter.ts:270-276 | a position is eligible exactly when its score reaches the threshold; eligible positions are distinct, best first, with ties in registry order; the chosen ones are their first three |
| MultiSpecialistRouter.ChosenOrdered | src/services/multiSpecialistRouter.ts:270-276 | the chosen positions are distinct, reach the threshold, come best first and keep ties in registry order |
| MultiSpecialistRouter.ChosenAreBest | src/services/multiSpecialistRouter.ts:270-276 | an eligible position left out means three were chosen, none scoring less, and each tie went to an earlier position |
| MultiSpecialistRouter.ChosenTotal | src/services/multiSpecialistRouter.ts:278-285 | with a positive threshold a non-empty choice has a positive total, each chosen score is at most the total, and each is divided by it |
| MultiSpecialistRouter.NormalisationKeepsOthers | src/services/multiSpecialistRouter.ts:280-284 | records not chosen keep their raw scores |
| MultiSpecialistRouter.NormalisationBoundsAndOrder | src/services/multiSpecialistRouter.ts:278-285 | renormalised chosen scores lie in (0, 1] and stay best first |
| MultiSpecialistRouter.NormalisationSumsToOne | src/services/multiSpecialistRouter.ts:278-285 | renormalised chosen scores add up to 1 |
| MultiSpecialistRouter.ScoreCell.constructor | src/services/multiSpecialistRouter.ts:74-79 | a new score record holds the profile, score and reasons given |
| MultiSpecialistRouter.CalculateAllScores | src/services/multiSpecialistRouter.ts:71-81 | one new, distinct record per registry profile, in registry order, with that profile's score and reasons |
| MultiSpecialistRouter.SelectSpecialists | src/services/multiSpecialistRouter.ts:269-288 | returns the chosen records themselves, best first, and leaves in every record of the full list its renormalised score: chosen ones divided by the chosen total, the others unchanged |
| MultiSpecialistRouter.DivideScores | src/services/multiSpecialistRouter.ts:280-284 | each selected record's score is divided by the total, in place |
| MultiSpecialistRouter.CellsHoldNewScores | src/services/multiSpecialistRouter.ts:280-284 | after the division, because the selected records are entries of the full list, every entry holds its renormalised score |
| MultiSpecialistRouter.DynamicThreshold | src/services/multiSpecialistRouter.ts:43-45 | the threshold is positive |
| MultiSpecialistRouter.RawScores | src/services/multiSpecialistRouter.ts:71-81 | one score per registry profile, in registry order |
| MultiSpecialistRouter.ScoreAndSelect | src/services/multiSpecialistRouter.ts:40-50 | reading back the records after selection gives the final full list and the selection |
| MultiSpecialistRouter.Route | src/services/multiSpecialistRouter.ts:10-69 | `route` returns the decision of the analysed input |
| MultiSpecialistRouter.RouteShortCircuit | src/services/multiSpecialistRouter.ts:16-37 | nothing is scored exactly for a really simple input; then the decision is generic with no selection, the simple-input reasoning and threshold 0.15 |
| MultiSpecialistRouter.ReallySimpleHasNoBonus | src/services/multiSpecialistRouter.ts:23 | for an analysed input, the bonus test of the short-circuit only passes with a bonus of 0 |
| MultiSpecialistRouter.AnalysisInRange | src/utils/tokenAnalyzer.ts:69-149 | the analyzer's weights lie where the scorer's lemmas assume |
| MultiSpecialistRouter.DecisionScores | src/services/multiSpecialistRouter.ts:40-59 | outside the short-circuit, the full list has one record per registry profile, in registry order, each scored in [0, 1], and the threshold reported is 0.105 for a bonus above 0.3, else 0.15 |
| MultiSpecialistRouter.DecisionSelection | src/services/multiSpecialistRouter.ts:50-59 | the selection is the full list's records at the chosen positions, at most three, distinct, each at or above the threshold before renormalisation, best first; the generic model is used exactly when nothing is selected; otherwise the selected scores add up to 1 |
| MultiSpecialistRouter.DecisionReasoning | src/services/multiSpecialistRouter.ts:290-306 | with no selection the reasoning reports the threshold; otherwise it names the selected specialists in order and the first as leader, and mentions the lowered threshold exactly for a bonus above 0.3 |
| StableSort.RankingSpec | src/services/multiSpecialistRouter.ts:270 | the ranking is a permutation of the positions, best first, with ties in ascending position (a stable sort) |
| SpecialistRouter.Profile | src/services/specialistRouter.ts:38-57 | the registry profile with the requested id |
| SpecialistRouter.SelectSpecialist | src/services/specialistRouter.ts:33-58 | the chosen specialist is always a registry member |
| SpecialistRouter.DecideSpec | src/services/specialistRouter.ts:8-31 | the generic model is used exactly for low complexity with at most 15 tokens, and then no specialist is chosen; otherwise exactly one registry specialist is, named in the reasoning |
| SpecialistRouter.SelectionCharacterised | src/services/specialistRouter.ts:37-57 | technical content always wins; creativity wins without it; the critical verifier only for high-complexity questions without any of the three flags; the empathetic facilitator otherwise |
| SpecialistRouter.TechnicalInputGoesToAnalyst | src/services/specialistRouter.ts:37-39 | outside the generic case, the analyst is chosen exactly when the technical weight of the input exceeds 0.3 |
| ReplyFormat.ReplyText | src/services/aiSpecialistRouter.ts:76-80 | a reply text, when there is one, is non-empty |
| ReplyFormat.FirstIndex | src/services/aiSpecialistRouter.ts:115 | the position of the first occurrence of a character, found exactly when it occurs |
| ReplyFormat.LastIndex | src/services/aiSpecialistRouter.ts:115 | the position of the last occurrence of a character, found exactly when it occurs |
| ReplyFormat.ExtractJson | src/services/aiSpecialistRouter.ts:115-119 | a JSON candidate exists exactly when some `{` precedes some `}`, and it is the span from the first `{` to the last `}` |
| AiSpecialistRouter.UseGenericFlag | src/services/aiSpecialistRouter.ts:124-126 | a flag is read exactly when `useGeneric` is a boolean |
| AiSpecialistRouter.ParseAIResponse | src/services/aiSpecialistRouter.ts:112-143 | a reply is accepted exactly when it holds a JSON candidate that parses to an object with a boolean `useGeneric`, with a truthy `directResponse` when generic and a non-empty `specialists` array otherwise; the accepted value is the parsed one |
| AiSpecialistRouter.ParseErrorOrder | src/services/aiSpecialistRouter.ts:115-136 | "no JSON" is reported exactly when the reply holds no `{`…`}` span, "malformed" exactly when that span does not parse; a specialists error only arises for a reply with `useGeneric` false, a missing direct answer only for one with `useGeneric` true |
| AiSpecialistRouter.KnownProfile | src/services/aiSpecialistRouter.ts:162 | an entry's profile, when found, is a registry member |
| AiSpecialistRouter.SelectedOfOk | src/services/aiSpecialistRouter.ts:161-174 | conversion succeeds exactly when every entry names a registry profile |
| AiSpecialistRouter.SelectedOfEntries | src/services/aiSpecialistRouter.ts:161-174 | a successful conversion keeps one record per entry, in reply order, with the entry's weight as it is |
| AiSpecialistRouter.SelectedOfCons | src/services/aiSpecialistRouter.ts:161-174 | one step of a successful conversion: the first entry's record, then the rest's |
| AiSpecialistRouter.SelectedOfErr | src/services/aiSpecialistRouter.ts:164-166 | a failed conversion reports the id of the first entry that names no registry profile |
| AiSpecialistRouter.SelectedOfSpec | src/services/aiSpecialistRouter.ts:161-174 | the three statements above together |
| AiSpecialistRouter.FirstFor | src/services/aiSpecialistRouter.ts:178 | `find` succeeds exactly when some record has the profile's id, and returns the first such record |
| AiSpecialistRouter.AllScoresOf | src/services/aiSpecialistRouter.ts:177-190 | one record per registry profile |
| AiSpecialistRouter.SameIdSameProfile | src/services/aiSpecialistRouter.ts:177-182 | a registry record with a registry profile's id has that profile |
| AiSpecialistRouter.AllScoresSpec | src/services/aiSpecialistRouter.ts:177-190 | the full list follows the registry order; a selected profile gets one of its selected records, any other a zero score |
| AiSpecialistRouter.ConvertSpec | src/services/aiSpecialistRouter.ts:145-206 | a generic reply gives a generic decision with no scores and low complexity; any other gives, when every id is known, the entries in reply order with their weights unchanged (not clipped, not capped at three, not renormalised), the full registry list, and high complexity exactly from three selections on, medium otherwise; the threshold is always 0.15 |
| AiSpecialistRouter.Empathetic | src/services/aiSpecialistRouter.ts:236 | the default profile is the registry member with the empathetic facilitator's id |
| AiSpecialistRouter.FallbackScores | src/services/aiSpecialistRouter.ts:245-250 | one fallback score per registry profile |
| AiSpecialistRouter.FirstCanned | src/services/aiSpecialistRouter.ts:220-233 | the first table row, from a given one on, that answers the input, and no earlier row does |
| AiSpecialistRouter.FallbackRouting | src/services/aiSpecialistRouter.ts:208-261 | the loop over the table with early return yields the fallback decision |
| AiSpecialistRouter.FallbackCannedSpec | src/services/aiSpecialistRouter.ts:209-233 | the fallback is generic exactly when some row answers the trimmed input (ignoring case), with the answer of the first such row and nothing selected or scored; the token count uses the untrimmed input |
| AiSpecialistRouter.FallbackDefaultSpec | src/services/aiSpecialistRouter.ts:235-260 | any other input selects the empathetic facilitator alone at 0.8, scores every other profile 0, at medium complexity and with no direct answer |
| AiSpecialistRouter.FarewellCiaoShadowed | src/services/aiSpecialistRouter.ts:213-217 | "ciao" is listed as a farewell too, but "Ciao" and "ciao" always get the greeting's answer |
| AiSpecialistRouter.CiaoKeys | src/services/aiSpecialistRouter.ts:221 | "Ciao" and "ciao" trimmed and lower-cased are "ciao" |
| AiSpecialistRouter.RouteSpec | src/services/aiSpecialistRouter.ts:50-110 | every decision `route` returns is well formed: a generic one selects and scores nothing and carries a direct answer; any other selects at least one registry profile and scores every profile in registry order |
| AiSpecialistRouter.FallbackWellFormed | src/services/aiSpecialistRouter.ts:208-261 | the fallback decision is well formed |
| AiSpecialistRouter.AcceptedDecisionSpec | src/services/aiSpecialistRouter.ts:85-101 | the decision built from an accepted reply is well formed |
| AiSpecialistRouter.RouteFallsBack | src/services/aiSpecialistRouter.ts:103-109 | a failed request, an empty reply, or a reply that cannot be parsed, validated or converted ends in the fallback |
| AiSynthesizer.ValidChains | src/services/aiSynthesizer.ts:163-165 | the filter keeps only valid chains, never more than given |
| AiSynthesizer.ValidChainsSpec | src/services/aiSynthesizer.ts:60 | a chain is kept exactly when it is valid; nothing is kept exactly when no chain is valid |
| AiSynthesizer.Names | src/services/aiSynthesizer.ts:114 | one name per chain, in order |
| AiSynthesizer.WeightsOfKeys | src/services/aiSynthesizer.ts:106-109 | the weight map has a key for each chain's specialist and no other |
| AiSynthesizer.WeightsOfLast | src/services/aiSynthesizer.ts:106-109 | each specialist maps to the weight of its last chain: later chains overwrite earlier ones |
| AiSynthesizer.WeightsOfSpec | src/services/aiSynthesizer.ts:194-197 | the two statements above together |
| AiSynthesizer.WeightsOfValues | src/services/aiSynthesizer.ts:194-197 | every weight in the map is the weight of one of that specialist's chains |
| AiSynthesizer.WeightsOfLightest | src/services/aiSynthesizer.ts:177-197 | when the chains come heaviest first, each specialist's entry is no heavier than any of its chains, so it is the lightest |
| AiSynthesizer.SortedWeightsLightest | src/services/aiSynthesizer.ts:177-197 | filling the weights after the in-place sort gives each specialist the weight of one of its chains, none of which is lighter |
| AiSynthesizer.FillWeights | src/services/aiSynthesizer.ts:106-109 | the `forEach` that fills the map yields the weight map |
| AiSynthesizer.ParseSynthesisResponse | src/services/aiSynthesizer.ts:129-157 | never fails; the reply's object is used exactly when a JSON candidate parses to an object with a truthy `finalAnswer`; otherwise the raw reply is the answer |
| AiSynthesizer.ExtraLines | src/services/aiSynthesizer.ts:189-191 | one bullet per supplementary chain, in order |
| AiSynthesizer.Supplements | src/services/aiSynthesizer.ts:187-189 | at most two chains after the leader, a prefix of the rest: two when there are three or more chains |
| AiSynthesizer.SortedByWeight | src/services/aiSynthesizer.ts:177 | sorting keeps the number of chains |
| AiSynthesizer.SortedByWeightSpec | src/services/aiSynthesizer.ts:177 | the sorted chains are a permutation of the chains, heaviest first, with chains of equal weight in request order (a stable sort), so the first is as heavy as any chain |
| AiSynthesizer.FallbackSynthesis | src/services/aiSynthesizer.ts:160-205 | the step-by-step fallback yields the fallback result |
| AiSynthesizer.BuildFallbackAnswer | src/services/aiSynthesizer.ts:180-192 | the answer built with `+=` is the header, the leader's first 300 characters with "...", and the supplementary bullets |
| AiSynthesizer.AppendLines | src/services/aiSynthesizer.ts:189-191 | the loop appends one bullet per supplementary chain |
| AiSynthesizer.SortedSameChains | src/services/aiSynthesizer.ts:177 | sorting keeps exactly the same chains |
| AiSynthesizer.ReportedOfSameChains | src/services/aiSynthesizer.ts:194-203 | lists with the same chains report the same names and weight keys |
| AiSynthesizer.FallbackSpec | src/services/aiSynthesizer.ts:160-205 | with no valid chain the fallback apologises and reports nothing; otherwise it reports the names of every valid chain, however many, heaviest first, leads with a heaviest one and mentions at most two more; since the weights are filled after the in-place sort, each specialist's weight is that of its lightest valid chain |
| AiSynthesizer.Synthesize | src/services/aiSynthesizer.ts:53-127 | `synthesize` yields the synthesis result |
| AiSynthesizer.FinalAnswerNeverEmpty | src/services/aiSynthesizer.ts:96-98 | the final answer is truthy, whichever path produced it |
| AiSynthesizer.NoValidChainApologises | src/services/aiSynthesizer.ts:65-67 | with no valid chain the result is the apology, whatever the service would have said |
| AiSynthesizer.ReplySpec | src/services/aiSynthesizer.ts:103-116 | with a reply, the result names every chain of the request in order and maps every chain's specialist to its last weight, valid or not; the reasoning is `synthesisReasoning`, else `approach`, else the fixed text |
| ChatSessions.CreateNewSession | src/hooks/useChat.ts:14-26 | a new empty session titled "Nuova Chat" goes first in the list and becomes current |
| ChatSessions.TitleSpec | src/hooks/useChat.ts:29 | a title keeps a message of at most 50 characters whole; a longer one becomes its first 50 characters and "..." |
| ChatSessions.UpdateSessionTitle | src/hooks/useChat.ts:28-35 | renaming keeps the number of sessions |
| ChatSessions.AddMessageToSession | src/hooks/useChat.ts:37-47 | adding a message keeps the number of sessions |
| ChatSessions.UpdateMessageInSession | src/hooks/useChat.ts:49-60 | updating a message keeps the number of sessions |
| ChatSessions.WithoutId | src/hooks/useChat.ts:238 | the filter never adds sessions |
| ChatSessions.AddMessageSpec | src/hooks/useChat.ts:37-47 | the message is appended to the matching session, which gets a new stamp; every other session is unchanged; none is added, removed or reordered |
| ChatSessions.UpdateTitleSpec | src/hooks/useChat.ts:28-35 | only the matching sessions change: their title and stamp |
| ChatSessions.UpdateMessageSpec | src/hooks/useChat.ts:49-60 | only the given fields of the matching messages of the matching session change; the session's stamp is not touched |
| ChatSessions.ContentUpdatesCollapse | src/hooks/useChat.ts:100-104 | two content updates in a row leave what the second alone would |
| ChatSessions.DeleteSessionSpec | src/hooks/useChat.ts:237-242 | exactly the sessions with that id go; deleting an id no session has leaves the list as it was; the current id is cleared exactly when it was that id |
| ChatSessions.WithoutIdSpec | src/hooks/useChat.ts:238 | a session stays exactly when its id differs |
| ChatSessions.WithoutIdAppend | src/hooks/useChat.ts:238 | removing an id from two runs of sessions is removing it from each, in order: the filter keeps order and copies |
| ChatSessions.WithoutIdSingle | src/hooks/useChat.ts:238 | one session is kept exactly when its id differs |
| ChatSessions.WithoutIdKeepsAll | src/hooks/useChat.ts:238 | a list in which no session has the id is kept whole |
| ChatSessions.WithoutThinking | src/hooks/useChat.ts:146 | the filter keeps no thinking message |
| ChatSessions.FindSession | src/hooks/useChat.ts:134 | `find` returns a session with that id, or none exists |
| ChatSessions.BlankMessageIgnored | src/hooks/useChat.ts:117 | sending does nothing exactly for blank content |
| ChatSessions.HistorySpec | src/hooks/useChat.ts:145-151 | the history is the session's messages without the thinking ones, position by position, with every non-user role mapped to assistant, then the new user message; a message is kept exactly when it is not a thinking one, and a session without thinking messages is sent whole and in order |
| ChatSessions.WithoutThinkingSpec | src/hooks/useChat.ts:146 | a message is kept exactly when it is not a thinking one |
| ChatSessions.WithoutThinkingAppend | src/hooks/useChat.ts:146 | dropping thinking messages from two runs is dropping them from each, in order: the filter keeps order and copies |
| ChatSessions.WithoutThinkingSingle | src/hooks/useChat.ts:146 | one message is kept exactly when it is not a thinking one |
| ChatSessions.WithoutThinkingKeepsAll | src/hooks/useChat.ts:146 | a list without thinking messages is kept whole |
| ChatSessions.SendMessageStartSpec | src/hooks/useChat.ts:116-137 | sending goes to the current session, or to a new one made current; a new session starts with the user's message and the title made from it |
| ChatSessions.NonBlankLinesSpec | src/hooks/useChat.ts:88 | a chunk's lines are kept exactly when they are not blank |
| ChatSessions.NonBlankLinesAppend | src/hooks/useChat.ts:88 | dropping blank lines from two runs is dropping them from each, in order: the filter keeps order and copies |
| ChatSessions.NonBlankLinesSingle | src/hooks/useChat.ts:88 | one line is kept exactly when it is not blank |
| ChatSessions.StreamTextAppend | src/hooks/useChat.ts:83-111 | each chunk is read on its own: the text of a stream is the text of its parts, so `[DONE]` ends only its chunk |
| ChatSessions.DoneDropsRestOfChunk | src/hooks/useChat.ts:93 | nothing after `[DONE]` in the same chunk counts |
| ChatSessions.MalformedFrameSkipped | src/hooks/useChat.ts:95-108 | a frame that does not parse adds nothing |
| ChatSessions.StreamResponse | src/hooks/useChat.ts:81-113 | the result is the in-order concatenation of the deltas of every chunk, each chunk read up to its own `[DONE]`; the assistant message's content is that text once it is non-empty, and the session list is untouched while it is empty |
| ChatSessions.ReadChunk | src/hooks/useChat.ts:84-110 | one chunk adds its text, and the message shows the text so far |
| ChatSessions.ReadFrames | src/hooks/useChat.ts:90-110 | a chunk's lines add their deltas up to the first `[DONE]`, and the message shows the text so far |
| ChatRoute.TruncatePrompt | src/app/api/chat/route.ts:21-23 | a prompt of at most 500 characters is unchanged; a longer one becomes its first 500 characters and "..." |
| ChatRoute.TruncatePromptIdempotent | src/app/api/chat/route.ts:21-23 | truncating twice is truncating once |
| ChatRoute.ApiMessagesSpec | src/app/api/chat/route.ts:16-29 | a system message is prepended exactly when `specialist.systemPrompt` is truthy, with a string prompt truncated; the client's messages follow unchanged |
| ChatRoute.ClassifySpec | src/app/api/chat/route.ts:132-144 | AbortError gives 408; otherwise a DEEPSEEK_API_KEY message gives the configuration error (500); otherwise "fetch failed" gives 503; anything else is a generic 500 |
| ChatRoute.Forwarded | src/app/api/chat/route.ts:88-105 | a line is forwarded exactly when it is a non-`[DONE]` `data: ` frame that parses to a value with truthy delta content, and then that value is sent |
| ChatRoute.FailureSpec | src/app/api/chat/route.ts:128-150 | a caught exception is answered with 408, 500 or 503 and its message as `debug` |
| ChatRoute.ReplySpec | src/app/api/chat/route.ts:59-126 | a valid request gets an event stream exactly when the service answered ok; the stream ends as the relay of the body ends (closed, or errored after a failed read), or errors without a body; a status that is not ok is reported with status and status text as `debug`, and a thrown error with its message |
| ChatRoute.PostValidation | src/app/api/chat/route.ts:5-13 | status 400 with "Invalid messages format" exactly for a readable, non-null body without a `messages` array; a request is sent upstream exactly for a valid body (but see the `ChatRoute.PostValidation` line under Left out) |
| ChatRoute.PostSends | src/app/api/chat/route.ts:47-53 | the request sent carries the fixed model, streaming, 1500 tokens, the prepared messages, and temperature 0.7 with a specialist, 0.5 without |
| ChatRoute.PostOutcomes | src/app/api/chat/route.ts:3-151 | every error answer is 400, 408, 500 or 503; an event stream comes only from a valid request that the service answered ok |
| ChatRoute.ScanLines | src/app/api/chat/route.ts:87-107 | scanning a chunk's complete lines enqueues the frames up to the first `[DONE]` and reports whether it met one |
| ChatRoute.RelayChunks | src/app/api/chat/route.ts:77-108 | the frames sent are those of the complete lines of the whole received text up to the first `[DONE]`, however the text was cut into chunks; the loop stops early exactly when the complete lines hold a `[DONE]` line |
| ChatRoute.Relay | src/app/api/chat/route.ts:76-116 | the stream closes at `[DONE]` or at the end of the body, and errors, recording the frames enqueued so far, when a read fails before any `[DONE]` |
| ChatRoute.ReadFailureSpec | src/app/api/chat/route.ts:111-113 | a failed read leaves the enqueued frames as they are without it; without one the stream always closes; with one it errors exactly when no `[DONE]` line had arrived |
| ChatRoute.DoneSealsStream | src/app/api/chat/route.ts:93-96 | once a complete `[DONE]` line has arrived the stream is closed with the frames before it, whatever chunks or read failure follow |
| ChatRoute.BufferStep | src/app/api/chat/route.ts:83-85 | after each chunk, the complete lines consumed, each with its newline, followed by the buffer, are all the text received, and the buffer holds no newline |
| ChatRoute.DoneEndsRelay | src/app/api/chat/route.ts:93-96 | when the first `[DONE]` line arrives in a chunk, the relay's whole output is the frames before it, whatever follows |
| ChatRoute.StreamEndsRelay | src/app/api/chat/route.ts:79-81 | when the body ends, the relay's output is the frames of the complete lines consumed |
| ChatRoute.TextAsLines | src/app/api/chat/route.ts:84-85 | any text is its complete lines, each with its newline, followed by an unterminated tail |
| ChatRoute.RelayedAppend | src/app/api/chat/route.ts:87-107 | the frames of two runs of lines are those of the first, then, unless it held `[DONE]`, those of the second |
| ChatRoute.LaterChunksIgnoredAfterDone | src/app/api/chat/route.ts:93-96 | once a complete `[DONE]` line has arrived, later chunks change nothing, and the longer stream holds that `[DONE]` line too |
| ChatRoute.TrailingTextIgnored | src/app/api/chat/route.ts:79-81 | text left in the buffer when the stream ends is never relayed, even a whole frame without its newline |
| ChatRoute.RelayedFramesCarryContent | src/app/api/chat/route.ts:98-105 | every relayed frame is the parse of some `data: ` line's payload and has truthy delta content |

## Left out

- The completion service itself: `fetch`, HTTP headers, the API key, the prompt templates, `AbortController`, the 30-second timeout, `ReadableStream`, `TextDecoder` and `TextEncoder`. Service replies, decoded chunks and whether a read fails are parameters.
- `JSON.parse` is a parameter. `JSON.stringify` of forwarded frames is left out: the relay model sends the parsed values, not the `data: <json>\n\n` bytes.
- Regular expressions with `\b` or `/i` over free text are an oracle. Case folding is ASCII only. Trimming follows JavaScript's whitespace set for the characters `Text.IsWhitespace` lists.
- Numbers are exact reals. IEEE-754 rounding of 0.15·n, ×0.7, ×1.3 and the divisions is not modelled. Neither are `toFixed` and the percentage strings built in the `features` lists. Score reasons are recorded as the list of rules that fired, not as the joined Italian text.
- `console.log` and `console.error`, `Date.now()` ids and `new Date()` stamps (ids and times are parameters), and the React `useState`, `useCallback` and `useRef` machinery. `setIsLoading` and `setCurrentPhase` are not modelled.
- `sendMessage` after its first steps: the creative and analytical streams, the phase updates and the `finally` block. Each stream is one `StreamResponse` call; the sequence of two calls is not modelled.
- `stopGeneration`, `selectSession` and `toggleShowThinking` only set React state.
- The other API routes (creative, analytical, synthesize, router) and all `.tsx` components.
- ChatRoute.Forwarded: JavaScript's string indexing counts UTF-16 code units; the model counts characters, so `slice(6)` is exact only for text in the Basic Multilingual Plane.
- ChatRoute.TruncatePrompt: `length` and `substring(0, 500)` count UTF-16 code units; the model counts characters, so a prompt with characters outside the Basic Multilingual Plane is cut later than in the source.
- ChatSessions.TitleSpec: `length > 50` and `slice(0, 50)` count UTF-16 code units; the model counts characters. A message of 26 emoji is 52 code units, so the source's title is 25 emoji and "...", where the model keeps the whole message.
- AiSynthesizer.BuildFallbackAnswer: `substring(0, 300)` and `substring(0, 150)` count UTF-16 code units; the model counts characters, so answers with characters outside the Basic Multilingual Plane keep more text than in the source.
- ChatRoute.ApiMessagesSpec: a truthy `systemPrompt` that is not a string is passed on unchanged. In the source, such a value with a `length` above 500 makes `substring` throw.
- ChatRoute.PostValidation: the text of the `TypeError` raised for a `null` body is the engine's. The model fixes one text. A thrown value that is not an `Error` is not modelled: every exception has a name and an optional message. A valid body whose truthy, non-string `systemPrompt` has a `length` above 500 is sent upstream in the model. In the source, `substring` throws before `fetch` and the reply is a 500.
- ChatRoute.ReadFailureSpec: `Errored(frames)` lists the frames enqueued before the failing read. `controller.error` then discards any that the reader has not yet pulled, so the browser may receive fewer of them; a close lets every one drain.
- AiSpecialistRouter.SelectedOfEntries: a weight that is not a JSON number reads as 0. The source copies whatever value the reply holds.
- ReplyFormat.ReplyText: indexing a string body's `choices` with `[0]` is treated as no reply, and a non-string `content` as no reply. In JavaScript, `trim` on a non-string throws, which also ends in the fallback.
- ChatSessions.StreamResponse: a delta that is truthy but not a string is treated as no delta. In the source it would be concatenated as text.
- `SpecialistProfile.chainOfThoughtPrompt` is declared by the type but absent from every registry entry. The model's profile has no such field, and neither do the `notes` and `systemPrompt` texts.

=== FILE: ai_specialist_router.dfy ===
/**
 * The language-model router: the reply of the completion service is searched
 * for a JSON object, validated, and converted into a routing decision with a
 * full per-registry score list; every failure ends in a fixed table-driven
 * fallback, so routing always yields a decision.
 *
 * The HTTP exchange is a parameter: `upstream` is the parsed body of a
 * successful response, or `None` when the request failed or the status was
 * not ok. `JSON.parse` is the parameter `parse`.
 */
module AiSpecialistRouter {
  import opened Wrappers
  import opened Json
  import opened Text
  import opened Specialists
  import opened SpecialistTypes
  import opened ReplyFormat
  import TokenAnalyzer

  /** The threshold every decision of this router reports. */
  const Threshold: real := 0.15

  // ---------------------------------------------------------------------------
  // Validating the reply

  /** Why `parseAIResponse` rejects a reply (each is rethrown as "Failed to parse AI response"). */
  datatype ParseError =
    | NoJsonFound
    | MalformedJson
    /** The object is `null`: reading `useGeneric` of it throws. */
    | NullReply
    | InvalidUseGeneric
    | InvalidSpecialists
    | MissingDirectResponse

  /** The `useGeneric` field, when it is a boolean. */
  function UseGenericFlag(v: Json): (r: Option<bool>)
    ensures r.Some? <==> Get(v, "useGeneric").Some? && Get(v, "useGeneric").value.JBool?
  {
    match Get(v, "useGeneric")
    case Some(JBool(b)) => Some(b)
    case _ => None
  }

  /** `specialists` is a non-empty array. */
  predicate ListsSpecialists(v: Json) {
    match Get(v, "specialists")
    case Some(JArr(items)) => items != []
    case _ => false
  }

  /**
   * A reply the router accepts: a boolean `useGeneric`; a generic reply has a
   * truthy `directResponse`; any other lists at least one specialist.
   */
  predicate ValidEvaluation(v: Json) {
    && UseGenericFlag(v).Some?
    && (if UseGenericFlag(v).value then TruthyOpt(Get(v, "directResponse")) else ListsSpecialists(v))
  }

  /** `parseAIResponse`. */
  function ParseAIResponse(reply: string, parse: string -> Option<Json>): (r: Result<Json, ParseError>)
    ensures r.Ok? <==>
      ExtractJson(reply).Some? && parse(ExtractJson(reply).value).Some? && ValidEvaluation(parse(ExtractJson(reply).value).value)
    ensures r.Ok? ==> parse(ExtractJson(reply).value) == Some(r.value)
  {
    match ExtractJson(reply)
    case None => Err(NoJsonFound)
    case Some(text) =>
      match parse(text)
      case None => Err(MalformedJson)
      case Some(v) =>
        if v.JNull? then Err(NullReply)
        else if UseGenericFlag(v).None? then Err(InvalidUseGeneric)
        else if !UseGenericFlag(v).value && !ListsSpecialists(v) then Err(InvalidSpecialists)
        else if UseGenericFlag(v).value && !TruthyOpt(Get(v, "directResponse")) then Err(MissingDirectResponse)
        else Ok(v)
  }

  /** The checks run in the source's order: each error names the first one that fails. */
  lemma ParseErrorOrder(reply: string, parse: string -> Option<Json>)
    ensures var r := ParseAIResponse(reply, parse);
      && (r == Err(NoJsonFound) <==> ExtractJson(reply).None?)
      && (r == Err(MalformedJson) <==> ExtractJson(reply).Some? && parse(ExtractJson(reply).value).None?)
      && (r == Err(InvalidSpecialists) ==> UseGenericFlag(parse(ExtractJson(reply).value).value) == Some(false))
      && (r == Err(MissingDirectResponse) ==> UseGenericFlag(parse(ExtractJson(reply).value).value) == Some(true))
  {
  }

  // ---------------------------------------------------------------------------
  // Converting an accepted reply

  /** Why `convertToRouterDecision` throws. */
  datatype ConvertError =
    /** `specialists` is not an array, so it has no `map`. */
    | NoSpecialistList
    /** The first entry whose `id` names no registry profile. */
    | UnknownSpecialist(id: Option<Json>)

  /** The registry profile an entry of `specialists` names. */
  function KnownProfile(item: Json): (r: Option<SpecialistProfile>)
    ensures r.Some? ==> r.value in Registry
  {
    match Get(item, "id")
    case Some(JStr(id)) => Find(id)
    case _ => None
  }

  /** The entry's weight, taken as it is; a weight that is not a number reads as 0. */
  function WeightOf(item: Json): real
  {
    match Get(item, "weight")
    case Some(JNum(w)) => w
    case _ => 0.0
  }

  /** The score record of one accepted entry. */
  function EntryScore(item: Json, p: SpecialistProfile): Score
  {
    var why := Get(item, "reasoning");
    Score(p, WeightOf(item), if TruthyOpt(why) then FromReply(why.value) else Fixed("AI Router selection"))
  }

  /**
   * `evaluation.specialists.map(...)`: one record per entry, in reply order,
   * failing at the first entry that names no registry profile.
   */
  function SelectedOf(items: seq<Json>): (r: Result<seq<Score>, ConvertError>)
  {
    if items == [] then Ok([])
    else
      match KnownProfile(items[0])
      case None => Err(UnknownSpecialist(Get(items[0], "id")))
      case Some(p) =>
        match SelectedOf(items[1..])
        case Err(e) => Err(e)
        case Ok(tail) => Ok([EntryScore(items[0], p)] + tail)
  }

  /** The conversion succeeds exactly when every entry names a registry profile. */
  lemma {:induction false} SelectedOfOk(items: seq<Json>)
    ensures SelectedOf(items).Ok? <==> forall k :: 0 <= k < |items| ==> KnownProfile(items[k]).Some?
  {
    if items != [] {
      var rest := items[1..];
      SelectedOfOk(rest);
      assert forall k :: 1 <= k < |items| ==> items[k] == rest[k - 1];
    }
  }

  /** A successful conversion keeps one record per entry, in place. */
  lemma {:induction false} SelectedOfEntries(items: seq<Json>)
    requires SelectedOf(items).Ok?
    ensures |SelectedOf(items).value| == |items|
    ensures forall k :: 0 <= k < |items| ==> (
      && KnownProfile(items[k]).Some?
      && SelectedOf(items).value[k] == EntryScore(items[k], KnownProfile(items[k]).value))
  {
    if items != [] {
      var rest := items[1..];
      var r := SelectedOf(items).value;
      var tail := SelectedOf(rest).value;
      SelectedOfCons(items);
      SelectedOfEntries(rest);
      forall k | 1 <= k < |items|
        ensures KnownProfile(items[k]).Some? && r[k] == EntryScore(items[k], KnownProfile(items[k]).value)
      {
        assert items[k] == rest[k - 1];
        assert r[k] == r[1..][k - 1];
      }
    }
  }

  /** One step of a successful conversion. */
  lemma SelectedOfCons(items: seq<Json>)
    requires items != [] && SelectedOf(items).Ok?
    ensures KnownProfile(items[0]).Some? && SelectedOf(items[1..]).Ok?
    ensures |SelectedOf(items).value| == 1 + |SelectedOf(items[1..]).value|
    ensures SelectedOf(items).value[0] == EntryScore(items[0], KnownProfile(items[0]).value)
    ensures SelectedOf(items).value[1..] == SelectedOf(items[1..]).value
  {
  }

  /** A failed conversion names the first entry that names no registry profile. */
  lemma {:induction false} SelectedOfErr(items: seq<Json>)
    ensures SelectedOf(items).Err? ==> exists k :: (
      && 0 <= k < |items| && KnownProfile(items[k]).None?
      && SelectedOf(items).error == UnknownSpecialist(Get(items[k], "id"))
      && forall j :: 0 <= j < k ==> KnownProfile(items[j]).Some?)
  {
    if items != [] && KnownProfile(items[0]).Some? && SelectedOf(items).Err? {
      var rest := items[1..];
      SelectedOfErr(rest);
      var k :| 0 <= k < |rest| && KnownProfile(rest[k]).None?
        && SelectedOf(rest).error == UnknownSpecialist(Get(rest[k], "id"))
        && forall j :: 0 <= j < k ==> KnownProfile(rest[j]).Some?;
      assert items[k + 1] == rest[k];
      forall j | 0 <= j < k + 1 ensures KnownProfile(items[j]).Some? {
        if j > 0 {
          assert items[j] == rest[j - 1];
        }
      }
    }
  }

  /**
   * The conversion succeeds exactly when every entry names a registry
   * profile; it then keeps one record per entry, in reply order; otherwise it
   * fails at the first entry that names none.
   */
  lemma SelectedOfSpec(items: seq<Json>)
    ensures SelectedOf(items).Ok? <==> forall k :: 0 <= k < |items| ==> KnownProfile(items[k]).Some?
    ensures SelectedOf(items).Ok? ==> (
      && |SelectedOf(items).value| == |items|
      && forall k :: 0 <= k < |items| ==> SelectedOf(items).value[k] == EntryScore(items[k], KnownProfile(items[k]).value))
    ensures SelectedOf(items).Err? ==> exists k :: (
      && 0 <= k < |items| && KnownProfile(items[k]).None?
      && SelectedOf(items).error == UnknownSpecialist(Get(items[k], "id"))
      && forall j :: 0 <= j < k ==> KnownProfile(items[j]).Some?)
  {
    SelectedOfOk(items);
    if SelectedOf(items).Ok? {
      SelectedOfEntries(items);
    }
    SelectedOfErr(items);
  }

  /** The first record for the profile with the given id (`selectedSpecialists.find`). */
  function FirstFor(selected: seq<Score>, id: string): (r: Option<Score>)
    ensures r.Some? <==> exists k :: 0 <= k < |selected| && selected[k].specialist.id == id
    ensures r.Some? ==> exists k :: (
      && 0 <= k < |selected| && selected[k] == r.value
      && r.value.specialist.id == id && forall j :: 0 <= j < k ==> selected[j].specialist.id != id)
  {
    if selected == [] then None
    else if selected[0].specialist.id == id then Some(selected[0])
    else
      var r := FirstFor(selected[1..], id);
      assert forall k :: 1 <= k < |selected| ==> selected[k] == selected[1..][k - 1];
      r
  }

  /** Every registry profile with its record from the reply, or a zero score when the reply did not select it. */
  function AllScoresOf(selected: seq<Score>): (r: seq<Score>)
    ensures |r| == |Registry|
  {
    seq(|Registry|, i requires 0 <= i < |Registry| =>
      match FirstFor(selected, Registry[i].id)
      case Some(s) => s
      case None => Score(Registry[i], 0.0, Fixed("Not selected by AI Router")))
  }

  /** The reply's own `reasoning` when it is truthy, otherwise `fallback`. */
  function ReasonOr(v: Json, fallback: RouteReason): RouteReason
  {
    var why := Get(v, "reasoning");
    if TruthyOpt(why) then ReplyReasoning(why.value) else fallback
  }

  /** `convertToRouterDecision`. */
  function ConvertToRouterDecision(v: Json, userInput: string): (r: Result<RouterDecision, ConvertError>)
  {
    var tokenCount := TokenAnalyzer.TokenCount(SplitCount(userInput));
    if TruthyOpt(Get(v, "useGeneric")) then
      Ok(RouterDecision(true, [], [], tokenCount, Low,
                        ReasonOr(v, FixedReason("AI Router determined generic API usage with direct response")),
                        Threshold, None))
    else
      match Get(v, "specialists")
      case Some(JArr(items)) =>
        (match SelectedOf(items)
         case Err(e) => Err(e)
         case Ok(selected) =>
           Ok(RouterDecision(false, selected, AllScoresOf(selected), tokenCount,
                             if |selected| >= 3 then High else Medium,
                             ReasonOr(v, AiSelectedCount(|selected|)), Threshold, None)))
      case _ => Err(NoSpecialistList)
  }

  /** A record whose profile has a registry id is that registry profile's record. */
  lemma SameIdSameProfile(s: Score, i: nat)
    requires i < |Registry| && s.specialist in Registry && s.specialist.id == Registry[i].id
    ensures s.specialist == Registry[i]
  {
    IdsDistinct();
  }

  /**
   * The full list has one record per registry profile, in registry order: the
   * first record the reply gave that profile, or a zero score.
   */
  lemma AllScoresSpec(selected: seq<Score>)
    requires forall k :: 0 <= k < |selected| ==> selected[k].specialist in Registry
    ensures AlignedWithRegistry(AllScoresOf(selected))
    ensures forall i :: 0 <= i < |Registry| ==>
      if exists k :: 0 <= k < |selected| && selected[k].specialist == Registry[i]
      then AllScoresOf(selected)[i] in selected
      else AllScoresOf(selected)[i].score == 0.0
  {
    var all := AllScoresOf(selected);
    forall i | 0 <= i < |Registry|
      ensures all[i].specialist == Registry[i]
      ensures if exists k :: 0 <= k < |selected| && selected[k].specialist == Registry[i]
              then all[i] in selected else all[i].score == 0.0
    {
      var f := FirstFor(selected, Registry[i].id);
      if f.Some? {
        var k :| 0 <= k < |selected| && selected[k] == f.value;
        SameIdSameProfile(selected[k], i);
      } else {
        assert forall k :: 0 <= k < |selected| ==> selected[k].specialist.id != Registry[i].id;
      }
    }
  }

  /**
   * A generic reply becomes a generic decision with no scores; any other
   * becomes, when every entry names a registry profile, the entries in reply
   * order with their weights unchanged (not clipped, not capped at three, not
   * renormalised), the full registry list, and high complexity exactly from
   * three selections on.
   */
  lemma ConvertSpec(v: Json, userInput: string)
    ensures var r := ConvertToRouterDecision(v, userInput);
      && (r.Ok? ==> r.value.activationThreshold == Threshold && r.value.directResponse == None
                    && r.value.tokenCount == TokenAnalyzer.TokenCount(SplitCount(userInput)))
      && (TruthyOpt(Get(v, "useGeneric")) ==>
            r.Ok? && r.value.useGeneric && r.value.selectedSpecialists == [] && r.value.allScores == []
            && r.value.complexity == Low)
      && (!TruthyOpt(Get(v, "useGeneric")) && r.Ok? ==>
            var items := Get(v, "specialists").value.items;
            var sel := r.value.selectedSpecialists;
            && !r.value.useGeneric
            && |sel| == |items|
            && (forall k :: 0 <= k < |sel| ==> sel[k].specialist in Registry && sel[k].score == WeightOf(items[k]))
            && AlignedWithRegistry(r.value.allScores)
            && (r.value.complexity == High <==> |sel| >= 3)
            && r.value.complexity != Low)
  {
    var r := ConvertToRouterDecision(v, userInput);
    if !TruthyOpt(Get(v, "useGeneric")) && r.Ok? {
      var items := Get(v, "specialists").value.items;
      var sel := r.value.selectedSpecialists;
      assert SelectedOf(items) == Ok(sel);
      SelectedOfEntries(items);
      AllScoresSpec(sel);
    }
  }

  // ---------------------------------------------------------------------------
  // The fallback table

  /** One row of the fallback table: the trimmed inputs it answers, ignoring case, and its answer. */
  datatype CannedReply = CannedReply(inputs: set<string>, response: string)

  const FallbackTable: seq<CannedReply> := [
    CannedReply({"ciao", "hello", "hi", "salve", "buongiorno", "buonasera"},
                "Ciao! Come posso aiutarti oggi? \U{1F60A}"),
    CannedReply({"come stai", "come va", "tutto bene"},
                "Grazie per aver chiesto! Sto bene e sono qui per aiutarti. Come posso esserti utile?"),
    CannedReply({"grazie", "thanks", "thx"},
                "Prego! È stato un piacere aiutarti. Se hai altre domande, sono qui! \U{1F642}"),
    CannedReply({"ok", "okay", "va bene", "perfetto"},
                "Perfetto! Se hai bisogno di altro, fammi sapere."),
    CannedReply({"arrivederci", "ciao", "bye", "addio"},
                "Arrivederci! È stato un piacere chiacchierare con te. A presto! \U{1F44B}")
  ]

  /** The first row, from `from` on, that answers `key`. */
  function FirstCanned(key: string, from: nat): (r: Option<nat>)
    requires from <= |FallbackTable|
    ensures r.Some? ==> from <= r.value < |FallbackTable| && key in FallbackTable[r.value].inputs
    ensures forall k :: from <= k < (if r.Some? then r.value else |FallbackTable|) ==> key !in FallbackTable[k].inputs
    decreases |FallbackTable| - from
  {
    if from == |FallbackTable| then None
    else if key in FallbackTable[from].inputs then Some(from)
    else FirstCanned(key, from + 1)
  }

  /** The decision of `fallbackRouting`. */
  function FallbackOf(userInput: string): (d: RouterDecision)
  {
    var tokenCount := TokenAnalyzer.TokenCount(SplitCount(userInput));
    match FirstCanned(Lower(Trim(userInput)), 0)
    case Some(k) =>
      RouterDecision(true, [], [], tokenCount, Low,
                     FixedReason("Fallback routing - simple greeting/response with direct answer"),
                     Threshold, Some(JStr(FallbackTable[k].response)))
    case None =>
      RouterDecision(false, [EmpatheticDefault()], FallbackScores(), tokenCount, Medium,
                     FixedReason("Fallback routing - using empathetic facilitator as safe default"),
                     Threshold, None)
  }

  /** The registry's empathetic facilitator. */
  function Empathetic(): (p: SpecialistProfile)
    ensures p in Registry && p.id == EmpatheticFacilitator
  {
    RegistryOrder();
    Registry[3]
  }

  function EmpatheticDefault(): Score
  {
    Score(Empathetic(), 0.8, Fixed("Fallback routing - empathetic default"))
  }

  /** The full list of the default fallback: 0.8 for the empathetic facilitator, 0 for every other profile. */
  function FallbackScores(): (r: seq<Score>)
    ensures |r| == |Registry|
  {
    seq(|Registry|, i requires 0 <= i < |Registry| =>
      if Registry[i].id == EmpatheticFacilitator then Score(Registry[i], 0.8, Fixed("Fallback default"))
      else Score(Registry[i], 0.0, Fixed("Not selected")))
  }

  /** `fallbackRouting`: the table is tried in order and the first row that answers the trimmed input wins. */
  method FallbackRouting(userInput: string) returns (d: RouterDecision)
    ensures d == FallbackOf(userInput)
  {
    var tokenCount := TokenAnalyzer.TokenCount(SplitCount(userInput));
    var key := Lower(Trim(userInput));
    for k := 0 to |FallbackTable|
      invariant FirstCanned(key, 0) == FirstCanned(key, k)
    {
      if key in FallbackTable[k].inputs {
        d := RouterDecision(true, [], [], tokenCount, Low,
                            FixedReason("Fallback routing - simple greeting/response with direct answer"),
                            Threshold, Some(JStr(FallbackTable[k].response)));
        return;
      }
    }
    d := RouterDecision(false, [EmpatheticDefault()], FallbackScores(), tokenCount, Medium,
                        FixedReason("Fallback routing - using empathetic facilitator as safe default"),
                        Threshold, None);
  }

  /**
   * The fallback answers generically exactly the inputs that some row lists
   * (after trimming, ignoring case), with the answer of the first such row,
   * selecting and scoring nothing. The token count is taken from the
   * untrimmed input.
   */
  lemma FallbackCannedSpec(userInput: string)
    ensures var d := FallbackOf(userInput); var key := Lower(Trim(userInput));
      && d.tokenCount == TokenAnalyzer.TokenCount(SplitCount(userInput))
      && d.activationThreshold == Threshold
      && ((exists k :: 0 <= k < |FallbackTable| && key in FallbackTable[k].inputs) <==> d.useGeneric)
      && (d.useGeneric ==>
            && d.selectedSpecialists == [] && d.allScores == [] && d.complexity == Low
            && exists k :: 0 <= k < |FallbackTable| && key in FallbackTable[k].inputs
                 && d.directResponse == Some(JStr(FallbackTable[k].response))
                 && forall j :: 0 <= j < k ==> key !in FallbackTable[j].inputs)
  {
    var key := Lower(Trim(userInput));
    var f := FirstCanned(key, 0);
    if f.None? {
      assert forall k :: 0 <= k < |FallbackTable| ==> key !in FallbackTable[k].inputs;
    }
  }

  /**
   * Any other input goes to the empathetic facilitator alone, at 0.8, with 0
   * for every other profile, at medium complexity and with no direct answer.
   */
  lemma FallbackDefaultSpec(userInput: string)
    ensures var d := FallbackOf(userInput);
      !d.useGeneric ==>
        && |d.selectedSpecialists| == 1
        && d.selectedSpecialists[0].specialist.id == EmpatheticFacilitator
        && d.selectedSpecialists[0].score == 0.8
        && AlignedWithRegistry(d.allScores)
        && (forall i :: 0 <= i < |Registry| ==>
              d.allScores[i].score == if Registry[i].id == EmpatheticFacilitator then 0.8 else 0.0)
        && d.complexity == Medium && d.directResponse == None
  {
  }

  /** "ciao" is also listed as a farewell, but the greeting row comes first and always answers it. */
  lemma FarewellCiaoShadowed()
    ensures "ciao" in FallbackTable[4].inputs
    ensures FallbackOf("Ciao").directResponse == Some(JStr(FallbackTable[0].response))
    ensures FallbackOf("ciao").directResponse == FallbackOf("Ciao").directResponse
  {
    CiaoKeys();
    assert FirstCanned("ciao", 0) == Some(0);
  }

  lemma CiaoKeys()
    ensures Lower(Trim("Ciao")) == "ciao" && Lower(Trim("ciao")) == "ciao"
  {
    assert Trim("Ciao") == "Ciao";
    assert Trim("ciao") == "ciao";
    assert Lower("Ciao") == "ciao";
    assert Lower("ciao") == "ciao";
  }

  // ---------------------------------------------------------------------------
  // Routing

  /** The decision of an accepted reply, with its `directResponse` when that is truthy. */
  function WithDirectResponse(d: RouterDecision, v: Json): RouterDecision
  {
    var direct := Get(v, "directResponse");
    d.(directResponse := if TruthyOpt(direct) then Some(direct.value) else None)
  }

  /** `route`: the reply's decision when every step succeeds, otherwise the fallback. */
  function RouteOf(userInput: string, upstream: Option<Json>, parse: string -> Option<Json>): RouterDecision
  {
    var text := if upstream.Some? then ReplyText(upstream.value) else None;
    if text.None? then FallbackOf(userInput)
    else
      match ParseAIResponse(text.value, parse)
      case Err(_) => FallbackOf(userInput)
      case Ok(v) =>
        match ConvertToRouterDecision(v, userInput)
        case Err(_) => FallbackOf(userInput)
        case Ok(d) => WithDirectResponse(d, v)
  }

  /**
   * Every decision `route` returns is well formed: a generic decision selects
   * nothing, scores nothing and carries a direct answer; any other selects at
   * least one registry profile and scores every profile in registry order.
   */
  lemma RouteSpec(userInput: string, upstream: Option<Json>, parse: string -> Option<Json>)
    ensures WellFormedDecision(RouteOf(userInput, upstream, parse), userInput)
  {
    var text := if upstream.Some? then ReplyText(upstream.value) else None;
    if text.Some? && ParseAIResponse(text.value, parse).Ok?
       && ConvertToRouterDecision(ParseAIResponse(text.value, parse).value, userInput).Ok? {
      AcceptedDecisionSpec(ParseAIResponse(text.value, parse).value, userInput);
    } else {
      RouteFallsBack(userInput, upstream, parse);
      FallbackWellFormed(userInput);
    }
  }

  /**
   * A well-formed decision: the fixed threshold, the token count of the
   * untrimmed input; a generic decision selects nothing, scores nothing and
   * carries a direct answer; any other selects at least one registry profile
   * and scores every profile in registry order.
   */
  ghost predicate WellFormedDecision(d: RouterDecision, userInput: string) {
    && d.activationThreshold == Threshold
    && d.tokenCount == TokenAnalyzer.TokenCount(SplitCount(userInput))
    && (d.useGeneric ==>
          d.selectedSpecialists == [] && d.allScores == [] && d.complexity == Low && d.directResponse.Some?)
    && (!d.useGeneric ==>
          && d.selectedSpecialists != []
          && (forall k :: 0 <= k < |d.selectedSpecialists| ==> d.selectedSpecialists[k].specialist in Registry)
          && AlignedWithRegistry(d.allScores))
  }

  lemma FallbackWellFormed(userInput: string)
    ensures WellFormedDecision(FallbackOf(userInput), userInput)
  {
    FallbackCannedSpec(userInput);
    FallbackDefaultSpec(userInput);
  }

  /** The decision built from an accepted reply is well formed. */
  lemma AcceptedDecisionSpec(v: Json, userInput: string)
    requires ValidEvaluation(v) && ConvertToRouterDecision(v, userInput).Ok?
    ensures WellFormedDecision(WithDirectResponse(ConvertToRouterDecision(v, userInput).value, v), userInput)
  {
    ConvertSpec(v, userInput);
    if !TruthyOpt(Get(v, "useGeneric")) {
      assert UseGenericFlag(v) == Some(false);
    }
  }

  /** When the service fails, or its reply cannot be parsed, validated or converted, `route` returns the fallback. */
  lemma RouteFallsBack(userInput: string, upstream: Option<Json>, parse: string -> Option<Json>)
    requires || upstream.None?
             || ReplyText(upstream.value).None?
             || ParseAIResponse(ReplyText(upstream.value).value, parse).Err?
             || ConvertToRouterDecision(ParseAIResponse(ReplyText(upstream.value).value, parse).value, userInput).Err?
    ensures RouteOf(userInput, upstream, parse) == FallbackOf(userInput)
  {
  }
}

=== FILE: ai_synthesizer.dfy ===
/**
 * The synthesizer that merges the specialists' chains of thought into one
 * answer: valid chains are sent to the completion service, whose reply is
 * read tolerantly; any failure ends in a local fallback that leads with the
 * heaviest chain and adds at most two more.
 *
 * The HTTP exchange is a parameter: `upstream` is the parsed body of a
 * successful response, or `None` when the request failed or the status was
 * not ok. `JSON.parse` is the parameter `parse`. The prompt text is not
 * modelled: only whether there is something to send.
 */
module AiSynthesizer {
  import opened Wrappers
  import opened Json
  import opened Text
  import opened Specialists
  import opened StableSort
  import opened ReplyFormat

  /** One specialist's chain of thought; times are clock readings. */
  datatype ChainEntry = ChainEntry(
    id: string,
    specialist: SpecialistProfile,
    content: string,
    isStreaming: bool,
    isComplete: bool,
    error: Option<string>,
    weight: real,
    startTime: int,
    endTime: Option<int>)

  datatype SynthesisRequest = SynthesisRequest(userQuery: string, chainOfThoughts: seq<ChainEntry>)

  /** The answer and its reasoning are whatever values the reply's JSON holds, so they are JSON values. */
  datatype SynthesisResponse = SynthesisResponse(
    finalAnswer: Json,
    synthesisReasoning: Json,
    specialistsUsed: seq<string>,
    weightDistribution: map<string, real>)

  // ---------------------------------------------------------------------------
  // Chains

  /** `chain.content && chain.isComplete && !chain.error`: an empty error message counts as no error. */
  predicate IsValid(c: ChainEntry) {
    c.content != "" && c.isComplete && (c.error.None? || c.error.value == "")
  }

  /** The valid chains, in request order. */
  function ValidChains(chains: seq<ChainEntry>): (r: seq<ChainEntry>)
    ensures |r| <= |chains|
    ensures forall k :: 0 <= k < |r| ==> IsValid(r[k])
  {
    if chains == [] then []
    else ValidChains(chains[..|chains| - 1]) + (if IsValid(chains[|chains| - 1]) then [chains[|chains| - 1]] else [])
  }

  /** The filter keeps exactly the valid chains. */
  lemma {:induction false} ValidChainsSpec(chains: seq<ChainEntry>)
    ensures forall c :: c in ValidChains(chains) <==> c in chains && IsValid(c)
    ensures ValidChains(chains) == [] <==> forall k :: 0 <= k < |chains| ==> !IsValid(chains[k])
  {
    if chains != [] {
      var init := chains[..|chains| - 1];
      ValidChainsSpec(init);
      assert chains == init + [chains[|chains| - 1]];
    }
  }

  /** `chains.map(chain => chain.specialist.name)`. */
  function Names(chains: seq<ChainEntry>): (r: seq<string>)
    ensures |r| == |chains| && forall k :: 0 <= k < |chains| ==> r[k] == chains[k].specialist.name
  {
    seq(|chains|, k requires 0 <= k < |chains| => chains[k].specialist.name)
  }

  // ---------------------------------------------------------------------------
  // The weight distribution

  /** The map after `weightDistribution[chain.specialist.id] = chain.weight` for each chain in turn. */
  function WeightsOf(chains: seq<ChainEntry>): map<string, real>
  {
    if chains == [] then map[]
    else WeightsOf(chains[..|chains| - 1])[chains[|chains| - 1].specialist.id := chains[|chains| - 1].weight]
  }

  /** The map has a key for every chain's specialist and no other. */
  lemma {:induction false} WeightsOfKeys(chains: seq<ChainEntry>)
    ensures forall id :: id in WeightsOf(chains) <==> exists k :: 0 <= k < |chains| && chains[k].specialist.id == id
  {
    if chains != [] {
      var n := |chains| - 1;
      var init := chains[..n];
      WeightsOfKeys(init);
      assert WeightsOf(chains) == WeightsOf(init)[chains[n].specialist.id := chains[n].weight];
      forall id | id in WeightsOf(chains) ensures exists k :: 0 <= k < |chains| && chains[k].specialist.id == id {
        if id != chains[n].specialist.id {
          assert id in WeightsOf(init);
          var k :| 0 <= k < |init| && init[k].specialist.id == id;
          assert chains[k] == init[k];
        }
      }
      forall id | exists k :: 0 <= k < |chains| && chains[k].specialist.id == id ensures id in WeightsOf(chains) {
        var k :| 0 <= k < |chains| && chains[k].specialist.id == id;
        if k < n {
          assert init[k] == chains[k];
        }
      }
    }
  }

  /** The map holds the weight of the last chain for each specialist: later chains overwrite earlier ones. */
  lemma {:induction false} WeightsOfLast(chains: seq<ChainEntry>)
    ensures forall k :: 0 <= k < |chains| && (forall j :: k < j < |chains| ==> chains[j].specialist.id != chains[k].specialist.id) ==>
              chains[k].specialist.id in WeightsOf(chains) && WeightsOf(chains)[chains[k].specialist.id] == chains[k].weight
  {
    if chains != [] {
      var n := |chains| - 1;
      var init := chains[..n];
      WeightsOfLast(init);
      assert WeightsOf(chains) == WeightsOf(init)[chains[n].specialist.id := chains[n].weight];
      forall k | 0 <= k < |chains| && (forall j :: k < j < |chains| ==> chains[j].specialist.id != chains[k].specialist.id)
        ensures chains[k].specialist.id in WeightsOf(chains) && WeightsOf(chains)[chains[k].specialist.id] == chains[k].weight
      {
        if k < n {
          forall j | k < j < |init| ensures init[j].specialist.id != init[k].specialist.id {
            assert init[j] == chains[j];
          }
        }
      }
    }
  }

  /** Every value in the map is the weight of some chain for that specialist. */
  lemma {:induction false} WeightsOfValues(chains: seq<ChainEntry>)
    ensures forall id :: id in WeightsOf(chains) ==>
              exists k :: 0 <= k < |chains| && chains[k].specialist.id == id && chains[k].weight == WeightsOf(chains)[id]
  {
    if chains != [] {
      var n := |chains| - 1;
      var init := chains[..n];
      WeightsOfValues(init);
      assert WeightsOf(chains) == WeightsOf(init)[chains[n].specialist.id := chains[n].weight];
      forall id | id in WeightsOf(chains)
        ensures exists k :: 0 <= k < |chains| && chains[k].specialist.id == id && chains[k].weight == WeightsOf(chains)[id]
      {
        if id != chains[n].specialist.id {
          var k :| 0 <= k < |init| && init[k].specialist.id == id && init[k].weight == WeightsOf(init)[id];
          assert chains[k] == init[k];
        }
      }
    }
  }

  /**
   * When the chains come heaviest first, the last write for a specialist is
   * its lightest chain: no chain of that specialist weighs less than its entry.
   */
  lemma {:induction false} WeightsOfLightest(chains: seq<ChainEntry>)
    requires forall p, q :: 0 <= p < q < |chains| ==> chains[p].weight >= chains[q].weight
    ensures forall i :: 0 <= i < |chains| ==>
              chains[i].specialist.id in WeightsOf(chains) && WeightsOf(chains)[chains[i].specialist.id] <= chains[i].weight
  {
    if chains != [] {
      var n := |chains| - 1;
      var init := chains[..n];
      forall p, q | 0 <= p < q < |init| ensures init[p].weight >= init[q].weight {
        assert init[p] == chains[p] && init[q] == chains[q];
      }
      WeightsOfLightest(init);
      assert WeightsOf(chains) == WeightsOf(init)[chains[n].specialist.id := chains[n].weight];
      forall i | 0 <= i < |chains|
        ensures chains[i].specialist.id in WeightsOf(chains) && WeightsOf(chains)[chains[i].specialist.id] <= chains[i].weight
      {
        if i < n {
          assert init[i] == chains[i];
        }
      }
    }
  }

  /**
   * The map has a key for every chain's specialist and no other, and holds
   * the weight of the last chain for that specialist.
   */
  lemma WeightsOfSpec(chains: seq<ChainEntry>)
    ensures forall id :: id in WeightsOf(chains) <==> exists k :: 0 <= k < |chains| && chains[k].specialist.id == id
    ensures forall k :: 0 <= k < |chains| && (forall j :: k < j < |chains| ==> chains[j].specialist.id != chains[k].specialist.id) ==>
              WeightsOf(chains)[chains[k].specialist.id] == chains[k].weight
  {
    WeightsOfKeys(chains);
    WeightsOfLast(chains);
  }

  /** The `forEach` that fills the weight distribution. */
  method FillWeights(chains: seq<ChainEntry>) returns (weightDistribution: map<string, real>)
    ensures weightDistribution == WeightsOf(chains)
  {
    weightDistribution := map[];
    for i := 0 to |chains|
      invariant weightDistribution == WeightsOf(chains[..i])
    {
      WeightsOfPrefix(chains, i);
      weightDistribution := weightDistribution[chains[i].specialist.id := chains[i].weight];
    }
    WeightsOfWhole(chains);
  }

  lemma WeightsOfPrefix(chains: seq<ChainEntry>, i: nat)
    requires i < |chains|
    ensures WeightsOf(chains[..i + 1]) == WeightsOf(chains[..i])[chains[i].specialist.id := chains[i].weight]
  {
    assert chains[..i + 1][..i] == chains[..i];
  }

  lemma WeightsOfWhole(chains: seq<ChainEntry>)
    ensures WeightsOf(chains[..|chains|]) == WeightsOf(chains)
  {
    assert chains[..|chains|] == chains;
  }

  // ---------------------------------------------------------------------------
  // Reading the reply

  /** What `parseSynthesisResponse` returns: the reply's own object, or the raw reply with a fixed reasoning. */
  datatype ParsedSynthesis = Parsed(value: Json) | Raw(text: string, why: string)

  /** `parseSynthesisResponse`: never fails; without a usable JSON object with a truthy `finalAnswer`, the raw reply is the answer. */
  function ParseSynthesisResponse(reply: string, parse: string -> Option<Json>): (r: ParsedSynthesis)
    ensures r.Parsed? <==>
      ExtractJson(reply).Some? && parse(ExtractJson(reply).value).Some?
      && TruthyOpt(Get(parse(ExtractJson(reply).value).value, "finalAnswer"))
    ensures r.Parsed? ==> TruthyOpt(Get(r.value, "finalAnswer"))
    ensures r.Raw? ==> r.text == reply
  {
    match ExtractJson(reply)
    case None => Raw(reply, "Direct response from AI synthesizer")
    case Some(text) =>
      match parse(text)
      case None => Raw(reply, "Fallback parsing - using raw response")
      case Some(v) =>
        if TruthyOpt(Get(v, "finalAnswer")) then Parsed(v)
        else Raw(reply, "Fallback parsing - using raw response")
  }

  /** `synthesis.finalAnswer`. */
  function AnswerOf(p: ParsedSynthesis): Json
  {
    match p
    case Parsed(v) => if TruthyOpt(Get(v, "finalAnswer")) then Get(v, "finalAnswer").value else JNull
    case Raw(text, _) => JStr(text)
  }

  /** `synthesis.synthesisReasoning || synthesis.approach || 'AI synthesis completed'`. */
  function SynthesisReasoningOf(p: ParsedSynthesis): Json
  {
    match p
    case Parsed(v) =>
      var reasoning := Get(v, "synthesisReasoning");
      var approach := Get(v, "approach");
      if TruthyOpt(reasoning) then reasoning.value
      else if TruthyOpt(approach) then approach.value
      else JStr("AI synthesis completed")
    case Raw(_, why) => JStr(why)
  }

  // ---------------------------------------------------------------------------
  // The local fallback

  const Apology := "Mi dispiace, non sono riuscito a processare adeguatamente le catene di pensiero degli specialisti. Potresti riformulare la domanda?"
  const FallbackHeader := "Basandomi sull'analisi degli specialisti:\n\n"
  const MoreHeader := "**Considerazioni aggiuntive:**\n"

  /** The lead chain's paragraph: its first 300 characters. */
  function MainBlock(c: ChainEntry): string
  {
    "**" + c.specialist.name + "** (insight principale):\n" + Take(c.content, 300) + "...\n\n"
  }

  /** A supplementary chain's bullet: its first 150 characters. */
  function ExtraLine(c: ChainEntry): string
  {
    "• **" + c.specialist.name + "**: " + Take(c.content, 150) + "...\n"
  }

  function ExtraLines(chains: seq<ChainEntry>): (r: seq<string>)
    ensures |r| == |chains| && forall k :: 0 <= k < |chains| ==> r[k] == ExtraLine(chains[k])
  {
    seq(|chains|, k requires 0 <= k < |chains| => ExtraLine(chains[k]))
  }

  /** The chains after the lead that the fallback answer mentions: at most two. */
  function Supplements(sorted: seq<ChainEntry>): (r: seq<ChainEntry>)
    ensures |r| <= 2 && r <= (if sorted == [] then [] else sorted[1..])
    ensures |sorted| >= 1 ==> |r| == if |sorted| >= 3 then 2 else |sorted| - 1
  {
    if |sorted| <= 1 then [] else sorted[1..if |sorted| < 3 then |sorted| else 3]
  }

  /** The fallback answer for chains already sorted best first. */
  function FallbackAnswer(sorted: seq<ChainEntry>): string
    requires sorted != []
  {
    FallbackHeader + MainBlock(sorted[0])
    + (if |sorted| > 1 then MoreHeader + Concat(ExtraLines(Supplements(sorted))) else "")
  }

  /** The key the sort compares: the chain's weight. */
  function WeightKey(chains: seq<ChainEntry>): nat -> real
  {
    (i: nat) => if i < |chains| then chains[i].weight else 0.0
  }

  /** `chains.sort((a, b) => b.weight - a.weight)`: a stable sort, heaviest first. */
  function SortedByWeight(chains: seq<ChainEntry>): (r: seq<ChainEntry>)
    ensures |r| == |chains|
  {
    var order := Ranking(|chains|, WeightKey(chains));
    RankingBounds(|chains|, WeightKey(chains));
    seq(|chains|, k requires 0 <= k < |chains| => chains[order[k]])
  }

  /**
   * The sorted chains are the same chains, reordered by a permutation, with
   * non-increasing weights, equal weights keeping their request order; so the
   * first one is as heavy as any.
   */
  lemma SortedByWeightSpec(chains: seq<ChainEntry>)
    ensures var r := SortedByWeight(chains);
      && (exists order :: IsPermutation(order, |chains|) && forall k :: 0 <= k < |chains| ==> r[k] == chains[order[k]])
      && (forall p, q :: 0 <= p < q < |r| ==> r[p].weight >= r[q].weight)
      && (r != [] ==> forall i :: 0 <= i < |chains| ==> chains[i].weight <= r[0].weight)
    ensures var r := SortedByWeight(chains); var order := Ranking(|chains|, WeightKey(chains));
      && IsPermutation(order, |chains|)
      && (forall k :: 0 <= k < |chains| ==> r[k] == chains[order[k]])
      && (forall p, q :: 0 <= p < q < |r| && r[p].weight == r[q].weight ==> order[p] < order[q])
  {
    var key := WeightKey(chains);
    var order := Ranking(|chains|, key);
    RankingSpec(|chains|, key);
    var r := SortedByWeight(chains);
    forall p, q | 0 <= p < q < |r| && r[p].weight == r[q].weight ensures order[p] < order[q] {
      assert key(order[p]) == key(order[q]);
    }
    forall p, q | 0 <= p < q < |r| ensures r[p].weight >= r[q].weight {
      assert key(order[p]) >= key(order[q]);
    }
    if r != [] {
      forall i | 0 <= i < |chains| ensures chains[i].weight <= r[0].weight {
        assert i in order;
        var k :| 0 <= k < |order| && order[k] == i;
        if k > 0 {
          assert key(order[0]) >= key(order[k]);
        }
      }
    }
  }

  /** The result when no chain is valid. */
  function ApologyResponse(): SynthesisResponse
  {
    SynthesisResponse(JStr(Apology), JStr("No valid chains available for synthesis"), [], map[])
  }

  /** The result of `fallbackSynthesis`. */
  function FallbackOf(request: SynthesisRequest): SynthesisResponse
  {
    var valid := ValidChains(request.chainOfThoughts);
    if valid == [] then ApologyResponse()
    else
      var sorted := SortedByWeight(valid);
      SynthesisResponse(JStr(FallbackAnswer(sorted)),
                        JStr("Fallback synthesis - weighted combination of specialist insights"),
                        Names(sorted), WeightsOf(sorted))
  }

  /**
   * `fallbackSynthesis`: sorts the valid chains heaviest first (the sorted
   * list replaces the filtered one), builds the answer piece by piece, and
   * fills the weights of every valid chain.
   */
  method FallbackSynthesis(request: SynthesisRequest) returns (r: SynthesisResponse)
    ensures r == FallbackOf(request)
  {
    var validChains := ValidChains(request.chainOfThoughts);
    if |validChains| == 0 {
      r := SynthesisResponse(JStr(Apology), JStr("No valid chains available for synthesis"), [], map[]);
      return;
    }
    validChains := SortedByWeight(validChains);
    var fallbackAnswer := BuildFallbackAnswer(validChains);
    var weightDistribution := FillWeights(validChains);
    r := SynthesisResponse(JStr(fallbackAnswer),
                           JStr("Fallback synthesis - weighted combination of specialist insights"),
                           Names(validChains), weightDistribution);
  }

  /** The answer text of `fallbackSynthesis`, built piece by piece from the sorted chains. */
  method BuildFallbackAnswer(validChains: seq<ChainEntry>) returns (fallbackAnswer: string)
    requires validChains != []
    ensures fallbackAnswer == FallbackAnswer(validChains)
  {
    var mainInsight := validChains[0];
    fallbackAnswer := FallbackHeader;
    fallbackAnswer := fallbackAnswer + MainBlock(mainInsight);
    ghost var lead := fallbackAnswer;
    if |validChains| > 1 {
      fallbackAnswer := fallbackAnswer + MoreHeader;
      var extras := validChains[1..if |validChains| < 3 then |validChains| else 3];
      fallbackAnswer := AppendLines(fallbackAnswer, extras);
      AppendAssoc(lead, MoreHeader, Concat(ExtraLines(extras)));
    } else {
      EmptyPrefix(lead);
    }
  }

  /** Sorting keeps exactly the same chains. */
  lemma SortedSameChains(chains: seq<ChainEntry>)
    ensures forall c :: c in SortedByWeight(chains) <==> c in chains
  {
    SortedByWeightSpec(chains);
    var sorted := SortedByWeight(chains);
    var order :| IsPermutation(order, |chains|) && forall k :: 0 <= k < |chains| ==> sorted[k] == chains[order[k]];
    forall c | c in chains ensures c in sorted {
      var i :| 0 <= i < |chains| && chains[i] == c;
      assert i in order;
      var k :| 0 <= k < |order| && order[k] == i;
      assert sorted[k] == c;
    }
  }

  /** A name or id is reported for a list of chains exactly when one of its chains carries it. */
  lemma ReportedOfSameChains(a: seq<ChainEntry>, b: seq<ChainEntry>)
    requires forall c :: c in a <==> c in b
    ensures forall n :: n in Names(a) <==> exists i :: 0 <= i < |b| && b[i].specialist.name == n
    ensures forall id :: id in WeightsOf(a) <==> exists i :: 0 <= i < |b| && b[i].specialist.id == id
  {
    WeightsOfSpec(a);
    forall n ensures n in Names(a) <==> exists i :: 0 <= i < |b| && b[i].specialist.name == n {
      if n in Names(a) {
        var k :| 0 <= k < |a| && Names(a)[k] == n;
        assert a[k] in b;
      }
      if exists i :: 0 <= i < |b| && b[i].specialist.name == n {
        var i :| 0 <= i < |b| && b[i].specialist.name == n;
        assert b[i] in a;
        var k :| 0 <= k < |a| && a[k] == b[i];
        assert Names(a)[k] == n;
      }
    }
    forall id ensures id in WeightsOf(a) <==> exists i :: 0 <= i < |b| && b[i].specialist.id == id {
      if id in WeightsOf(a) {
        var k :| 0 <= k < |a| && a[k].specialist.id == id;
        assert a[k] in b;
      }
      if exists i :: 0 <= i < |b| && b[i].specialist.id == id {
        var i :| 0 <= i < |b| && b[i].specialist.id == id;
        assert b[i] in a;
        var k :| 0 <= k < |a| && a[k] == b[i];
      }
    }
  }

  /** The `forEach` that appends one bullet per supplementary chain. */
  method AppendLines(prefix: string, extras: seq<ChainEntry>) returns (answer: string)
    ensures answer == prefix + Concat(ExtraLines(extras))
  {
    answer := prefix;
    for k := 0 to |extras|
      invariant answer == prefix + Concat(ExtraLines(extras[..k]))
    {
      ExtraLinesPrefix(extras, k);
      AppendAssoc(prefix, Concat(ExtraLines(extras[..k])), ExtraLine(extras[k]));
      answer := answer + ExtraLine(extras[k]);
    }
    ExtraLinesWhole(extras);
  }

  lemma ExtraLinesPrefix(extras: seq<ChainEntry>, k: nat)
    requires k < |extras|
    ensures Concat(ExtraLines(extras[..k + 1])) == Concat(ExtraLines(extras[..k])) + ExtraLine(extras[k])
  {
    assert ExtraLines(extras[..k + 1]) == ExtraLines(extras[..k]) + [ExtraLine(extras[k])];
    ConcatAppend(ExtraLines(extras[..k]), ExtraLine(extras[k]));
  }

  lemma ExtraLinesWhole(extras: seq<ChainEntry>)
    ensures Concat(ExtraLines(extras[..|extras|])) == Concat(ExtraLines(extras))
  {
    assert extras[..|extras|] == extras;
  }

  /**
   * Filling the weights after sorting heaviest first gives every specialist
   * the weight of its lightest chain.
   */
  lemma SortedWeightsLightest(chains: seq<ChainEntry>)
    ensures var w := WeightsOf(SortedByWeight(chains));
      && (forall id :: id in w ==> exists i :: 0 <= i < |chains| && chains[i].specialist.id == id && chains[i].weight == w[id])
      && (forall i :: 0 <= i < |chains| ==> chains[i].specialist.id in w && w[chains[i].specialist.id] <= chains[i].weight)
  {
    var sorted := SortedByWeight(chains);
    SortedByWeightSpec(chains);
    SortedSameChains(chains);
    WeightsOfValues(sorted);
    WeightsOfLightest(sorted);
    forall id | id in WeightsOf(sorted)
      ensures exists i :: 0 <= i < |chains| && chains[i].specialist.id == id && chains[i].weight == WeightsOf(sorted)[id]
    {
      var k :| 0 <= k < |sorted| && sorted[k].specialist.id == id && sorted[k].weight == WeightsOf(sorted)[id];
      assert sorted[k] in chains;
    }
    forall i | 0 <= i < |chains|
      ensures chains[i].specialist.id in WeightsOf(sorted) && WeightsOf(sorted)[chains[i].specialist.id] <= chains[i].weight
    {
      assert chains[i] in sorted;
      var k :| 0 <= k < |sorted| && sorted[k] == chains[i];
    }
  }

  /**
   * With no valid chain the fallback apologises and reports nothing; otherwise
   * it reports every valid chain, however many there are, heaviest first,
   * leads with a heaviest one and mentions at most two more. Because the
   * weights are filled after the in-place sort, each specialist's entry is
   * the weight of its lightest valid chain.
   */
  lemma FallbackSpec(request: SynthesisRequest)
    ensures var valid := ValidChains(request.chainOfThoughts); var r := FallbackOf(request);
      && (valid == [] ==> r == ApologyResponse())
      && (valid != [] ==>
            var sorted := SortedByWeight(valid);
            && |r.specialistsUsed| == |valid|
            && (forall k :: 0 <= k < |sorted| ==> r.specialistsUsed[k] == sorted[k].specialist.name)
            && (forall p, q :: 0 <= p < q < |sorted| ==> sorted[p].weight >= sorted[q].weight)
            && (forall n :: n in r.specialistsUsed <==> exists i :: 0 <= i < |valid| && valid[i].specialist.name == n)
            && (forall id :: id in r.weightDistribution <==> exists i :: 0 <= i < |valid| && valid[i].specialist.id == id)
            && (forall id :: id in r.weightDistribution ==>
                  exists i :: 0 <= i < |valid| && valid[i].specialist.id == id && valid[i].weight == r.weightDistribution[id])
            && (forall i :: 0 <= i < |valid| ==>
                  valid[i].specialist.id in r.weightDistribution && r.weightDistribution[valid[i].specialist.id] <= valid[i].weight)
            && (forall i :: 0 <= i < |valid| ==> valid[i].weight <= sorted[0].weight)
            && r.finalAnswer == JStr(FallbackAnswer(sorted))
            && |Supplements(sorted)| <= 2)
  {
    var valid := ValidChains(request.chainOfThoughts);
    if valid != [] {
      SortedByWeightSpec(valid);
      SortedSameChains(valid);
      var sorted := SortedByWeight(valid);
      var r := FallbackOf(request);
      assert r.specialistsUsed == Names(sorted) && r.weightDistribution == WeightsOf(sorted);
      ReportedOfSameChains(sorted, valid);
      SortedWeightsLightest(valid);
    }
  }

  // ---------------------------------------------------------------------------
  // Synthesis

  /** The result of `synthesize`. */
  function SynthesizeOf(request: SynthesisRequest, upstream: Option<Json>, parse: string -> Option<Json>): SynthesisResponse
  {
    var chains := request.chainOfThoughts;
    var text := if upstream.Some? then ReplyText(upstream.value) else None;
    if ValidChains(chains) == [] || text.None? then FallbackOf(request)
    else
      var synthesis := ParseSynthesisResponse(text.value, parse);
      SynthesisResponse(AnswerOf(synthesis), SynthesisReasoningOf(synthesis), Names(chains), WeightsOf(chains))
  }

  /**
   * `synthesize`: with something to send and a reply, the reply's answer with
   * the weights and names of every chain of the request, valid or not.
   */
  method Synthesize(request: SynthesisRequest, upstream: Option<Json>, parse: string -> Option<Json>)
    returns (r: SynthesisResponse)
    ensures r == SynthesizeOf(request, upstream, parse)
  {
    if ValidChains(request.chainOfThoughts) == [] {
      r := FallbackSynthesis(request);
      return;
    }
    var aiResponse := if upstream.Some? then ReplyText(upstream.value) else None;
    if aiResponse.None? {
      r := FallbackSynthesis(request);
      return;
    }
    var synthesis := ParseSynthesisResponse(aiResponse.value, parse);
    var weightDistribution := FillWeights(request.chainOfThoughts);
    r := SynthesisResponse(AnswerOf(synthesis), SynthesisReasoningOf(synthesis),
                           Names(request.chainOfThoughts), weightDistribution);
  }

  /** The final answer is never empty, whichever path produced it. */
  lemma FinalAnswerNeverEmpty(request: SynthesisRequest, upstream: Option<Json>, parse: string -> Option<Json>)
    ensures Truthy(SynthesizeOf(request, upstream, parse).finalAnswer)
  {
  }

  /** With no valid chain the result is the apology, whatever the service would have said. */
  lemma NoValidChainApologises(request: SynthesisRequest, upstream: Option<Json>, parse: string -> Option<Json>)
    requires forall k :: 0 <= k < |request.chainOfThoughts| ==> !IsValid(request.chainOfThoughts[k])
    ensures SynthesizeOf(request, upstream, parse) == ApologyResponse()
  {
    ValidChainsSpec(request.chainOfThoughts);
  }

  /**
   * When the service replies, the result names every chain of the request in
   * order and maps every chain's specialist to its last weight, valid or not;
   * the reasoning is the reply's `synthesisReasoning`, else its `approach`,
   * else a fixed text.
   */
  lemma ReplySpec(request: SynthesisRequest, upstream: Option<Json>, parse: string -> Option<Json>)
    requires ValidChains(request.chainOfThoughts) != []
    requires upstream.Some? && ReplyText(upstream.value).Some?
    ensures var r := SynthesizeOf(request, upstream, parse); var chains := request.chainOfThoughts;
      var p := ParseSynthesisResponse(ReplyText(upstream.value).value, parse);
      && r.specialistsUsed == Names(chains)
      && (forall id :: id in r.weightDistribution <==> exists k :: 0 <= k < |chains| && chains[k].specialist.id == id)
      && (forall k :: 0 <= k < |chains| && (forall j :: k < j < |chains| ==> chains[j].specialist.id != chains[k].specialist.id)
            ==> r.weightDistribution[chains[k].specialist.id] == chains[k].weight)
      && (p.Parsed? ==>
            && r.finalAnswer == Get(p.value, "finalAnswer").value
            && r.synthesisReasoning ==
                 if TruthyOpt(Get(p.value, "synthesisReasoning")) then Get(p.value, "synthesisReasoning").value
                 else if TruthyOpt(Get(p.value, "approach")) then Get(p.value, "approach").value
                 else JStr("AI synthesis completed"))
      && (p.Raw? ==> r.finalAnswer == JStr(ReplyText(upstream.value).value))
  {
    WeightsOfSpec(request.chainOfThoughts);
  }
}

=== FILE: chat_route.dfy ===
/**
 * The chat endpoint: it validates the request, prepends the specialist's
 * system prompt, sends the conversation to the completion service and relays
 * the service's event stream to the browser line by line, keeping only the
 * frames that carry text.
 *
 * The network is not modelled: the service's answer is the `Upstream`
 * parameter, its body the decoded chunks in arrival order, and `JSON.parse`
 * the `parse` parameter.
 */
module ChatRoute {
  import opened Wrappers
  import opened Json
  import opened Text

  /** An exception as the handler's `catch` sees it: its `name` and its `message` (`None` when undefined). */
  datatype Thrown = Thrown(name: string, message: Option<string>)

  /** The body posted to the completion service. */
  datatype ApiRequest = ApiRequest(model: string, messages: seq<Json>, stream: bool, temperature: real, maxTokens: nat)

  /** What became of the call to the completion service. */
  datatype Upstream =
    /** The call itself threw (a network failure, the 30-second abort). */
    | Threw(error: Thrown)
    /** The service answered; `body` is what its reader delivered, `None` when there is no readable body. */
    | Answered(ok: bool, status: nat, statusText: string, body: Option<Body>)

  /**
   * What the body's reader delivered: the decoded chunks in arrival order,
   * and whether the `read()` after the last of them rejected instead of
   * reporting the end of the stream.
   */
  datatype Body = Body(chunks: seq<string>, readFails: bool)

  /** How the relayed event stream ends. */
  datatype StreamEnd =
    /** Closed after enqueuing these frames, each as `data: <json>` and a blank line. */
    | Closed(frames: seq<Json>)
    /** Errored after enqueuing these frames, because a `read()` rejected before any `[DONE]` line. */
    | Errored(frames: seq<Json>)
    /** Errored with "No response stream" before relaying anything. */
    | NoResponseStream

  /** The endpoint's answer to the browser. */
  datatype Response =
    | ErrorJson(status: nat, error: string, debug: Option<string>)
    | EventStream(stream: StreamEnd)

  /** The request sent to the completion service (if any) and the answer returned. */
  datatype Exchange = Exchange(sent: Option<ApiRequest>, response: Response)

  /** Prompts longer than this many characters are cut. */
  const PromptLimit: nat := 500
  const ApiModel := "deepseek-chat"
  const MaxTokens: nat := 1500

  /**
   * The error of destructuring a `null` request body. Its text is the
   * JavaScript engine's; all that matters here is that it names neither
   * the API key nor a failed fetch.
   */
  const DestructureError := Thrown("TypeError", Some("Cannot destructure property 'messages' of null"))

  // ---------------------------------------------------------------------------
  // Request preparation
  // ---------------------------------------------------------------------------

  /** A system prompt of more than 500 characters becomes its first 500 characters and "...". */
  function TruncatePrompt(prompt: string): (r: string)
    ensures |r| <= PromptLimit + 3
    ensures |prompt| <= PromptLimit ==> r == prompt
    ensures |prompt| > PromptLimit ==> |r| == PromptLimit + 3 && r[..PromptLimit] == prompt[..PromptLimit] && r[PromptLimit..] == "..."
  {
    if |prompt| > PromptLimit then prompt[..PromptLimit] + "..." else prompt
  }

  /** Cutting a cut prompt changes nothing. */
  lemma TruncatePromptIdempotent(prompt: string)
    ensures TruncatePrompt(TruncatePrompt(prompt)) == TruncatePrompt(prompt)
  {
    if |prompt| > PromptLimit {
      var r := TruncatePrompt(prompt);
      assert r[..PromptLimit] + "..." == r;
    }
  }

  /** The content of the system message: a string prompt is cut, any other truthy value is sent as it is. */
  function PromptContent(prompt: Json): Json
  {
    if prompt.JStr? then JStr(TruncatePrompt(prompt.s)) else prompt
  }

  function SystemMessage(prompt: Json): Json
  {
    JObj(map["role" := JStr("system"), "content" := PromptContent(prompt)])
  }

  /** The messages sent upstream: the client's, after the system prompt when `specialist?.systemPrompt` is truthy. */
  function ApiMessages(messages: seq<Json>, specialist: Option<Json>): seq<Json>
  {
    var prompt := GetOpt(specialist, "systemPrompt");
    if TruthyOpt(prompt) then [SystemMessage(prompt.value)] + messages else messages
  }

  /**
   * The client's messages always reach the service unchanged and last; a
   * system message comes first exactly when the specialist has a truthy
   * prompt, and a string prompt in it is cut to the limit.
   */
  lemma ApiMessagesSpec(messages: seq<Json>, specialist: Option<Json>)
    ensures var r := ApiMessages(messages, specialist);
      var prompt := GetOpt(specialist, "systemPrompt");
      && (|r| == |messages| + 1 <==> TruthyOpt(prompt))
      && r[|r| - |messages|..] == messages
      && (TruthyOpt(prompt) ==>
            && Get(r[0], "role") == Some(JStr("system"))
            && (prompt.value.JStr? ==> Get(r[0], "content") == Some(JStr(TruncatePrompt(prompt.value.s)))))
  {
  }

  // ---------------------------------------------------------------------------
  // Error classification
  // ---------------------------------------------------------------------------

  /** `error.message?.includes(marker)`. */
  predicate MessageHas(e: Thrown, marker: string) {
    e.message.Some? && Contains(e.message.value, marker)
  }

  /** The status and error text for a caught exception, checked in the source's order. */
  function Classify(e: Thrown): (r: (nat, string))
  {
    if e.name == "AbortError" then (408, "Request timeout - please try again")
    else if MessageHas(e, "DEEPSEEK_API_KEY") then (500, "API configuration error")
    else if MessageHas(e, "fetch failed") then (503, "Network connection error - please check your connection")
    else (500, "Failed to process request")
  }

  /**
   * The classification, said per outcome: a timeout wins over everything,
   * a configuration error over a network error, and anything else is a
   * generic failure; only 408, 500 and 503 come out.
   */
  lemma ClassifySpec(e: Thrown)
    ensures var (status, error) := Classify(e);
      && status in {408, 500, 503}
      && (status == 408 <==> e.name == "AbortError")
      && (error == "API configuration error" <==> e.name != "AbortError" && MessageHas(e, "DEEPSEEK_API_KEY"))
      && (status == 503 <==>
            e.name != "AbortError" && !MessageHas(e, "DEEPSEEK_API_KEY") && MessageHas(e, "fetch failed"))
      && (error == "Failed to process request" <==>
            e.name != "AbortError" && !MessageHas(e, "DEEPSEEK_API_KEY") && !MessageHas(e, "fetch failed"))
  {
  }

  /** The JSON error answer for a caught exception; its `debug` field is the exception's message. */
  function Failure(e: Thrown): Response
  {
    var (status, error) := Classify(e);
    ErrorJson(status, error, e.message)
  }

  /** The message of the exception thrown for a reply whose status is not ok. */
  function UpstreamMessage(status: nat, statusText: string): string
  {
    "DeepSeek API error: " + Decimal(status) + " " + statusText
  }

  // ---------------------------------------------------------------------------
  // The stream relay
  // ---------------------------------------------------------------------------

  /** The trimmed line is a `data: ` frame. */
  predicate IsFrame(line: string) {
    var trimmed := Trim(line);
    trimmed != "" && StartsWith(trimmed, "data: ")
  }

  /** What follows `data: ` in the trimmed line. */
  function Payload(line: string): string
    requires IsFrame(line)
  {
    Trim(line)[6..]
  }

  predicate IsDoneFrame(line: string) {
    IsFrame(line) && Payload(line) == "[DONE]"
  }

  /** `parsed.choices?.[0]?.delta?.content`. */
  function ContentOf(parsed: Json): Option<Json>
  {
    GetOpt(GetOpt(FirstOpt(Get(parsed, "choices")), "delta"), "content")
  }

  /** The value a line makes the relay forward: a parsed frame whose content is truthy. */
  function Forwarded(line: string, parse: string -> Option<Json>): (r: Option<Json>)
    ensures r.Some? <==>
      && IsFrame(line) && !IsDoneFrame(line)
      && parse(Payload(line)).Some? && TruthyOpt(ContentOf(parse(Payload(line)).value))
    ensures r.Some? ==> r == parse(Payload(line))
  {
    if IsFrame(line) && !IsDoneFrame(line) then
      var parsed := parse(Payload(line));
      if parsed.Some? && TruthyOpt(ContentOf(parsed.value)) then parsed else None
    else None
  }

  /** The frames one line sends: none, or its forwarded value. */
  function Out(line: string, parse: string -> Option<Json>): seq<Json>
  {
    match Forwarded(line, parse)
    case Some(f) => [f]
    case None => []
  }

  /** `Out` as a value, for `Until`. */
  function Sender(parse: string -> Option<Json>): string -> seq<Json>
  {
    line => Out(line, parse)
  }

  /** What `send` gives for each line in order, up to the first line `stop` holds for. */
  function Until(lines: seq<string>, stop: string -> bool, send: string -> seq<Json>): seq<Json>
  {
    if lines == [] || stop(lines[0]) then []
    else send(lines[0]) + Until(lines[1..], stop, send)
  }

  predicate Stops(lines: seq<string>, stop: string -> bool) {
    exists k :: 0 <= k < |lines| && stop(lines[k])
  }

  /** The frames relayed for a run of complete lines, up to the first `[DONE]` frame. */
  function Relayed(lines: seq<string>, parse: string -> Option<Json>): seq<Json>
  {
    Until(lines, IsDoneFrame, Sender(parse))
  }

  predicate HasDone(lines: seq<string>) {
    Stops(lines, IsDoneFrame)
  }

  predicate NoNewlines(lines: seq<string>) {
    forall k :: 0 <= k < |lines| ==> '\n' !in lines[k]
  }

  /** The unterminated tail of a text: what follows its last newline. */
  function Unterminated(text: string): string
  {
    var pieces := SplitLines(text);
    pieces[|pieces| - 1]
  }

  /** The newline-terminated lines of a text; its unterminated tail is not among them. */
  function CompleteLines(text: string): seq<string>
  {
    var pieces := SplitLines(text);
    pieces[..|pieces| - 1]
  }

  /**
   * What the relay sends for a stream: the frames of the complete lines of
   * everything received, up to the first `[DONE]` frame. It depends on the
   * received text only, not on where the chunks happen to break it.
   */
  function RelayOutput(chunks: seq<string>, parse: string -> Option<Json>): seq<Json>
  {
    Relayed(CompleteLines(Concat(chunks)), parse)
  }

  /**
   * How the relayed stream of a body ends: it closes at the first complete
   * `[DONE]` line or at the end of the body, and errors when a read fails
   * first. Either way the frames enqueued are those of the complete lines received.
   */
  function RelayEnd(body: Body, parse: string -> Option<Json>): StreamEnd
  {
    var frames := RelayOutput(body.chunks, parse);
    if body.readFails && !HasDone(CompleteLines(Concat(body.chunks))) then Errored(frames) else Closed(frames)
  }

  /** The answer for a valid request, given what the completion service did. */
  function Reply(upstream: Upstream, parse: string -> Option<Json>): Response
  {
    match upstream
    case Threw(e) => Failure(e)
    case Answered(ok, status, statusText, body) =>
      if !ok then Failure(Thrown("Error", Some(UpstreamMessage(status, statusText))))
      else if body.None? then EventStream(NoResponseStream)
      else EventStream(RelayEnd(body.value, parse))
  }

  /**
   * `POST`: `request` is the outcome of `req.json()`. A `null` body cannot
   * be destructured; a body whose `messages` is not an array is rejected with
   * 400 and nothing is sent.
   */
  function Post(request: Result<Json, Thrown>, upstream: Upstream, parse: string -> Option<Json>): Exchange
  {
    match request
    case Err(e) => Exchange(None, Failure(e))
    case Ok(body) =>
      if body == JNull then Exchange(None, Failure(DestructureError))
      else
        match Get(body, "messages")
        case Some(JArr(messages)) =>
          var specialist := Get(body, "specialist");
          var temperature := if TruthyOpt(specialist) then 0.7 else 0.5;
          var sent := ApiRequest(ApiModel, ApiMessages(messages, specialist), true, temperature, MaxTokens);
          Exchange(Some(sent), Reply(upstream, parse))
        case _ => Exchange(None, ErrorJson(400, "Invalid messages format", None))
  }

  /** A body whose `messages` is an array: the only bodies that reach the completion service. */
  predicate ValidBody(request: Result<Json, Thrown>) {
    request.Ok? && Get(request.value, "messages").Some? && Get(request.value, "messages").value.JArr?
  }

  /** A caught exception is answered with 408, 500 or 503, and its message as `debug`. */
  lemma FailureSpec(e: Thrown)
    ensures Failure(e).ErrorJson? && Failure(e).status in {408, 500, 503} && Failure(e).debug == e.message
  {
    ClassifySpec(e);
  }

  /**
   * A valid request is answered with an event stream exactly when the
   * service answered with an ok status; the stream then ends as `RelayEnd`
   * of the body, or errors when there is no body. A reply whose
   * status is not ok is reported with the status and status text as `debug`.
   */
  lemma ReplySpec(upstream: Upstream, parse: string -> Option<Json>)
    ensures var r := Reply(upstream, parse);
      && (r.ErrorJson? ==> r.status in {408, 500, 503})
      && (r.EventStream? <==> upstream.Answered? && upstream.ok)
      && (r.EventStream? ==>
            r.stream == if upstream.body.None? then NoResponseStream else RelayEnd(upstream.body.value, parse))
      && (upstream.Answered? && !upstream.ok ==> r.debug == Some(UpstreamMessage(upstream.status, upstream.statusText)))
      && (upstream.Threw? ==> r.debug == upstream.error.message)
  {
    match upstream
    case Threw(e) => FailureSpec(e);
    case Answered(ok, status, statusText, _) =>
      FailureSpec(Thrown("Error", Some(UpstreamMessage(status, statusText))));
  }

  /**
   * Status 400 is returned exactly for a readable, non-null body without a
   * `messages` array; a request is sent upstream exactly for a valid body,
   * and then it carries the fixed model, streaming and token limit, the
   * client's messages, and temperature 0.7 with a specialist, 0.5 without.
   */
  lemma PostValidation(request: Result<Json, Thrown>, upstream: Upstream, parse: string -> Option<Json>)
    ensures var x := Post(request, upstream, parse);
      && (x.response.ErrorJson? && x.response.status == 400 <==>
            request.Ok? && request.value != JNull && !ValidBody(request))
      && (x.response.ErrorJson? && x.response.status == 400 ==> x.response.error == "Invalid messages format")
      && (x.sent.Some? <==> ValidBody(request))
  {
    match request
    case Err(e) => FailureSpec(e);
    case Ok(body) =>
      if body == JNull {
        FailureSpec(DestructureError);
      } else if ValidBody(request) {
        ReplySpec(upstream, parse);
      }
  }

  /** The request sent upstream for a valid body. */
  lemma PostSends(request: Result<Json, Thrown>, upstream: Upstream, parse: string -> Option<Json>)
    requires ValidBody(request)
    ensures var x := Post(request, upstream, parse);
      var messages := Get(request.value, "messages").value.items;
      var specialist := Get(request.value, "specialist");
      && x.sent.Some?
      && x.sent.value.model == ApiModel && x.sent.value.stream && x.sent.value.maxTokens == MaxTokens
      && x.sent.value.messages == ApiMessages(messages, specialist)
      && x.sent.value.temperature == (if TruthyOpt(specialist) then 0.7 else 0.5)
      && x.response == Reply(upstream, parse)
  {
  }

  /**
   * Every error answer carries 400, 408, 500 or 503, and the browser gets an
   * event stream only from a valid request that the service answered with
   * an ok status.
   */
  lemma PostOutcomes(request: Result<Json, Thrown>, upstream: Upstream, parse: string -> Option<Json>)
    ensures var r := Post(request, upstream, parse).response;
      && (r.ErrorJson? ==> r.status in {400, 408, 500, 503})
      && (r.EventStream? <==> ValidBody(request) && upstream.Answered? && upstream.ok)
  {
    match request
    case Err(e) => FailureSpec(e);
    case Ok(body) =>
      if body == JNull {
        FailureSpec(DestructureError);
      } else if ValidBody(request) {
        ReplySpec(upstream, parse);
      }
  }

  // ---------------------------------------------------------------------------
  // The relay loop
  // ---------------------------------------------------------------------------

  /**
   * The inner `for (const line of lines)` over one chunk's complete lines:
   * it returns the frames it enqueued and whether it met `[DONE]`, which
   * closes the stream.
   */
  method ScanLines(lines: seq<string>, parse: string -> Option<Json>) returns (frames: seq<Json>, halted: bool)
    ensures halted <==> HasDone(lines)
    ensures frames == Relayed(lines, parse)
  {
    frames := [];
    for j := 0 to |lines|
      invariant !HasDone(lines[..j])
      invariant frames == Relayed(lines[..j], parse)
    {
      var trimmedLine := Trim(lines[j]);
      if trimmedLine == "" {
      } else if StartsWith(trimmedLine, "data: ") {
        var data := trimmedLine[6..];
        if data == "[DONE]" {
          RelayedStopsAt(lines, j, parse);
          return frames, true;
        }
        var parsed := parse(data);
        if parsed.Some? && TruthyOpt(ContentOf(parsed.value)) {
          frames := frames + [parsed.value];
        }
      }
      RelayedSnoc(lines, j, parse);
    }
    assert lines[..|lines|] == lines;
    return frames, false;
  }

  /**
   * The `start` loop of the relayed stream: each chunk is appended to
   * `buffer`, the buffer is split at newlines, its last, unterminated piece
   * is kept for the next chunk, and the complete lines are scanned. The frames
   * sent are those of the whole received text, however it was cut into chunks;
   * `halted` says whether a `[DONE]` line stopped the loop.
   */
  method RelayChunks(chunks: seq<string>, parse: string -> Option<Json>) returns (out: seq<Json>, halted: bool)
    ensures out == RelayOutput(chunks, parse)
    ensures halted <==> HasDone(CompleteLines(Concat(chunks)))
  {
    var buffer := "";
    ghost var consumed: seq<string> := [];
    out := [];
    for i := 0 to |chunks|
      invariant RelayState(chunks, i, consumed, buffer)
      invariant out == Relayed(consumed, parse)
    {
      RelayStep(chunks, i, consumed, buffer, parse);
      var text := buffer + chunks[i];
      var pieces := SplitLines(text);
      var lines := pieces[..|pieces| - 1];
      assert lines == CompleteLines(text);
      buffer := pieces[|pieces| - 1];
      assert buffer == Unterminated(text);
      var frames, stop := ScanLines(lines, parse);
      if stop {
        return out + frames, true;
      }
      out := out + frames;
      consumed := consumed + lines;
    }
    StreamEndsRelay(chunks, consumed, buffer, parse);
    halted := false;
  }

  /**
   * The relayed stream of a body: the loop's frames, closed at `[DONE]` or
   * at the end of the body, errored when a read fails first (the `catch`
   * around the loop).
   */
  method Relay(body: Body, parse: string -> Option<Json>) returns (end: StreamEnd)
    ensures end == RelayEnd(body, parse)
  {
    var out, halted := RelayChunks(body.chunks, parse);
    if body.readFails && !halted {
      end := Errored(out);
    } else {
      end := Closed(out);
    }
  }

  // ---------------------------------------------------------------------------
  // Lemmas about the relay
  // ---------------------------------------------------------------------------

  /** Scanning one more line that is not `[DONE]` adds what that line sends. */
  lemma RelayedSnoc(lines: seq<string>, j: nat, parse: string -> Option<Json>)
    requires j < |lines| && !HasDone(lines[..j]) && !IsDoneFrame(lines[j])
    ensures !HasDone(lines[..j + 1])
    ensures Relayed(lines[..j + 1], parse) == Relayed(lines[..j], parse) + Out(lines[j], parse)
  {
    UntilSnoc(lines, j, IsDoneFrame, Sender(parse));
  }

  /** The relay stops at a `[DONE]` line: nothing at or after it is enqueued. */
  lemma RelayedStopsAt(lines: seq<string>, j: nat, parse: string -> Option<Json>)
    requires j < |lines| && !HasDone(lines[..j]) && IsDoneFrame(lines[j])
    ensures HasDone(lines)
    ensures Relayed(lines, parse) == Relayed(lines[..j], parse)
  {
    UntilStopsAt(lines, j, IsDoneFrame, Sender(parse));
  }

  lemma NoDoneAppend(a: seq<string>, b: seq<string>)
    requires !HasDone(a) && !HasDone(b)
    ensures !HasDone(a + b)
  {
    NoStopAppend(a, b, IsDoneFrame);
  }

  /**
   * Relaying two runs of lines one after the other: the second run counts
   * only when the first has no `[DONE]` frame.
   */
  lemma RelayedAppend(a: seq<string>, b: seq<string>, parse: string -> Option<Json>)
    ensures !HasDone(a) ==> Relayed(a + b, parse) == Relayed(a, parse) + Relayed(b, parse)
    ensures HasDone(a) ==> Relayed(a + b, parse) == Relayed(a, parse)
  {
    if HasDone(a) {
      UntilAppendStopped(a, b, IsDoneFrame, Sender(parse));
    } else {
      UntilAppend(a, b, IsDoneFrame, Sender(parse));
    }
  }

  lemma {:induction false} UntilAppend(a: seq<string>, b: seq<string>, stop: string -> bool, send: string -> seq<Json>)
    requires !Stops(a, stop)
    ensures Until(a + b, stop, send) == Until(a, stop, send) + Until(b, stop, send)
  {
    if a == [] {
      assert a + b == b;
    } else {
      var t := a[1..];
      NoStopTail(a, stop);
      UntilAppend(t, b, stop, send);
      var head := send(a[0]);
      assert Until(a + b, stop, send) == head + Until(t + b, stop, send) by {
        assert (a + b)[0] == a[0] && (a + b)[1..] == t + b;
      }
    }
  }

  lemma NoStopTail(a: seq<string>, stop: string -> bool)
    requires a != [] && !Stops(a, stop)
    ensures !stop(a[0]) && !Stops(a[1..], stop)
  {
    forall k | 0 <= k < |a[1..]|
      ensures !stop(a[1..][k])
    {
      assert a[1..][k] == a[k + 1];
    }
  }

  lemma {:induction false} UntilAppendStopped(a: seq<string>, b: seq<string>, stop: string -> bool, send: string -> seq<Json>)
    requires Stops(a, stop)
    ensures Until(a + b, stop, send) == Until(a, stop, send)
  {
    var t := a[1..];
    assert (a + b)[0] == a[0] && (a + b)[1..] == t + b;
    if !stop(a[0]) {
      var k :| 0 <= k < |a| && stop(a[k]);
      assert t[k - 1] == a[k];
      UntilAppendStopped(t, b, stop, send);
    }
  }

  lemma NoStopAppend(a: seq<string>, b: seq<string>, stop: string -> bool)
    requires !Stops(a, stop) && !Stops(b, stop)
    ensures !Stops(a + b, stop)
  {
    forall k | 0 <= k < |a + b|
      ensures !stop((a + b)[k])
    {
      if k >= |a| {
        assert (a + b)[k] == b[k - |a|];
      }
    }
  }

  lemma UntilSnoc(lines: seq<string>, j: nat, stop: string -> bool, send: string -> seq<Json>)
    requires j < |lines| && !Stops(lines[..j], stop) && !stop(lines[j])
    ensures !Stops(lines[..j + 1], stop)
    ensures Until(lines[..j + 1], stop, send) == Until(lines[..j], stop, send) + send(lines[j])
  {
    var pre := lines[..j + 1];
    assert pre == lines[..j] + [lines[j]];
    forall k | 0 <= k < |pre|
      ensures !stop(pre[k])
    {
      if k < j {
        assert pre[k] == lines[..j][k];
      }
    }
    UntilAppend(lines[..j], [lines[j]], stop, send);
    assert [lines[j]][1..] == [];
  }

  lemma UntilStopsAt(lines: seq<string>, j: nat, stop: string -> bool, send: string -> seq<Json>)
    requires j < |lines| && !Stops(lines[..j], stop) && stop(lines[j])
    ensures Stops(lines, stop)
    ensures Until(lines, stop, send) == Until(lines[..j], stop, send)
  {
    assert lines == lines[..j] + lines[j..];
    assert lines[j..][0] == lines[j];
    UntilAppend(lines[..j], lines[j..], stop, send);
  }

  /**
   * What the relay loop keeps true after `i` chunks: the lines consumed,
   * each with its newline, then the buffer, are the text received; the
   * buffer holds no newline and no consumed line is `[DONE]`.
   */
  ghost predicate RelayState(chunks: seq<string>, i: nat, consumed: seq<string>, buffer: string) {
    && i <= |chunks|
    && Terminated(consumed) + buffer == Concat(chunks[..i])
    && '\n' !in buffer
    && NoNewlines(consumed)
    && !HasDone(consumed)
  }

  /**
   * One turn of the relay loop: the chunk's complete lines either hold
   * `[DONE]`, and then the frames enqueued so far and theirs are all the relay
   * ever enqueues, or they do not, and the loop's state carries over.
   */
  lemma RelayStep(chunks: seq<string>, i: nat, consumed: seq<string>, buffer: string, parse: string -> Option<Json>)
    requires i < |chunks| && RelayState(chunks, i, consumed, buffer)
    ensures var lines := CompleteLines(buffer + chunks[i]);
      var rest := Unterminated(buffer + chunks[i]);
      && (HasDone(lines) ==>
            && HasDone(CompleteLines(Concat(chunks)))
            && RelayOutput(chunks, parse) == Relayed(consumed, parse) + Relayed(lines, parse))
      && (!HasDone(lines) ==>
            && RelayState(chunks, i + 1, consumed + lines, rest)
            && Relayed(consumed + lines, parse) == Relayed(consumed, parse) + Relayed(lines, parse))
  {
    var pieces := SplitLines(buffer + chunks[i]);
    var lines := pieces[..|pieces| - 1];
    var rest := pieces[|pieces| - 1];
    BufferStep(consumed, buffer, chunks, i);
    if HasDone(lines) {
      DoneEndsRelay(chunks, i, consumed, lines, rest, parse);
    } else {
      RelayedAppend(consumed, lines, parse);
      NoDoneAppend(consumed, lines);
    }
  }

  /** The buffer invariant survives reading one more chunk. */
  lemma BufferStep(consumed: seq<string>, buffer: string, chunks: seq<string>, i: nat)
    requires i < |chunks|
    requires Terminated(consumed) + buffer == Concat(chunks[..i])
    requires NoNewlines(consumed)
    ensures var pieces := SplitLines(buffer + chunks[i]);
      && Terminated(consumed + pieces[..|pieces| - 1]) + pieces[|pieces| - 1] == Concat(chunks[..i + 1])
      && NoNewlines(consumed + pieces[..|pieces| - 1])
      && '\n' !in pieces[|pieces| - 1]
  {
    var pieces := SplitLines(buffer + chunks[i]);
    var lines := pieces[..|pieces| - 1];
    SplitLinesJoins(buffer + chunks[i]);
    TerminatedJoin(pieces);
    SplitLinesHaveNoNewline(buffer + chunks[i]);
    TerminatedAppend(consumed, lines);
    assert chunks[..i + 1] == chunks[..i] + [chunks[i]];
    ConcatAppend(chunks[..i], chunks[i]);
    AppendAssoc(Terminated(consumed), buffer, chunks[i]);
    AppendAssoc(Terminated(consumed), Terminated(lines), pieces[|pieces| - 1]);
    forall k | 0 <= k < |consumed + lines|
      ensures '\n' !in (consumed + lines)[k]
    {
      if k >= |consumed| {
        assert (consumed + lines)[k] == pieces[k - |consumed|];
      }
    }
  }

  /** Any text is its complete lines, each with its newline, followed by an unterminated tail. */
  lemma TextAsLines(text: string)
    ensures var pieces := SplitLines(text);
      && text == Terminated(CompleteLines(text)) + pieces[|pieces| - 1]
      && NoNewlines(CompleteLines(text))
      && '\n' !in pieces[|pieces| - 1]
  {
    SplitLinesJoins(text);
    TerminatedJoin(SplitLines(text));
    SplitLinesHaveNoNewline(text);
  }

  /** Complete lines after a run of terminated lines are those lines, then the complete lines of the rest. */
  lemma CompleteAfter(lines: seq<string>, x: string)
    requires NoNewlines(lines)
    ensures CompleteLines(Terminated(lines) + x) == lines + CompleteLines(x)
  {
    SplitLinesAfterTerminated(lines, x);
    var px := SplitLines(x);
    assert (lines + px)[..|lines + px| - 1] == lines + px[..|px| - 1];
  }

  /** When a chunk's lines hold `[DONE]`, what the relay has enqueued is all it ever enqueues. */
  lemma DoneEndsRelay(chunks: seq<string>, i: nat, consumed: seq<string>, lines: seq<string>, buffer: string,
                      parse: string -> Option<Json>)
    requires i < |chunks|
    requires Terminated(consumed + lines) + buffer == Concat(chunks[..i + 1])
    requires NoNewlines(consumed + lines)
    requires HasDone(lines) && !HasDone(consumed)
    ensures RelayOutput(chunks, parse) == Relayed(consumed, parse) + Relayed(lines, parse)
    ensures HasDone(CompleteLines(Concat(chunks)))
  {
    var all := consumed + lines;
    var rest := Concat(chunks[i + 1..]);
    assert chunks == chunks[..i + 1] + chunks[i + 1..];
    ConcatJoin(chunks[..i + 1], chunks[i + 1..]);
    AppendAssoc(Terminated(all), buffer, rest);
    CompleteAfter(all, buffer + rest);
    var k :| 0 <= k < |lines| && IsDoneFrame(lines[k]);
    assert all[|consumed| + k] == lines[k];
    assert (all + CompleteLines(buffer + rest))[|consumed| + k] == lines[k];
    RelayedAppend(all, CompleteLines(buffer + rest), parse);
    RelayedAppend(consumed, lines, parse);
  }

  /** When the stream ends, the lines consumed are all the complete lines; the buffer is dropped. */
  lemma StreamEndsRelay(chunks: seq<string>, consumed: seq<string>, buffer: string, parse: string -> Option<Json>)
    requires Terminated(consumed) + buffer == Concat(chunks[..|chunks|])
    requires NoNewlines(consumed) && '\n' !in buffer && !HasDone(consumed)
    ensures !HasDone(CompleteLines(Concat(chunks)))
    ensures RelayOutput(chunks, parse) == Relayed(consumed, parse)
  {
    assert chunks[..|chunks|] == chunks;
    SplitLinesOfTerminated(consumed, buffer);
    assert (consumed + [buffer])[..|consumed|] == consumed;
  }

  /**
   * After a complete `[DONE]` line has arrived, further chunks change
   * nothing: the relay has stopped reading.
   */
  lemma LaterChunksIgnoredAfterDone(chunks: seq<string>, more: seq<string>, parse: string -> Option<Json>)
    requires HasDone(CompleteLines(Concat(chunks)))
    ensures RelayOutput(chunks + more, parse) == RelayOutput(chunks, parse)
    ensures HasDone(CompleteLines(Concat(chunks + more)))
  {
    var text := Concat(chunks);
    var pieces := SplitLines(text);
    var lines := CompleteLines(text);
    var tail := pieces[|pieces| - 1];
    TextAsLines(text);
    ConcatJoin(chunks, more);
    AppendAssoc(Terminated(lines), tail, Concat(more));
    CompleteAfter(lines, tail + Concat(more));
    RelayedAppend(lines, CompleteLines(tail + Concat(more)), parse);
    var k :| 0 <= k < |lines| && IsDoneFrame(lines[k]);
    assert (lines + CompleteLines(tail + Concat(more)))[k] == lines[k];
  }

  /**
   * A failed read changes nothing about which frames were enqueued: the
   * stream ends with the same enqueued frames as it would have without the
   * failure, and the failure shows only when no `[DONE]` line had arrived.
   */
  lemma ReadFailureSpec(chunks: seq<string>, parse: string -> Option<Json>)
    ensures RelayEnd(Body(chunks, false), parse).Closed?
    ensures RelayEnd(Body(chunks, true), parse).frames == RelayEnd(Body(chunks, false), parse).frames
    ensures RelayEnd(Body(chunks, true), parse).Errored? <==> !HasDone(CompleteLines(Concat(chunks)))
  {
  }

  /**
   * Once a complete `[DONE]` line has arrived the stream is closed for good:
   * neither later chunks nor a later failing read change how it ends.
   */
  lemma {:induction false} DoneSealsStream(chunks: seq<string>, more: seq<string>, readFails: bool,
                                            parse: string -> Option<Json>)
    requires HasDone(CompleteLines(Concat(chunks)))
    ensures RelayEnd(Body(chunks + more, readFails), parse) == Closed(RelayOutput(chunks, parse))
  {
    LaterChunksIgnoredAfterDone(chunks, more, parse);
  }

  /**
   * Text left in the buffer when the stream ends is never relayed: a last
   * chunk without a newline adds no frame, even one that holds a whole frame.
   */
  lemma TrailingTextIgnored(chunks: seq<string>, last: string, parse: string -> Option<Json>)
    requires '\n' !in last
    ensures RelayOutput(chunks + [last], parse) == RelayOutput(chunks, parse)
  {
    var text := Concat(chunks);
    var pieces := SplitLines(text);
    var lines := CompleteLines(text);
    var tail := pieces[|pieces| - 1];
    TextAsLines(text);
    ConcatAppend(chunks, last);
    AppendAssoc(Terminated(lines), tail, last);
    SplitLinesOfTerminated(lines, tail + last);
    assert (lines + [tail + last])[..|lines|] == lines;
  }

  /**
   * Every relayed frame is the parse of some line's payload and has truthy
   * content; blank lines, lines that are not `data: ` frames and frames that
   * do not parse send nothing.
   */
  lemma {:induction false} RelayedFramesCarryContent(lines: seq<string>, parse: string -> Option<Json>)
    ensures forall f :: f in Relayed(lines, parse) ==>
      TruthyOpt(ContentOf(f))
      && exists k :: 0 <= k < |lines| && IsFrame(lines[k]) && parse(Payload(lines[k])) == Some(f)
  {
    if lines != [] && !IsDoneFrame(lines[0]) {
      RelayedFramesCarryContent(lines[1..], parse);
      forall f | f in Relayed(lines[1..], parse)
        ensures exists k :: 0 <= k < |lines| && IsFrame(lines[k]) && parse(Payload(lines[k])) == Some(f)
      {
        var k :| 0 <= k < |lines[1..]| && IsFrame(lines[1..][k]) && parse(Payload(lines[1..][k])) == Some(f);
        assert lines[k + 1] == lines[1..][k];
      }
    }
  }
}

=== FILE: chat_sessions.dfy ===
/**
 * The chat hook's session list: the pure updaters it hands to the session
 * state, the first steps of sending a message (the blank-input guard, the
 * session it goes to, the title, and the history sent to the service), and
 * the loop that reads the streamed `data:` frames of a reply.
 *
 * Clock readings and the ids made from them are parameters; `JSON.parse` is
 * the parameter `parse`; each chunk of the stream is already decoded text.
 */
module ChatSessions {
  import opened Wrappers
  import opened Json
  import opened Text

  datatype Role = User | Assistant | Thinking

  datatype Phase = Creative | Analytical | Complete

  datatype Message = Message(
    id: string,
    content: string,
    role: Role,
    timestamp: int,
    isStreaming: Option<bool>,
    phase: Option<Phase>)

  datatype ChatSession = ChatSession(
    id: string,
    title: string,
    messages: seq<Message>,
    createdAt: int,
    updatedAt: int)

  /** The hook's state that the updaters touch. */
  datatype ChatState = ChatState(sessions: seq<ChatSession>, currentSessionId: Option<string>)

  /** A `Partial<Message>`: the fields present overwrite the message's. */
  datatype MessagePatch = MessagePatch(
    id: Option<string>,
    content: Option<string>,
    role: Option<Role>,
    timestamp: Option<int>,
    isStreaming: Option<Option<bool>>,
    phase: Option<Option<Phase>>)

  const NewChatTitle := "Nuova Chat"

  // ---------------------------------------------------------------------------
  // Session updaters

  /** `createNewSession`: a new empty session first in the list, made current. */
  function CreateNewSession(st: ChatState, newId: string, now: int): (r: ChatState)
    ensures r.sessions == [ChatSession(newId, NewChatTitle, [], now, now)] + st.sessions
    ensures r.currentSessionId == Some(newId)
  {
    ChatState([ChatSession(newId, NewChatTitle, [], now, now)] + st.sessions, Some(newId))
  }

  /** The title made from a first message: its first 50 characters, with "..." when it is longer. */
  function TitleOf(firstMessage: string): (title: string)
  {
    Take(firstMessage, 50) + (if |firstMessage| > 50 then "..." else "")
  }

  /**
   * A title keeps a short message whole; a long one is cut to its first 50
   * characters followed by "...", so a title never exceeds 53 characters.
   */
  lemma TitleSpec(firstMessage: string)
    ensures |TitleOf(firstMessage)| <= 53
    ensures |firstMessage| <= 50 ==> TitleOf(firstMessage) == firstMessage
    ensures |firstMessage| > 50 ==>
      |TitleOf(firstMessage)| == 53 && TitleOf(firstMessage) == firstMessage[..50] + "..."
  {
  }

  /** `updateSessionTitle`. */
  function UpdateSessionTitle(sessions: seq<ChatSession>, sessionId: string, firstMessage: string, now: int): (r: seq<ChatSession>)
    ensures |r| == |sessions|
  {
    seq(|sessions|, i requires 0 <= i < |sessions| =>
      if sessions[i].id == sessionId then sessions[i].(title := TitleOf(firstMessage), updatedAt := now)
      else sessions[i])
  }

  /** `addMessageToSession`. */
  function AddMessageToSession(sessions: seq<ChatSession>, sessionId: string, message: Message, now: int): (r: seq<ChatSession>)
    ensures |r| == |sessions|
  {
    seq(|sessions|, i requires 0 <= i < |sessions| =>
      if sessions[i].id == sessionId
      then sessions[i].(messages := sessions[i].messages + [message], updatedAt := now)
      else sessions[i])
  }

  /** `{ ...msg, ...updates }`. */
  function ApplyPatch(m: Message, p: MessagePatch): Message
  {
    Message(
      if p.id.Some? then p.id.value else m.id,
      if p.content.Some? then p.content.value else m.content,
      if p.role.Some? then p.role.value else m.role,
      if p.timestamp.Some? then p.timestamp.value else m.timestamp,
      if p.isStreaming.Some? then p.isStreaming.value else m.isStreaming,
      if p.phase.Some? then p.phase.value else m.phase)
  }

  /** `updateMessageInSession`. */
  function UpdateMessageInSession(sessions: seq<ChatSession>, sessionId: string, messageId: string, patch: MessagePatch)
    : (r: seq<ChatSession>)
    ensures |r| == |sessions|
  {
    seq(|sessions|, i requires 0 <= i < |sessions| =>
      if sessions[i].id == sessionId
      then sessions[i].(messages := seq(|sessions[i].messages|, k requires 0 <= k < |sessions[i].messages| =>
             if sessions[i].messages[k].id == messageId then ApplyPatch(sessions[i].messages[k], patch)
             else sessions[i].messages[k]))
      else sessions[i])
  }

  /** `deleteSession`: every session with that id goes; the current id is cleared only when it was that id. */
  function DeleteSession(st: ChatState, sessionId: string): (r: ChatState)
  {
    ChatState(WithoutId(st.sessions, sessionId),
              if st.currentSessionId == Some(sessionId) then None else st.currentSessionId)
  }

  /** `sessions.filter(s => s.id !== sessionId)`. */
  function WithoutId(sessions: seq<ChatSession>, sessionId: string): (r: seq<ChatSession>)
    ensures |r| <= |sessions|
  {
    if sessions == [] then []
    else WithoutId(sessions[..|sessions| - 1], sessionId)
         + (if sessions[|sessions| - 1].id != sessionId then [sessions[|sessions| - 1]] else [])
  }

  /**
   * Adding a message appends it to the end of the matching session's
   * messages and stamps that session; every other session is unchanged and
   * no session is added, removed or reordered.
   */
  lemma AddMessageSpec(sessions: seq<ChatSession>, sessionId: string, message: Message, now: int)
    ensures var r := AddMessageToSession(sessions, sessionId, message, now);
      forall i :: 0 <= i < |sessions| ==>
        && r[i].id == sessions[i].id
        && (sessions[i].id != sessionId ==> r[i] == sessions[i])
        && (sessions[i].id == sessionId ==>
              && r[i].messages == sessions[i].messages + [message]
              && r[i].messages[|r[i].messages| - 1] == message
              && r[i].title == sessions[i].title && r[i].createdAt == sessions[i].createdAt
              && r[i].updatedAt == now)
  {
  }

  /** Renaming touches only the sessions with that id: their title and stamp. */
  lemma UpdateTitleSpec(sessions: seq<ChatSession>, sessionId: string, firstMessage: string, now: int)
    ensures var r := UpdateSessionTitle(sessions, sessionId, firstMessage, now);
      forall i :: 0 <= i < |sessions| ==>
        && (sessions[i].id != sessionId ==> r[i] == sessions[i])
        && (sessions[i].id == sessionId ==>
              r[i] == ChatSession(sessions[i].id, TitleOf(firstMessage), sessions[i].messages, sessions[i].createdAt, now))
  {
  }

  /**
   * A message update overwrites only the given fields of the matching
   * messages of the matching sessions; all other messages and sessions stay
   * as they were, and the session's `updatedAt` is not touched.
   */
  lemma UpdateMessageSpec(sessions: seq<ChatSession>, sessionId: string, messageId: string, patch: MessagePatch)
    ensures var r := UpdateMessageInSession(sessions, sessionId, messageId, patch);
      forall i :: 0 <= i < |sessions| ==>
        && r[i].id == sessions[i].id && r[i].title == sessions[i].title
        && r[i].createdAt == sessions[i].createdAt && r[i].updatedAt == sessions[i].updatedAt
        && |r[i].messages| == |sessions[i].messages|
        && (sessions[i].id != sessionId ==> r[i] == sessions[i])
        && (forall k :: 0 <= k < |sessions[i].messages| ==>
              r[i].messages[k] ==
                if sessions[i].id == sessionId && sessions[i].messages[k].id == messageId
                then ApplyPatch(sessions[i].messages[k], patch)
                else sessions[i].messages[k])
  {
  }

  /** The patch that replaces a message's content, as the stream loop sends it. */
  function ContentPatch(content: string): MessagePatch
  {
    MessagePatch(None, Some(content), None, None, None, None)
  }

  /** Two content updates of the same message in a row leave what the second alone would: the last one wins. */
  lemma ContentUpdatesCollapse(sessions: seq<ChatSession>, sessionId: string, messageId: string, a: string, b: string)
    ensures UpdateMessageInSession(UpdateMessageInSession(sessions, sessionId, messageId, ContentPatch(a)),
                                   sessionId, messageId, ContentPatch(b))
         == UpdateMessageInSession(sessions, sessionId, messageId, ContentPatch(b))
  {
    var once := UpdateMessageInSession(sessions, sessionId, messageId, ContentPatch(a));
    var twice := UpdateMessageInSession(once, sessionId, messageId, ContentPatch(b));
    var direct := UpdateMessageInSession(sessions, sessionId, messageId, ContentPatch(b));
    forall i | 0 <= i < |sessions| ensures twice[i] == direct[i] {
      if sessions[i].id == sessionId {
        assert twice[i].messages == direct[i].messages;
      }
    }
  }

  /**
   * Deleting removes exactly the sessions with that id and keeps the others
   * (in order, by `WithoutIdAppend`); deleting an id no session has changes
   * no session; the current id is cleared exactly when it was that id.
   */
  lemma {:induction false} DeleteSessionSpec(st: ChatState, sessionId: string)
    ensures var r := DeleteSession(st, sessionId);
      && (forall s :: s in r.sessions <==> s in st.sessions && s.id != sessionId)
      && (r.currentSessionId.None? <==> st.currentSessionId.None? || st.currentSessionId == Some(sessionId))
      && (st.currentSessionId != Some(sessionId) ==> r.currentSessionId == st.currentSessionId)
      && ((forall i :: 0 <= i < |st.sessions| ==> st.sessions[i].id != sessionId) ==> r.sessions == st.sessions)
  {
    WithoutIdSpec(st.sessions, sessionId);
    WithoutIdKeepsAll(st.sessions, sessionId);
  }

  lemma {:induction false} WithoutIdSpec(sessions: seq<ChatSession>, sessionId: string)
    ensures forall s :: s in WithoutId(sessions, sessionId) <==> s in sessions && s.id != sessionId
  {
    if sessions != [] {
      var init := sessions[..|sessions| - 1];
      WithoutIdSpec(init, sessionId);
      assert sessions == init + [sessions[|sessions| - 1]];
    }
  }

  /**
   * Removing an id from two runs of sessions is removing it from each, in
   * order; with `WithoutIdSingle` this fixes the order and the number of
   * copies of the sessions kept.
   */
  lemma {:induction false} WithoutIdAppend(a: seq<ChatSession>, b: seq<ChatSession>, sessionId: string)
    ensures WithoutId(a + b, sessionId) == WithoutId(a, sessionId) + WithoutId(b, sessionId)
    decreases |b|
  {
    if b == [] {
      assert a + b == a;
    } else {
      var init := b[..|b| - 1];
      assert (a + b)[..|a + b| - 1] == a + init;
      assert (a + b)[|a + b| - 1] == b[|b| - 1];
      WithoutIdAppend(a, init, sessionId);
    }
  }

  /** A list in which no session has the id is kept whole. */
  lemma {:induction false} WithoutIdKeepsAll(sessions: seq<ChatSession>, sessionId: string)
    ensures (forall i :: 0 <= i < |sessions| ==> sessions[i].id != sessionId) ==> WithoutId(sessions, sessionId) == sessions
  {
    if sessions != [] {
      var init := sessions[..|sessions| - 1];
      WithoutIdKeepsAll(init, sessionId);
      assert init + [sessions[|sessions| - 1]] == sessions;
    }
  }

  /** One session is kept exactly when its id differs. */
  lemma WithoutIdSingle(e: ChatSession, sessionId: string)
    ensures WithoutId([e], sessionId) == if e.id != sessionId then [e] else []
  {
    assert [e][..0] == [];
  }

  // ---------------------------------------------------------------------------
  // Sending a message

  datatype ApiRole = ApiUser | ApiAssistant

  /** A message of the history sent to the completion service. */
  datatype ApiMessage = ApiMessage(role: ApiRole, content: string)

  /** `messages.filter(msg => msg.role !== 'thinking')`. */
  function WithoutThinking(messages: seq<Message>): (r: seq<Message>)
    ensures |r| <= |messages|
    ensures forall k :: 0 <= k < |r| ==> r[k].role != Thinking
  {
    if messages == [] then []
    else WithoutThinking(messages[..|messages| - 1])
         + (if messages[|messages| - 1].role != Thinking then [messages[|messages| - 1]] else [])
  }

  /** The role a message has in the history: everything that is not the user's is the assistant's. */
  function ApiRoleOf(r: Role): ApiRole
  {
    if r == User then ApiUser else ApiAssistant
  }

  /** The history: the session's messages without the thinking ones, then the new message, as role and content. */
  function ApiHistory(session: Option<ChatSession>, userMessage: Message): (h: seq<ApiMessage>)
  {
    var kept := (if session.Some? then WithoutThinking(session.value.messages) else []) + [userMessage];
    seq(|kept|, k requires 0 <= k < |kept| => ApiMessage(ApiRoleOf(kept[k].role), kept[k].content))
  }

  /** The first session with the given id (`sessions.find`). */
  function FindSession(sessions: seq<ChatSession>, id: string): (r: Option<ChatSession>)
    ensures r.Some? ==> r.value in sessions && r.value.id == id
    ensures r.None? ==> forall i :: 0 <= i < |sessions| ==> sessions[i].id != id
  {
    if sessions == [] then None
    else if sessions[0].id == id then Some(sessions[0])
    else
      var r := FindSession(sessions[1..], id);
      assert forall i :: 1 <= i < |sessions| ==> sessions[i] == sessions[1..][i - 1];
      r
  }

  /** What the first steps of `sendMessage` produce: the new state, the session used, and the history to send. */
  datatype SendStart = SendStart(state: ChatState, sessionId: string, userMessage: Message, history: seq<ApiMessage>)

  /**
   * The first steps of `sendMessage`: nothing for blank content; otherwise
   * the current session (a new one when there is none), the user's message
   * appended to it, the title set when the session had no messages, and the
   * history. `sessions` is the state as it was when the call began.
   */
  function SendMessageStart(st: ChatState, content: string, newSessionId: string, userMessageId: string, now: int)
    : (r: Option<SendStart>)
  {
    if Trim(content) == "" then None
    else
      var created := st.currentSessionId.None? || st.currentSessionId.value == "";
      var afterCreate := if created then CreateNewSession(st, newSessionId, now) else st;
      var sessionId := if created then newSessionId else st.currentSessionId.value;
      var userMessage := Message(userMessageId, content, User, now, None, None);
      var withMessage := AddMessageToSession(afterCreate.sessions, sessionId, userMessage, now);
      var session := FindSession(st.sessions, sessionId);
      var titled := if session.None? || session.value.messages == [] then UpdateSessionTitle(withMessage, sessionId, content, now)
                    else withMessage;
      Some(SendStart(ChatState(titled, afterCreate.currentSessionId), sessionId, userMessage, ApiHistory(session, userMessage)))
  }

  /** Blank content changes nothing. */
  lemma BlankMessageIgnored(st: ChatState, content: string, newSessionId: string, userMessageId: string, now: int)
    ensures SendMessageStart(st, content, newSessionId, userMessageId, now).None? <==> Trim(content) == ""
  {
  }

  /**
   * The history holds only user and assistant turns, keeps the session's
   * non-thinking messages (in order, by `WithoutThinkingAppend`; a session
   * without thinking messages is sent whole), and ends with the new user message.
   */
  lemma {:induction false} HistorySpec(session: Option<ChatSession>, userMessage: Message)
    requires userMessage.role == User
    ensures var h := ApiHistory(session, userMessage); var kept := if session.Some? then WithoutThinking(session.value.messages) else [];
      && |h| == |kept| + 1
      && h[|h| - 1] == ApiMessage(ApiUser, userMessage.content)
      && (forall k :: 0 <= k < |kept| ==> h[k] == ApiMessage(ApiRoleOf(kept[k].role), kept[k].content))
      && (session.Some? ==> forall m :: m in kept <==> m in session.value.messages && m.role != Thinking)
      && (session.Some? && (forall k :: 0 <= k < |session.value.messages| ==> session.value.messages[k].role != Thinking) ==>
            kept == session.value.messages)
  {
    if session.Some? {
      WithoutThinkingSpec(session.value.messages);
      WithoutThinkingKeepsAll(session.value.messages);
    }
    var kept := (if session.Some? then WithoutThinking(session.value.messages) else []) + [userMessage];
    var h := ApiHistory(session, userMessage);
    assert kept[|kept| - 1] == userMessage;
    assert h[|h| - 1] == ApiMessage(ApiRoleOf(kept[|kept| - 1].role), kept[|kept| - 1].content);
  }

  lemma {:induction false} WithoutThinkingSpec(messages: seq<Message>)
    ensures forall m :: m in WithoutThinking(messages) <==> m in messages && m.role != Thinking
  {
    if messages != [] {
      var init := messages[..|messages| - 1];
      WithoutThinkingSpec(init);
      assert messages == init + [messages[|messages| - 1]];
    }
  }
  /**
   * Dropping thinking messages from two runs is dropping them from each, in
   * order; with `WithoutThinkingSingle` this fixes the order and the number
   * of copies of the messages kept.
   */
  lemma {:induction false} WithoutThinkingAppend(a: seq<Message>, b: seq<Message>)
    ensures WithoutThinking(a + b) == WithoutThinking(a) + WithoutThinking(b)
    decreases |b|
  {
    if b == [] {
      assert a + b == a;
    } else {
      var init := b[..|b| - 1];
      assert (a + b)[..|a + b| - 1] == a + init;
      assert (a + b)[|a + b| - 1] == b[|b| - 1];
      WithoutThinkingAppend(a, init);
    }
  }

  /** A list without thinking messages is kept whole. */
  lemma {:induction false} WithoutThinkingKeepsAll(messages: seq<Message>)
    ensures (forall k :: 0 <= k < |messages| ==> messages[k].role != Thinking) ==> WithoutThinking(messages) == messages
  {
    if messages != [] {
      var init := messages[..|messages| - 1];
      WithoutThinkingKeepsAll(init);
      assert init + [messages[|messages| - 1]] == messages;
    }
  }

  /** One message is kept exactly when it is not a thinking one. */
  lemma WithoutThinkingSingle(e: Message)
    ensures WithoutThinking([e]) == if e.role != Thinking then [e] else []
  {
    assert [e][..0] == [];
  }


  /**
   * Sending goes to the current session, or to a new one made current; the
   * user's message ends that session's messages; the title is set from it
   * exactly when the session had no messages (or did not exist yet).
   */
  lemma SendMessageStartSpec(st: ChatState, content: string, newSessionId: string, userMessageId: string, now: int)
    requires Trim(content) != ""
    requires forall i :: 0 <= i < |st.sessions| ==> st.sessions[i].id != newSessionId
    ensures var r := SendMessageStart(st, content, newSessionId, userMessageId, now).value;
      var created := st.currentSessionId.None? || st.currentSessionId.value == "";
      && r.state.currentSessionId == Some(r.sessionId)
      && (created ==> (
            && r.sessionId == newSessionId && |r.state.sessions| == |st.sessions| + 1
            && r.state.sessions[0] == ChatSession(newSessionId, TitleOf(content), [r.userMessage], now, now)))
      && (!created ==> r.sessionId == st.currentSessionId.value && |r.state.sessions| == |st.sessions|)
      && r.userMessage.content == content && r.userMessage.role == User
  {
    var created := st.currentSessionId.None? || st.currentSessionId.value == "";
    if created {
      var afterCreate := CreateNewSession(st, newSessionId, now);
      var userMessage := Message(userMessageId, content, User, now, None, None);
      var withMessage := AddMessageToSession(afterCreate.sessions, newSessionId, userMessage, now);
      assert withMessage[0].messages == [userMessage];
      assert FindSession(st.sessions, newSessionId).None?;
    }
  }

  // ---------------------------------------------------------------------------
  // Reading the stream

  /** `chunk.split('\n').filter(line => line.trim() !== '')`. */
  function NonBlankLines(lines: seq<string>): (r: seq<string>)
  {
    if lines == [] then []
    else NonBlankLines(lines[..|lines| - 1]) + (if Trim(lines[|lines| - 1]) != "" then [lines[|lines| - 1]] else [])
  }

  /** The lines kept are exactly the lines that are not blank; `NonBlankLinesAppend` gives their order. */
  lemma {:induction false} NonBlankLinesSpec(lines: seq<string>)
    ensures forall l :: l in NonBlankLines(lines) <==> l in lines && Trim(l) != ""
    ensures |NonBlankLines(lines)| <= |lines|
  {
    if lines != [] {
      var init := lines[..|lines| - 1];
      NonBlankLinesSpec(init);
      assert lines == init + [lines[|lines| - 1]];
    }
  }

  /**
   * Dropping blank lines from two runs is dropping them from each, in order;
   * with `NonBlankLinesSingle` this fixes the order and the number of copies
   * of the lines kept.
   */
  lemma {:induction false} NonBlankLinesAppend(a: seq<string>, b: seq<string>)
    ensures NonBlankLines(a + b) == NonBlankLines(a) + NonBlankLines(b)
    decreases |b|
  {
    if b == [] {
      assert a + b == a;
    } else {
      var init := b[..|b| - 1];
      assert (a + b)[..|a + b| - 1] == a + init;
      assert (a + b)[|a + b| - 1] == b[|b| - 1];
      NonBlankLinesAppend(a, init);
    }
  }

  /** One line is kept exactly when it is not blank. */
  lemma NonBlankLinesSingle(e: string)
    ensures NonBlankLines([e]) == if Trim(e) != "" then [e] else []
  {
    assert [e][..0] == [];
  }

  /** The frame that ends a reply. */
  predicate IsDone(line: string) {
    StartsWith(line, "data: ") && line[6..] == "[DONE]"
  }

  /** `parsed.choices?.[0]?.delta?.content`, when it is a string; "" otherwise (malformed frames included). */
  function DeltaOf(parsed: Option<Json>): string
  {
    match GetOpt(GetOpt(FirstOpt(GetOpt(parsed, "choices")), "delta"), "content")
    case Some(JStr(s)) => s
    case _ => ""
  }

  /** The text a line adds: the delta of a `data: ` frame, nothing for any other line. */
  function LineDelta(line: string, parse: string -> Option<Json>): string
  {
    if StartsWith(line, "data: ") then DeltaOf(parse(line[6..])) else ""
  }

  /** The text of a chunk's lines, up to its first `[DONE]` frame. */
  function FramesText(lines: seq<string>, parse: string -> Option<Json>): string
  {
    if lines == [] || IsDone(lines[0]) then ""
    else LineDelta(lines[0], parse) + FramesText(lines[1..], parse)
  }

  /** The text of one chunk, read on its own. */
  function ChunkText(chunk: string, parse: string -> Option<Json>): string
  {
    FramesText(NonBlankLines(SplitLines(chunk)), parse)
  }

  /** The text of a stream: each chunk read on its own. */
  function StreamText(chunks: seq<string>, parse: string -> Option<Json>): string
  {
    if chunks == [] then ""
    else StreamText(chunks[..|chunks| - 1], parse) + ChunkText(chunks[|chunks| - 1], parse)
  }

  /** The text of a stream grows by one chunk's text per chunk. */
  lemma StreamTextSnoc(chunks: seq<string>, chunk: string, parse: string -> Option<Json>)
    ensures StreamText(chunks + [chunk], parse) == StreamText(chunks, parse) + ChunkText(chunk, parse)
  {
    assert (chunks + [chunk])[..|chunks|] == chunks;
  }

  lemma StreamTextPrefix(chunks: seq<string>, i: nat, parse: string -> Option<Json>)
    requires i < |chunks|
    ensures StreamText(chunks[..i + 1], parse) == StreamText(chunks[..i], parse) + ChunkText(chunks[i], parse)
  {
    assert chunks[..i + 1] == chunks[..i] + [chunks[i]];
    StreamTextSnoc(chunks[..i], chunks[i], parse);
  }

  lemma StreamTextWhole(chunks: seq<string>, parse: string -> Option<Json>)
    ensures StreamText(chunks[..|chunks|], parse) == StreamText(chunks, parse)
  {
    assert chunks[..|chunks|] == chunks;
  }

  /** `[DONE]` ends only its own chunk: the text of a stream is the text of its parts. */
  lemma {:induction false} StreamTextAppend(a: seq<string>, b: seq<string>, parse: string -> Option<Json>)
    ensures StreamText(a + b, parse) == StreamText(a, parse) + StreamText(b, parse)
    decreases |b|
  {
    if b == [] {
      assert a + b == a;
    } else {
      var init := b[..|b| - 1];
      var chunk := b[|b| - 1];
      SnocSplit(a, b);
      StreamTextAppend(a, init, parse);
      StreamTextSnoc(a + init, chunk, parse);
      StreamTextSnoc(init, chunk, parse);
      AppendAssoc(StreamText(a, parse), StreamText(init, parse), ChunkText(chunk, parse));
    }
  }

  lemma SnocSplit(a: seq<string>, b: seq<string>)
    requires b != []
    ensures b == b[..|b| - 1] + [b[|b| - 1]]
    ensures a + b == (a + b[..|b| - 1]) + [b[|b| - 1]]
  {
  }

  /** How the frame text of the remaining lines unfolds by one line. */
  lemma FramesTextStep(lines: seq<string>, j: nat, parse: string -> Option<Json>)
    requires j < |lines|
    ensures IsDone(lines[j]) ==> FramesText(lines[j..], parse) == ""
    ensures !IsDone(lines[j]) ==> FramesText(lines[j..], parse) == LineDelta(lines[j], parse) + FramesText(lines[j + 1..], parse)
  {
    assert lines[j..][0] == lines[j];
    assert lines[j..][1..] == lines[j + 1..];
  }

  /** Nothing after a `[DONE]` frame in the same chunk counts. */
  lemma {:induction false} DoneDropsRestOfChunk(before: seq<string>, done: string, rest: seq<string>, parse: string -> Option<Json>)
    requires IsDone(done)
    ensures FramesText(before + [done] + rest, parse) == FramesText(before, parse)
  {
    if before == [] {
      assert (before + [done] + rest)[0] == done;
    } else {
      var all := before + [done] + rest;
      if !IsDone(before[0]) {
        assert all[1..] == before[1..] + [done] + rest;
        DoneDropsRestOfChunk(before[1..], done, rest, parse);
      }
    }
  }

  /** A frame that does not parse adds nothing. */
  lemma MalformedFrameSkipped(line: string, parse: string -> Option<Json>)
    requires StartsWith(line, "data: ") && parse(line[6..]).None?
    ensures LineDelta(line, parse) == ""
  {
  }

  /** The sessions as the stream loop leaves them: the message shows the text so far, once there is any. */
  ghost predicate Shows(newSessions: seq<ChatSession>, sessions: seq<ChatSession>, sessionId: string, messageId: string, text: string)
  {
    newSessions == if text == "" then sessions else UpdateMessageInSession(sessions, sessionId, messageId, ContentPatch(text))
  }

  /** Showing a longer text is one more content update. */
  lemma ShowsStep(newSessions: seq<ChatSession>, sessions: seq<ChatSession>, sessionId: string, messageId: string, text: string, delta: string)
    requires Shows(newSessions, sessions, sessionId, messageId, text) && delta != ""
    ensures Shows(UpdateMessageInSession(newSessions, sessionId, messageId, ContentPatch(text + delta)),
                  sessions, sessionId, messageId, text + delta)
  {
    if text != "" {
      ContentUpdatesCollapse(sessions, sessionId, messageId, text, text + delta);
    }
  }

  /**
   * The frame loop of `streamResponse`: appends each delta of each chunk in
   * turn, and after each one sets the streamed message's content to the text
   * so far. `[DONE]` stops the rest of the current chunk only.
   */
  method StreamResponse(sessions: seq<ChatSession>, sessionId: string, messageId: string,
                        chunks: seq<string>, parse: string -> Option<Json>)
    returns (accumulatedContent: string, newSessions: seq<ChatSession>)
    ensures accumulatedContent == StreamText(chunks, parse)
    ensures Shows(newSessions, sessions, sessionId, messageId, accumulatedContent)
  {
    accumulatedContent := "";
    newSessions := sessions;
    for i := 0 to |chunks|
      invariant accumulatedContent == StreamText(chunks[..i], parse)
      invariant Shows(newSessions, sessions, sessionId, messageId, accumulatedContent)
    {
      accumulatedContent, newSessions := ReadChunk(sessions, sessionId, messageId, chunks[i], parse, accumulatedContent, newSessions);
      StreamTextPrefix(chunks, i, parse);
    }
    StreamTextWhole(chunks, parse);
  }

  /** One chunk's turn of the frame loop, from the text and sessions so far. */
  method ReadChunk(sessions: seq<ChatSession>, sessionId: string, messageId: string,
                   chunk: string, parse: string -> Option<Json>,
                   before: string, sessionsBefore: seq<ChatSession>)
    returns (accumulatedContent: string, newSessions: seq<ChatSession>)
    requires Shows(sessionsBefore, sessions, sessionId, messageId, before)
    ensures accumulatedContent == before + ChunkText(chunk, parse)
    ensures Shows(newSessions, sessions, sessionId, messageId, accumulatedContent)
  {
    var lines := NonBlankLines(SplitLines(chunk));
    accumulatedContent, newSessions := ReadFrames(sessions, sessionId, messageId, lines, parse, before, sessionsBefore);
  }

  /** The lines of one chunk, up to its first `[DONE]` frame. */
  method ReadFrames(sessions: seq<ChatSession>, sessionId: string, messageId: string,
                    lines: seq<string>, parse: string -> Option<Json>,
                    before: string, sessionsBefore: seq<ChatSession>)
    returns (accumulatedContent: string, newSessions: seq<ChatSession>)
    requires Shows(sessionsBefore, sessions, sessionId, messageId, before)
    ensures accumulatedContent == before + FramesText(lines, parse)
    ensures Shows(newSessions, sessions, sessionId, messageId, accumulatedContent)
  {
    accumulatedContent := before;
    newSessions := sessionsBefore;
    var j := 0;
    while j < |lines|
      invariant 0 <= j <= |lines|
      invariant accumulatedContent + FramesText(lines[j..], parse) == before + FramesText(lines, parse)
      invariant Shows(newSessions, sessions, sessionId, messageId, accumulatedContent)
    {
      var line := lines[j];
      FramesTextStep(lines, j, parse);
      ghost var rest := FramesText(lines[j + 1..], parse);
      if StartsWith(line, "data: ") {
        var data := line[6..];
        if data == "[DONE]" {
          assert IsDone(line);
          break;
        }
        var delta := DeltaOf(parse(data));
        assert !IsDone(line) && LineDelta(line, parse) == delta;
        AppendAssoc(accumulatedContent, delta, rest);
        if delta != "" {
          ShowsStep(newSessions, sessions, sessionId, messageId, accumulatedContent, delta);
          accumulatedContent := accumulatedContent + delta;
          newSessions := UpdateMessageInSession(newSessions, sessionId, messageId, ContentPatch(accumulatedContent));
        } else {
          EmptyPrefix(rest);
        }
      } else {
        assert !IsDone(line) && LineDelta(line, parse) == "";
        EmptyPrefix(rest);
      }
      j := j + 1;
    }
    assert lines[|lines|..] == [];
  }
}

=== FILE: json.dfy ===
/**
 * Values produced by `JSON.parse`, as far as the core inspects them.
 *
 * `JSON.parse` itself is not modelled: every operation that parses text takes
 * a `parse: string -> Option<Json>` parameter (`None` when it throws).
 * Property access (`v.key`), array indexing and JavaScript truthiness are
 * modelled here, because the core's validation rules are written in terms of them.
 */
module Json {
  import opened Wrappers

  datatype Json =
    | JNull
    | JBool(b: bool)
    | JNum(n: real)
    | JStr(s: string)
    | JArr(items: seq<Json>)
    | JObj(fields: map<string, Json>)

  /** `v.key`: `None` stands for `undefined` (missing key, or `v` is not an object). */
  function Get(v: Json, key: string): (r: Option<Json>)
    ensures r.Some? <==> v.JObj? && key in v.fields
  {
    if v.JObj? && key in v.fields then Some(v.fields[key]) else None
  }

  /** `v?.key` on a value that may itself be `undefined`. */
  function GetOpt(v: Option<Json>, key: string): (r: Option<Json>)
    ensures r.Some? ==> v.Some? && v.value.JObj?
  {
    if v.Some? then Get(v.value, key) else None
  }

  /**
   * `v?.[0]`: the first item of an array, or the field named "0" of an object.
   * A string's first character is left out: no property the core reads next
   * exists on a one-character string, so `None` stands for it just as well.
   */
  function FirstOpt(v: Option<Json>): (r: Option<Json>)
    ensures r.Some? ==> v.Some? && (v.value.JArr? || v.value.JObj?)
    ensures v.Some? && v.value.JArr? ==> (r.Some? <==> v.value.items != [])
  {
    if v.None? then None
    else match v.value
      case JArr(items) => if items != [] then Some(items[0]) else None
      case JObj(fields) => if "0" in fields then Some(fields["0"]) else None
      case _ => None
  }

  /** JavaScript truthiness of a parsed value (`NaN` cannot come out of JSON). */
  predicate Truthy(v: Json) {
    match v
    case JNull => false
    case JBool(b) => b
    case JNum(n) => n != 0.0
    case JStr(s) => s != ""
    case JArr(_) => true
    case JObj(_) => true
  }

  /** Truthiness of a value that may be `undefined` (which is falsy). */
  predicate TruthyOpt(v: Option<Json>) {
    v.Some? && Truthy(v.value)
  }
}

=== FILE: multi_specialist_router.dfy ===
/**
 * The rule-based router. It analyses the input; a truly simple input goes to
 * the generic model. Otherwise every registered persona gets a score from a
 * table of rules. The scores are ranked (stably, best first), those at or above
 * the activation threshold are kept, and the first three are chosen. The
 * chosen scores are then divided by their sum, in place, so they add up to 1.
 * The chosen entries are the same objects as the ones in the list of all
 * scores, so that list shows the renormalised values too.
 */
module MultiSpecialistRouter {
  import opened Wrappers
  import opened Specialists
  import opened SpecialistTypes
  import opened Patterns
  import opened StableSort
  import opened TokenAnalyzer

  const GenericThreshold: nat := 8
  const ActivationThreshold: real := 0.15
  const MaxSpecialists: nat := 3

  // ---------------------------------------------------------------------------
  // Scoring

  /** One test of the scorer: whether it passes, which rule it is, and what it adds. */
  datatype RuleEntry = RuleEntry(fires: bool, rule: ScoreRule, bonus: real)

  /** The tests of the technical analyst (INTJ), in the scorer's order; the two complexity tests exclude each other. */
  function AnalyticRules(a: TokenAnalysis, hit: Hits): seq<RuleEntry>
  {
    [ RuleEntry(a.technicalWeight > 0.0, TechnicalContent, a.technicalWeight * 0.5),
      RuleEntry(a.analyticalWeight > 0.0, AnalyticalContent, a.analyticalWeight * 0.45),
      RuleEntry(hit(AnalyticalPattern(4)), ExplicitlyAnalytical, 0.35),
      RuleEntry("programming" in a.domainHints || "webdev" in a.domainHints || "analytical" in a.domainHints,
                ProgrammingDomain, 0.25),
      RuleEntry(a.complexity == High, HighComplexity, 0.15),
      RuleEntry(a.complexity == Medium, MediumComplexity, 0.1) ]
  }

  /** The tests of the creative ideator (ENFP). */
  function CreativeRules(a: TokenAnalysis, hit: Hits): seq<RuleEntry>
  {
    [ RuleEntry(a.creativeWeight > 0.0, CreativeContent, a.creativeWeight * 0.6),
      RuleEntry("writing" in a.domainHints || "design" in a.domainHints || "creative" in a.domainHints,
                CreativeDomain, 0.35),
      RuleEntry(a.hasQuestions && a.complexity != Low, OpenQuestions, 0.2),
      RuleEntry(hit(BrainstormWords), Brainstorming, 0.3),
      RuleEntry(hit(NumberedIdeasRequest), NumberedIdeas, 0.4),
      RuleEntry(hit(CreativeWords), ExplicitlyCreative, 0.3),
      RuleEntry(hit(InnovationWords), Innovation, 0.25),
      RuleEntry(hit(ContentWords), ContentCreation, 0.2) ]
  }

  /** The tests of the critical verifier (ISTJ). */
  function VerifierRules(a: TokenAnalysis, hit: Hits): seq<RuleEntry>
  {
    [ RuleEntry(a.analyticalWeight > 0.0, VerificationContent, a.analyticalWeight * 0.4),
      RuleEntry(hit(CheckWords), VerificationWords, 0.35),
      RuleEntry(hit(QualityWords), QualityFocus, 0.25),
      RuleEntry(a.complexity == Medium || a.complexity == High, StructuredContent, 0.15) ]
  }

  /** The tests of the empathetic facilitator (ENFJ). */
  function EmpatheticRules(a: TokenAnalysis, hit: Hits): seq<RuleEntry>
  {
    [ RuleEntry(a.emotionalWeight > 0.0, EmotionalContent, a.emotionalWeight * 0.5),
      RuleEntry(hit(HelpWords), SupportWords, 0.3),
      RuleEntry("business" in a.domainHints, BusinessContext, 0.2),
      RuleEntry(hit(HumanWords), HumanInteraction, 0.25),
      RuleEntry(hit(ExplainWords), ExplanationWords, 0.2) ]
  }

  /** The persona-specific tests for `p`: none for a profile outside the four blocks. */
  function PersonaRules(p: SpecialistProfile, a: TokenAnalysis, hit: Hits): seq<RuleEntry>
  {
    if p.id == AnalyticTechnical then AnalyticRules(a, hit)
    else if p.id == CreativeIdeator then CreativeRules(a, hit)
    else if p.id == CriticalVerifier then VerifierRules(a, hit)
    else if p.id == EmpatheticFacilitator then EmpatheticRules(a, hit)
    else []
  }

  /** Every test applied to `p`: the shared multi-competence baseline first. */
  function RulesFor(p: SpecialistProfile, a: TokenAnalysis, hit: Hits): seq<RuleEntry>
  {
    [RuleEntry(a.multiCompetenceBonus > 0.0, MultiCompetenceBaseline, a.multiCompetenceBonus * 0.2)]
    + PersonaRules(p, a, hit)
  }

  /** The contributions of the tests that pass, in order. */
  function Fired(rules: seq<RuleEntry>): seq<Contribution>
  {
    if rules == [] then []
    else
      var last := rules[|rules| - 1];
      Fired(rules[..|rules| - 1]) + (if last.fires then [Contribution(last.rule, last.bonus)] else [])
  }

  /** Every rule that fires for `p`, in the order the scorer tests them. */
  function Contributions(p: SpecialistProfile, a: TokenAnalysis, hit: Hits): seq<Contribution>
  {
    Fired(RulesFor(p, a, hit))
  }

  /** The sum of the increments. */
  function Total(cs: seq<Contribution>): real
  {
    if cs == [] then 0.0 else Total(cs[..|cs| - 1]) + cs[|cs| - 1].bonus
  }

  /** The score of `p`: the sum of its increments, capped at 1. */
  function ScoreOf(p: SpecialistProfile, a: TokenAnalysis, hit: Hits): real
  {
    Clip(Total(Contributions(p, a, hit)))
  }

  /** The weights of an analysis lie in [0, 1], as the analyzer guarantees. */
  predicate WeightsInRange(a: TokenAnalysis) {
    && 0.0 <= a.technicalWeight <= 1.0 && 0.0 <= a.creativeWeight <= 1.0
    && 0.0 <= a.analyticalWeight <= 1.0 && 0.0 <= a.emotionalWeight <= 1.0
    && 0.0 <= a.multiCompetenceBonus <= 1.0
  }

  /** The persona whose scoring block a rule belongs to ("" for the shared baseline). */
  function Owner(rule: ScoreRule): string
  {
    match rule
    case MultiCompetenceBaseline => ""
    case TechnicalContent | AnalyticalContent | ExplicitlyAnalytical | ProgrammingDomain
       | HighComplexity | MediumComplexity => AnalyticTechnical
    case CreativeContent | CreativeDomain | OpenQuestions | Brainstorming | NumberedIdeas
       | ExplicitlyCreative | Innovation | ContentCreation => CreativeIdeator
    case VerificationContent | VerificationWords | QualityFocus | StructuredContent => CriticalVerifier
    case EmotionalContent | SupportWords | BusinessContext | HumanInteraction | ExplanationWords => EmpatheticFacilitator
  }

  /** A test that adds a positive amount when it passes and belongs to persona `id` or to the baseline. */
  predicate SoundEntry(e: RuleEntry, id: string) {
    (e.fires ==> e.bonus > 0.0) && (e.rule == MultiCompetenceBaseline || Owner(e.rule) == id)
  }

  predicate SoundContribution(c: Contribution, id: string) {
    c.bonus > 0.0 && (c.rule == MultiCompetenceBaseline || Owner(c.rule) == id)
  }

  /** Sound tests give sound contributions. */
  lemma {:induction false} FiredSound(rules: seq<RuleEntry>, id: string)
    requires forall k :: 0 <= k < |rules| ==> SoundEntry(rules[k], id)
    ensures forall j :: 0 <= j < |Fired(rules)| ==> SoundContribution(Fired(rules)[j], id)
  {
    if rules != [] {
      FiredSound(rules[..|rules| - 1], id);
    }
  }

  lemma AnalyticRulesSound(a: TokenAnalysis, hit: Hits)
    requires WeightsInRange(a)
    ensures forall k :: 0 <= k < |AnalyticRules(a, hit)| ==> SoundEntry(AnalyticRules(a, hit)[k], AnalyticTechnical)
  {
  }

  lemma CreativeRulesSound(a: TokenAnalysis, hit: Hits)
    requires WeightsInRange(a)
    ensures forall k :: 0 <= k < |CreativeRules(a, hit)| ==> SoundEntry(CreativeRules(a, hit)[k], CreativeIdeator)
  {
  }

  lemma VerifierRulesSound(a: TokenAnalysis, hit: Hits)
    requires WeightsInRange(a)
    ensures forall k :: 0 <= k < |VerifierRules(a, hit)| ==> SoundEntry(VerifierRules(a, hit)[k], CriticalVerifier)
  {
  }

  lemma EmpatheticRulesSound(a: TokenAnalysis, hit: Hits)
    requires WeightsInRange(a)
    ensures forall k :: 0 <= k < |EmpatheticRules(a, hit)| ==> SoundEntry(EmpatheticRules(a, hit)[k], EmpatheticFacilitator)
  {
  }

  /** A passing test adds a positive amount, and every test of a persona belongs to it. */
  lemma PersonaRulesSound(p: SpecialistProfile, a: TokenAnalysis, hit: Hits)
    requires WeightsInRange(a)
    ensures forall k :: 0 <= k < |RulesFor(p, a, hit)| ==> SoundEntry(RulesFor(p, a, hit)[k], p.id)
  {
    var persona := PersonaRules(p, a, hit);
    if p.id == AnalyticTechnical {
      AnalyticRulesSound(a, hit);
    } else if p.id == CreativeIdeator {
      CreativeRulesSound(a, hit);
    } else if p.id == CriticalVerifier {
      VerifierRulesSound(a, hit);
    } else if p.id == EmpatheticFacilitator {
      EmpatheticRulesSound(a, hit);
    }
    assert forall k :: 0 <= k < |persona| ==> SoundEntry(persona[k], p.id);
    var rules := RulesFor(p, a, hit);
    forall k | 0 <= k < |rules| ensures SoundEntry(rules[k], p.id) {
      if k > 0 { assert rules[k] == persona[k - 1]; }
    }
  }

  /** A sum of positive increments is positive exactly when there is one. */
  lemma {:induction false} TotalOfPositives(cs: seq<Contribution>)
    requires forall k :: 0 <= k < |cs| ==> cs[k].bonus > 0.0
    ensures Total(cs) >= 0.0
    ensures Total(cs) > 0.0 <==> cs != []
  {
    if cs != [] {
      TotalOfPositives(cs[..|cs| - 1]);
    }
  }

  /**
   * Each persona is scored only by the shared baseline and its own rules; each
   * increment is positive; so the score lies in [0, 1] and is 0 exactly when
   * no rule fired (the case the scorer reports as a low match).
   */
  lemma ScoreSpec(p: SpecialistProfile, a: TokenAnalysis, hit: Hits)
    requires WeightsInRange(a)
    ensures forall j :: 0 <= j < |Contributions(p, a, hit)| ==> SoundContribution(Contributions(p, a, hit)[j], p.id)
    ensures 0.0 <= ScoreOf(p, a, hit) <= 1.0
    ensures ScoreOf(p, a, hit) == 0.0 <==> Contributions(p, a, hit) == []
  {
    var rules := RulesFor(p, a, hit);
    var cs := Contributions(p, a, hit);
    PersonaRulesSound(p, a, hit);
    FiredSound(rules, p.id);
    TotalOfPositives(cs);
  }

  /** A profile outside the registry only gets the shared multi-competence baseline. */
  lemma UnknownSpecialistGetsBaseline(p: SpecialistProfile, a: TokenAnalysis, hit: Hits)
    requires p.id !in Ids()
    ensures Contributions(p, a, hit) ==
      if a.multiCompetenceBonus > 0.0 then [Contribution(MultiCompetenceBaseline, a.multiCompetenceBonus * 0.2)] else []
  {
    RegistryOrder();
    assert p.id != AnalyticTechnical && p.id != CreativeIdeator;
    assert p.id != CriticalVerifier && p.id != EmpatheticFacilitator;
    assert PersonaRules(p, a, hit) == [];
    var rules := RulesFor(p, a, hit);
    assert rules == [rules[0]];
    assert rules[..0] == [];
    assert Fired(rules) == Fired(rules[..0]) + (if rules[0].fires then [Contribution(rules[0].rule, rules[0].bonus)] else []);
  }

  /** Runs the tests in order, adding the increment of each one that passes. */
  method ApplyRules(rules: seq<RuleEntry>) returns (score: real, reasons: seq<Contribution>)
    ensures reasons == Fired(rules)
    ensures score == Total(reasons)
  {
    score := 0.0;
    reasons := [];
    var i := 0;
    while i < |rules|
      invariant 0 <= i <= |rules|
      invariant reasons == Fired(rules[..i])
      invariant score == Total(reasons)
    {
      assert rules[..i + 1][..i] == rules[..i];
      if rules[i].fires {
        score := score + rules[i].bonus;
        reasons := reasons + [Contribution(rules[i].rule, rules[i].bonus)];
      }
      i := i + 1;
    }
    assert rules[..i] == rules;
  }

  /** `calculateSpecialistScore`: the score and the rules that fired, test by test. */
  method CalculateSpecialistScore(specialist: SpecialistProfile, a: TokenAnalysis, hit: Hits)
    returns (score: real, reasons: seq<Contribution>)
    ensures reasons == Contributions(specialist, a, hit)
    ensures score == ScoreOf(specialist, a, hit)
  {
    score, reasons := ApplyRules(RulesFor(specialist, a, hit));
    score := Min(score, 1.0);
  }

  // ---------------------------------------------------------------------------
  // Selection, on the list of scores read as values

  /** The score at each position, as a ranking key (0 outside the list). */
  function KeyOf(raw: seq<real>): nat -> real
  {
    (i: nat) => if i < |raw| then raw[i] else 0.0
  }

  ghost predicate Distinct(s: seq<nat>) {
    forall p, q :: 0 <= p < q < |s| ==> s[p] != s[q]
  }

  /** The positions of `order` whose key reaches `threshold`, in the same order (`filter`). */
  function AtLeast(order: seq<nat>, key: nat -> real, threshold: real): (r: seq<nat>)
    ensures |r| <= |order|
  {
    if order == [] then []
    else AtLeast(order[..|order| - 1], key, threshold)
         + (if key(order[|order| - 1]) >= threshold then [order[|order| - 1]] else [])
  }

  /** Filtering keeps exactly the positions that pass. */
  lemma {:induction false} AtLeastMembers(order: seq<nat>, key: nat -> real, threshold: real)
    ensures forall i :: i in AtLeast(order, key, threshold) <==> i in order && key(i) >= threshold
  {
    if order != [] {
      AtLeastMembers(order[..|order| - 1], key, threshold);
      assert order == order[..|order| - 1] + [order[|order| - 1]];
    }
  }

  /** Each kept position, other than the last one examined, comes from the earlier part of the order. */
  lemma AtLeastStep(order: seq<nat>, key: nat -> real, threshold: real, p: nat)
    requires order != []
    requires p < |AtLeast(order[..|order| - 1], key, threshold)|
    ensures exists j :: 0 <= j < |order| - 1 && order[j] == AtLeast(order[..|order| - 1], key, threshold)[p]
  {
    var init := order[..|order| - 1];
    AtLeastMembers(init, key, threshold);
    assert AtLeast(init, key, threshold)[p] in init;
  }

  /** Filtering a list without repetitions gives one without repetitions. */
  lemma {:induction false} AtLeastDistinct(order: seq<nat>, key: nat -> real, threshold: real)
    requires Distinct(order)
    ensures Distinct(AtLeast(order, key, threshold))
  {
    if order != [] {
      var init := order[..|order| - 1];
      var r0 := AtLeast(init, key, threshold);
      var r := AtLeast(order, key, threshold);
      AtLeastDistinct(init, key, threshold);
      if key(order[|order| - 1]) >= threshold {
        forall p, q | 0 <= p < q < |r| ensures r[p] != r[q] {
          if q == |r| - 1 {
            AtLeastStep(order, key, threshold, p);
          }
        }
      }
    }
  }

  /** Filtering a best-first list gives a best-first list. */
  lemma {:induction false} AtLeastNonIncreasing(order: seq<nat>, key: nat -> real, threshold: real)
    requires NonIncreasing(order, key)
    ensures NonIncreasing(AtLeast(order, key, threshold), key)
  {
    if order != [] {
      var init := order[..|order| - 1];
      var r := AtLeast(order, key, threshold);
      assert NonIncreasing(init, key);
      AtLeastNonIncreasing(init, key, threshold);
      if key(order[|order| - 1]) >= threshold {
        forall p, q | 0 <= p < q < |r| ensures key(r[p]) >= key(r[q]) {
          if q == |r| - 1 {
            AtLeastStep(order, key, threshold, p);
          }
        }
      }
    }
  }

  /** Filtering keeps equal keys in ascending position. */
  lemma {:induction false} AtLeastTies(order: seq<nat>, key: nat -> real, threshold: real)
    requires TiesAscending(order, key)
    ensures TiesAscending(AtLeast(order, key, threshold), key)
  {
    if order != [] {
      var init := order[..|order| - 1];
      var r := AtLeast(order, key, threshold);
      assert TiesAscending(init, key);
      AtLeastTies(init, key, threshold);
      if key(order[|order| - 1]) >= threshold {
        forall p, q | 0 <= p < q < |r| && key(r[p]) == key(r[q]) ensures r[p] < r[q] {
          if q == |r| - 1 {
            AtLeastStep(order, key, threshold, p);
          }
        }
      }
    }
  }

  /** The positions whose score reaches the threshold, best first, ties in registry order. */
  function Eligible(raw: seq<real>, threshold: real): (e: seq<nat>)
    ensures forall k :: 0 <= k < |e| ==> e[k] < |raw|
  {
    var order := Ranking(|raw|, KeyOf(raw));
    RankingSpec(|raw|, KeyOf(raw));
    AtLeastMembers(order, KeyOf(raw), threshold);
    var e := AtLeast(order, KeyOf(raw), threshold);
    assert forall k :: 0 <= k < |e| ==> e[k] in order;
    e
  }

  /**
   * The positions chosen by `selectSpecialists`: the scores ranked best first
   * (stably), filtered by the threshold and cut to the first three.
   */
  function Chosen(raw: seq<real>, threshold: real): (c: seq<nat>)
    ensures |c| <= MaxSpecialists
    ensures forall k :: 0 <= k < |c| ==> c[k] < |raw|
  {
    var e := Eligible(raw, threshold);
    if |e| <= MaxSpecialists then e else e[..MaxSpecialists]
  }

  /** The sum of the keys at the given positions (`reduce`). */
  function SumOf(key: nat -> real, positions: seq<nat>): real
  {
    if positions == [] then 0.0 else SumOf(key, positions[..|positions| - 1]) + key(positions[|positions| - 1])
  }

  /** The scores after renormalisation: each chosen score divided by the chosen total, when that is positive. */
  function NewScores(raw: seq<real>, threshold: real): (r: seq<real>)
    ensures |r| == |raw|
  {
    var c := Chosen(raw, threshold);
    var total := SumOf(KeyOf(raw), c);
    seq(|raw|, i requires 0 <= i < |raw| => if total > 0.0 && i in c then raw[i] / total else raw[i])
  }

  /** The filtered ranking that the chosen positions are a prefix of. */
  lemma EligibleSpec(raw: seq<real>, threshold: real)
    ensures var e := Eligible(raw, threshold);
      && (forall i: nat :: i in e <==> i < |raw| && raw[i] >= threshold)
      && Distinct(e)
      && NonIncreasing(e, KeyOf(raw))
      && TiesAscending(e, KeyOf(raw))
      && Chosen(raw, threshold) == e[..|Chosen(raw, threshold)|]
  {
    var key := KeyOf(raw);
    var order := Ranking(|raw|, key);
    RankingSpec(|raw|, key);
    forall i: nat | i in order ensures i < |raw| {
      var p :| 0 <= p < |order| && order[p] == i;
    }
    AtLeastMembers(order, key, threshold);
    AtLeastDistinct(order, key, threshold);
    AtLeastNonIncreasing(order, key, threshold);
    AtLeastTies(order, key, threshold);
  }

  /**
   * The chosen positions are distinct, pass the threshold, and come best
   * first with ties in registry order.
   */
  lemma ChosenOrdered(raw: seq<real>, threshold: real)
    ensures var c := Chosen(raw, threshold);
      && Distinct(c)
      && (forall k :: 0 <= k < |c| ==> raw[c[k]] >= threshold)
      && (forall p, q :: 0 <= p < q < |c| ==> raw[c[p]] >= raw[c[q]])
      && (forall p, q :: 0 <= p < q < |c| && raw[c[p]] == raw[c[q]] ==> c[p] < c[q])
  {
    EligibleSpec(raw, threshold);
    var e := Eligible(raw, threshold);
    var c := Chosen(raw, threshold);
    forall k | 0 <= k < |c| ensures raw[c[k]] >= threshold {
      assert c[k] == e[k] && e[k] in e;
    }
    forall p, q | 0 <= p < q < |c| ensures raw[c[p]] >= raw[c[q]] {
      assert KeyOf(raw)(e[p]) >= KeyOf(raw)(e[q]);
    }
    forall p, q | 0 <= p < q < |c| && raw[c[p]] == raw[c[q]] ensures c[p] < c[q] {
      assert KeyOf(raw)(e[p]) == KeyOf(raw)(e[q]);
    }
  }

  /**
   * The chosen positions are the best: a position that passes the threshold
   * but is left out means three were chosen, none worse than it, and any tie
   * went to an earlier position.
   */
  lemma ChosenAreBest(raw: seq<real>, threshold: real, i: nat)
    requires i < |raw| && raw[i] >= threshold && i !in Chosen(raw, threshold)
    ensures |Chosen(raw, threshold)| == MaxSpecialists
    ensures forall k :: 0 <= k < MaxSpecialists ==>
      raw[Chosen(raw, threshold)[k]] >= raw[i] && (raw[Chosen(raw, threshold)[k]] == raw[i] ==> Chosen(raw, threshold)[k] < i)
  {
    EligibleSpec(raw, threshold);
    var e := Eligible(raw, threshold);
    var c := Chosen(raw, threshold);
    assert i in e;
    var m :| 0 <= m < |e| && e[m] == i;
    assert m >= |c|;
    forall k | 0 <= k < MaxSpecialists ensures raw[c[k]] >= raw[i] && (raw[c[k]] == raw[i] ==> c[k] < i) {
      assert KeyOf(raw)(e[k]) >= KeyOf(raw)(e[m]);
    }
  }

  /** Division facts, kept apart so that the proofs using them stay linear. */
  lemma DivBounds(x: real, total: real)
    requires 0.0 < x <= total
    ensures 0.0 < x / total <= 1.0
  {
  }

  lemma DivMonotone(x: real, y: real, total: real)
    requires total > 0.0 && x >= y
    ensures x / total >= y / total
  {
  }

  lemma DivSelf(total: real)
    requires total > 0.0
    ensures total / total == 1.0
  {
  }

  lemma DivSum(x: real, y: real, total: real)
    requires total > 0.0
    ensures (x + y) / total == x / total + y / total
  {
  }

  /** Dividing every term by the same positive total divides the sum. */
  lemma {:induction false} SumOfScaled(raw: seq<real>, scaled: seq<real>, positions: seq<nat>, total: real)
    requires total > 0.0
    requires forall k :: 0 <= k < |positions| ==> positions[k] < |raw| && positions[k] < |scaled|
    requires forall k :: 0 <= k < |positions| ==> scaled[positions[k]] == raw[positions[k]] / total
    ensures SumOf(KeyOf(scaled), positions) == SumOf(KeyOf(raw), positions) / total
  {
    if positions != [] {
      var init := positions[..|positions| - 1];
      SumOfScaled(raw, scaled, init, total);
      DivSum(SumOf(KeyOf(raw), init), raw[positions[|positions| - 1]], total);
    }
  }

  /** A sum of terms that are all at least `t > 0` is positive when there is one. */
  lemma {:induction false} SumOfPositive(key: nat -> real, positions: seq<nat>, t: real)
    requires t > 0.0
    requires forall k :: 0 <= k < |positions| ==> key(positions[k]) >= t
    ensures positions != [] ==> SumOf(key, positions) > 0.0
    ensures SumOf(key, positions) >= 0.0
  {
    if positions != [] {
      SumOfPositive(key, positions[..|positions| - 1], t);
    }
  }

  /** Each term is at most the sum of non-negative terms. */
  lemma {:induction false} TermAtMostSum(key: nat -> real, positions: seq<nat>, k: nat)
    requires forall j :: 0 <= j < |positions| ==> key(positions[j]) >= 0.0
    requires k < |positions|
    ensures key(positions[k]) <= SumOf(key, positions)
  {
    var init := positions[..|positions| - 1];
    if k < |init| {
      TermAtMostSum(key, init, k);
      assert init[k] == positions[k];
      assert key(positions[|positions| - 1]) >= 0.0;
    } else {
      NonNegativeSum(key, init);
    }
  }

  lemma {:induction false} NonNegativeSum(key: nat -> real, positions: seq<nat>)
    requires forall j :: 0 <= j < |positions| ==> key(positions[j]) >= 0.0
    ensures SumOf(key, positions) >= 0.0
  {
    if positions != [] {
      NonNegativeSum(key, positions[..|positions| - 1]);
    }
  }

  /** With a positive threshold, a non-empty choice has a positive total, and each chosen score is divided by it. */
  lemma ChosenTotal(raw: seq<real>, threshold: real)
    requires threshold > 0.0
    ensures var c := Chosen(raw, threshold); var total := SumOf(KeyOf(raw), c);
      && total >= 0.0
      && (c != [] ==> total > 0.0)
      && (forall k :: 0 <= k < |c| ==> 0.0 < raw[c[k]] <= total)
      && (c != [] ==> forall k :: 0 <= k < |c| ==> NewScores(raw, threshold)[c[k]] == raw[c[k]] / total)
  {
    var c := Chosen(raw, threshold);
    var key := KeyOf(raw);
    ChosenOrdered(raw, threshold);
    assert forall k :: 0 <= k < |c| ==> key(c[k]) == raw[c[k]];
    SumOfPositive(key, c, threshold);
    forall k | 0 <= k < |c| ensures raw[c[k]] <= SumOf(key, c) {
      TermAtMostSum(key, c, k);
    }
  }

  /** Renormalisation leaves the scores that were not chosen alone. */
  lemma NormalisationKeepsOthers(raw: seq<real>, threshold: real)
    ensures forall i :: 0 <= i < |raw| && i !in Chosen(raw, threshold) ==> NewScores(raw, threshold)[i] == raw[i]
  {
  }

  /** Renormalised chosen scores lie in (0, 1] and stay best first. */
  lemma NormalisationBoundsAndOrder(raw: seq<real>, threshold: real)
    requires threshold > 0.0
    ensures var c := Chosen(raw, threshold); var ns := NewScores(raw, threshold);
      && (forall k :: 0 <= k < |c| ==> 0.0 < ns[c[k]] <= 1.0)
      && (forall p, q :: 0 <= p < q < |c| ==> ns[c[p]] >= ns[c[q]])
  {
    var c := Chosen(raw, threshold);
    var ns := NewScores(raw, threshold);
    ChosenTotal(raw, threshold);
    ChosenOrdered(raw, threshold);
    if c != [] {
      var total := SumOf(KeyOf(raw), c);
      forall k | 0 <= k < |c| ensures 0.0 < ns[c[k]] <= 1.0 {
        DivBounds(raw[c[k]], total);
      }
      forall p, q | 0 <= p < q < |c| ensures ns[c[p]] >= ns[c[q]] {
        DivMonotone(raw[c[p]], raw[c[q]], total);
      }
    }
  }

  /** Renormalised chosen scores add up to 1. */
  lemma NormalisationSumsToOne(raw: seq<real>, threshold: real)
    requires threshold > 0.0 && Chosen(raw, threshold) != []
    ensures SumOf(KeyOf(NewScores(raw, threshold)), Chosen(raw, threshold)) == 1.0
  {
    var c := Chosen(raw, threshold);
    var total := SumOf(KeyOf(raw), c);
    ChosenTotal(raw, threshold);
    SumOfScaled(raw, NewScores(raw, threshold), c, total);
    DivSelf(total);
  }

  // ---------------------------------------------------------------------------
  // Selection, in place

  /** A score record; the selection step overwrites `score`. */
  class ScoreCell {
    const specialist: SpecialistProfile
    const why: Why
    var score: real

    constructor (specialist: SpecialistProfile, score: real, why: Why)
      ensures this.specialist == specialist && this.score == score && this.why == why
    {
      this.specialist := specialist;
      this.score := score;
      this.why := why;
    }

    /** The record's current value. */
    function Snapshot(): Score
      reads this
    {
      Score(specialist, score, why)
    }
  }

  /** The scores the cells hold now, in list order. */
  function Scores(cells: seq<ScoreCell>): (r: seq<real>)
    reads set c | c in cells
    ensures |r| == |cells| && forall i :: 0 <= i < |cells| ==> r[i] == cells[i].score
  {
    seq(|cells|, i requires 0 <= i < |cells| reads set c | c in cells => cells[i].score)
  }

  /** The records the cells hold now, in list order. */
  function Snapshots(cells: seq<ScoreCell>): (r: seq<Score>)
    reads set c | c in cells
    ensures |r| == |cells| && forall i :: 0 <= i < |cells| ==> r[i] == cells[i].Snapshot()
  {
    seq(|cells|, i requires 0 <= i < |cells| reads set c | c in cells => cells[i].Snapshot())
  }

  ghost predicate DistinctCells(cells: seq<ScoreCell>) {
    forall i, j :: 0 <= i < j < |cells| ==> cells[i] != cells[j]
  }

  /** The first score record of each registry profile. */
  function InitialScores(a: TokenAnalysis, hit: Hits): (r: seq<Score>)
    ensures |r| == |Registry|
  {
    seq(|Registry|, i requires 0 <= i < |Registry| =>
      Score(Registry[i], ScoreOf(Registry[i], a, hit), ByRules(Contributions(Registry[i], a, hit))))
  }

  /** `calculateAllScores`: one new record per registry profile, in registry order. */
  method CalculateAllScores(a: TokenAnalysis, hit: Hits) returns (cells: seq<ScoreCell>)
    ensures |cells| == |Registry| && DistinctCells(cells)
    ensures forall i :: 0 <= i < |cells| ==> fresh(cells[i])
    ensures Snapshots(cells) == InitialScores(a, hit)
  {
    cells := [];
    for i := 0 to |Registry|
      invariant |cells| == i && DistinctCells(cells)
      invariant forall j :: 0 <= j < i ==> fresh(cells[j])
      invariant forall j :: 0 <= j < i ==> cells[j].Snapshot() == InitialScores(a, hit)[j]
    {
      var score, reasons := CalculateSpecialistScore(Registry[i], a, hit);
      var cell := new ScoreCell(Registry[i], score, ByRules(reasons));
      cells := cells + [cell];
    }
  }

  /** The chosen positions have no repetitions. */
  lemma ChosenDistinct(raw: seq<real>, threshold: real)
    ensures Distinct(Chosen(raw, threshold))
  {
    ChosenOrdered(raw, threshold);
  }

  /** One renormalised score. */
  lemma NewScoreAt(raw: seq<real>, threshold: real, i: nat)
    requires i < |raw|
    ensures var c := Chosen(raw, threshold); var total := SumOf(KeyOf(raw), c);
      NewScores(raw, threshold)[i] == if total > 0.0 && i in c then raw[i] / total else raw[i]
  {
  }

  /**
   * `selectSpecialists`: returns the chosen records, best first, and divides
   * their scores by the chosen total in place; the other records keep their
   * scores.
   */
  method SelectSpecialists(cells: seq<ScoreCell>, threshold: real) returns (selected: seq<ScoreCell>)
    requires DistinctCells(cells)
    modifies set c | c in cells
    ensures var c := Chosen(old(Scores(cells)), threshold);
      && |selected| == |c|
      && (forall k :: 0 <= k < |c| ==> selected[k] == cells[c[k]])
    ensures forall i :: 0 <= i < |cells| ==> cells[i].score == NewScores(old(Scores(cells)), threshold)[i]
  {
    var raw := Scores(cells);
    var key := KeyOf(raw);
    var eligible := Eligible(raw, threshold);
    var chosen := if |eligible| <= MaxSpecialists then eligible else eligible[..MaxSpecialists];
    assert chosen == Chosen(raw, threshold);
    ChosenDistinct(raw, threshold);
    selected := seq(|chosen|, k requires 0 <= k < |chosen| => cells[chosen[k]]);
    var totalScore := SumOf(key, chosen);
    if totalScore > 0.0 {
      assert DistinctCells(selected) by {
        forall p, q | 0 <= p < q < |selected| ensures selected[p] != selected[q] {
          assert chosen[p] != chosen[q];
        }
      }
      DivideScores(selected, totalScore);
    }
    CellsHoldNewScores(cells, selected, chosen, raw, threshold, totalScore);
  }

  /**
   * After the division the cells hold the renormalised scores: the chosen
   * ones divided by the total (when it is positive), the others as they were.
   */
  lemma CellsHoldNewScores(cells: seq<ScoreCell>, selected: seq<ScoreCell>, chosen: seq<nat>, raw: seq<real>,
                           threshold: real, total: real)
    requires |cells| == |raw| && DistinctCells(cells)
    requires chosen == Chosen(raw, threshold) && total == SumOf(KeyOf(raw), chosen)
    requires |selected| == |chosen| && forall k :: 0 <= k < |chosen| ==> selected[k] == cells[chosen[k]]
    requires forall k :: 0 <= k < |chosen| ==>
      selected[k].score == if total > 0.0 then raw[chosen[k]] / total else raw[chosen[k]]
    requires forall i :: 0 <= i < |cells| && cells[i] !in selected ==> cells[i].score == raw[i]
    ensures forall i :: 0 <= i < |cells| ==> cells[i].score == NewScores(raw, threshold)[i]
  {
    forall i | 0 <= i < |cells|
      ensures cells[i].score == NewScores(raw, threshold)[i]
    {
      NewScoreAt(raw, threshold, i);
      if i in chosen {
        var m :| 0 <= m < |chosen| && chosen[m] == i;
        assert cells[i] == selected[m];
      } else {
        forall m | 0 <= m < |selected| ensures selected[m] != cells[i] {
          assert chosen[m] != i;
        }
      }
    }
  }

  /** The renormalisation loop (`selected.forEach`): divides each record's score by `total`. */
  method DivideScores(selected: seq<ScoreCell>, total: real)
    requires total > 0.0 && DistinctCells(selected)
    modifies set c | c in selected
    ensures forall k :: 0 <= k < |selected| ==> selected[k].score == old(selected[k].score) / total
  {
    for k := 0 to |selected|
      invariant forall m :: 0 <= m < k ==> selected[m].score == old(selected[m].score) / total
      invariant forall m :: k <= m < |selected| ==> selected[m].score == old(selected[m].score)
    {
      selected[k].score := selected[k].score / total;
    }
  }

  // ---------------------------------------------------------------------------
  // Routing

  /** The generic-model short-circuit: low complexity, few tokens, every weight small, no multi-competence. */
  predicate IsReallySimple(a: TokenAnalysis) {
    && a.complexity == Low
    && a.count <= GenericThreshold
    && a.creativeWeight < 0.2 && a.technicalWeight < 0.2
    && a.analyticalWeight < 0.2 && a.emotionalWeight < 0.2
    && (a.multiCompetenceBonus == 0.0 || a.multiCompetenceBonus < 0.1)
  }

  /** The activation threshold, lowered by 30% for a strong multi-competence request. */
  function DynamicThreshold(a: TokenAnalysis): (t: real)
    ensures t > 0.0
  {
    if a.multiCompetenceBonus > 0.3 then ActivationThreshold * 0.7 else ActivationThreshold
  }

  /** The score of every registry profile before selection, in registry order. */
  function RawScores(a: TokenAnalysis, hit: Hits): (raw: seq<real>)
    ensures |raw| == |Registry|
    ensures forall i :: 0 <= i < |Registry| ==> raw[i] == ScoreOf(Registry[i], a, hit)
  {
    seq(|Registry|, i requires 0 <= i < |Registry| => ScoreOf(Registry[i], a, hit))
  }

  /** The score records after selection: the chosen ones renormalised. */
  function FinalScores(a: TokenAnalysis, hit: Hits): (r: seq<Score>)
    ensures |r| == |Registry|
  {
    var ns := NewScores(RawScores(a, hit), DynamicThreshold(a));
    seq(|Registry|, i requires 0 <= i < |Registry| =>
      Score(Registry[i], ns[i], ByRules(Contributions(Registry[i], a, hit))))
  }

  /** One record of the final list. */
  lemma FinalScoreAt(a: TokenAnalysis, hit: Hits, i: nat)
    requires i < |Registry|
    ensures FinalScores(a, hit)[i] ==
      Score(Registry[i], NewScores(RawScores(a, hit), DynamicThreshold(a))[i], ByRules(Contributions(Registry[i], a, hit)))
  {
  }

  /** A list holding each registry profile's renormalised score and rules is the final list. */
  lemma FinalScoresFrom(all: seq<Score>, a: TokenAnalysis, hit: Hits)
    requires |all| == |Registry|
    requires forall i :: 0 <= i < |Registry| ==>
      all[i] == Score(Registry[i], NewScores(RawScores(a, hit), DynamicThreshold(a))[i], ByRules(Contributions(Registry[i], a, hit)))
    ensures all == FinalScores(a, hit)
  {
  }

  /** The chosen records, best first: the same entries as in the full list. */
  function SelectedScores(a: TokenAnalysis, hit: Hits): (r: seq<Score>)
  {
    var c := Chosen(RawScores(a, hit), DynamicThreshold(a));
    var all := FinalScores(a, hit);
    seq(|c|, k requires 0 <= k < |c| => all[c[k]])
  }

  /** A list holding the final records at the chosen positions is the selected list. */
  lemma SelectedScoresFrom(selected: seq<Score>, all: seq<Score>, a: TokenAnalysis, hit: Hits)
    requires all == FinalScores(a, hit)
    requires var c := Chosen(RawScores(a, hit), DynamicThreshold(a));
      |selected| == |c| && forall k :: 0 <= k < |c| ==> selected[k] == all[c[k]]
    ensures selected == SelectedScores(a, hit)
  {
  }

  /** `generateReasoning`. */
  function ReasoningOf(selected: seq<Score>, a: TokenAnalysis, threshold: real): RouteReason
  {
    if selected == [] then NoneAboveThreshold(threshold)
    else Activated(seq(|selected|, k requires 0 <= k < |selected| => selected[k].specialist.name),
                   selected[0],
                   if a.multiCompetenceBonus > 0.3 then Some(threshold) else None)
  }

  /** The decision for an analysed input. */
  function Decide(a: TokenAnalysis, hit: Hits): RouterDecision
  {
    if IsReallySimple(a) then
      RouterDecision(true, [], [], a.count, a.complexity, TrulySimple(a.count), ActivationThreshold, None)
    else
      var t := DynamicThreshold(a);
      var selected := SelectedScores(a, hit);
      RouterDecision(selected == [], selected, FinalScores(a, hit), a.count, a.complexity,
                     ReasoningOf(selected, a, t), t, None)
  }

  /** The decision of `route` for an input. */
  function RouteOf(userInput: string, hit: Hits): RouterDecision
  {
    Decide(AnalysisOf(userInput, hit), hit)
  }

  /**
   * The scoring half of `route`: scores every profile, selects against the
   * dynamic threshold, and reads back the records (all of them, and the
   * chosen ones) after the in-place renormalisation.
   */
  method ScoreAndSelect(analysis: TokenAnalysis, hit: Hits) returns (allScores: seq<Score>, selectedScores: seq<Score>)
    ensures allScores == FinalScores(analysis, hit)
    ensures selectedScores == SelectedScores(analysis, hit)
  {
    var cells := CalculateAllScores(analysis, hit);
    CellsStart(cells, analysis, hit);
    var dynamicThreshold := DynamicThreshold(analysis);
    var selected := SelectSpecialists(cells, dynamicThreshold);
    allScores := Snapshots(cells);
    selectedScores := Snapshots(selected);
    CellsEnd(cells, analysis, hit);
    SelectedCells(cells, selected, analysis, hit);
  }

  /** The fresh cells hold the raw scores, one per registry profile with its rule contributions. */
  lemma CellsStart(cells: seq<ScoreCell>, a: TokenAnalysis, hit: Hits)
    requires Snapshots(cells) == InitialScores(a, hit)
    ensures Scores(cells) == RawScores(a, hit)
    ensures |cells| == |Registry|
    ensures forall i :: 0 <= i < |cells| ==>
      cells[i].specialist == Registry[i] && cells[i].why == ByRules(Contributions(Registry[i], a, hit))
  {
    assert forall i :: 0 <= i < |cells| ==> cells[i].Snapshot() == InitialScores(a, hit)[i];
  }

  /** Cells holding the renormalised scores read back as the final records. */
  lemma CellsEnd(cells: seq<ScoreCell>, a: TokenAnalysis, hit: Hits)
    requires |cells| == |Registry|
    requires forall i :: 0 <= i < |cells| ==>
      cells[i].specialist == Registry[i] && cells[i].why == ByRules(Contributions(Registry[i], a, hit))
    requires forall i :: 0 <= i < |cells| ==> cells[i].score == NewScores(RawScores(a, hit), DynamicThreshold(a))[i]
    ensures Snapshots(cells) == FinalScores(a, hit)
  {
    FinalScoresFrom(Snapshots(cells), a, hit);
  }

  /** The chosen cells read back as the selection. */
  lemma SelectedCells(cells: seq<ScoreCell>, selected: seq<ScoreCell>, a: TokenAnalysis, hit: Hits)
    requires Snapshots(cells) == FinalScores(a, hit)
    requires var c := Chosen(RawScores(a, hit), DynamicThreshold(a));
      |selected| == |c| && forall k :: 0 <= k < |c| ==> selected[k] == cells[c[k]]
    ensures Snapshots(selected) == SelectedScores(a, hit)
  {
    var all := Snapshots(cells);
    var c := Chosen(RawScores(a, hit), DynamicThreshold(a));
    var sel := Snapshots(selected);
    assert forall k :: 0 <= k < |c| ==> sel[k] == all[c[k]];
    SelectedScoresFrom(sel, all, a, hit);
  }

  /** `route`. */
  method Route(userInput: string, hit: Hits) returns (d: RouterDecision)
    ensures d == RouteOf(userInput, hit)
  {
    var analysis := Analyze(userInput, hit);
    if IsReallySimple(analysis) {
      d := RouterDecision(true, [], [], analysis.count, analysis.complexity, TrulySimple(analysis.count),
                          ActivationThreshold, None);
      return;
    }
    var allScores, selectedScores := ScoreAndSelect(analysis, hit);
    var dynamicThreshold := DynamicThreshold(analysis);
    d := RouterDecision(|selectedScores| == 0, selectedScores, allScores, analysis.count, analysis.complexity,
                        ReasoningOf(selectedScores, analysis, dynamicThreshold), dynamicThreshold, None);
  }

  // ---------------------------------------------------------------------------
  // Properties of the decision

  /** The sum of the scores of some records. */
  function SumScores(scores: seq<Score>): real
  {
    if scores == [] then 0.0 else SumScores(scores[..|scores| - 1]) + scores[|scores| - 1].score
  }

  /** Records holding the keys of some positions sum like those positions. */
  lemma {:induction false} SumScoresOf(scores: seq<Score>, key: nat -> real, positions: seq<nat>)
    requires |scores| == |positions|
    requires forall k :: 0 <= k < |scores| ==> scores[k].score == key(positions[k])
    ensures SumScores(scores) == SumOf(key, positions)
  {
    if scores != [] {
      SumScoresOf(scores[..|scores| - 1], key, positions[..|positions| - 1]);
    }
  }

  /**
   * The generic short-circuit happens exactly for really simple inputs: then
   * nothing is scored, nothing selected and the default threshold reported.
   */
  lemma RouteShortCircuit(a: TokenAnalysis, hit: Hits)
    ensures var d := Decide(a, hit);
      && (d.allScores == [] <==> IsReallySimple(a))
      && (IsReallySimple(a) ==>
            d.useGeneric && d.selectedSpecialists == [] && d.reasoning == TrulySimple(a.count)
            && d.activationThreshold == ActivationThreshold)
      && d.tokenCount == a.count && d.complexity == a.complexity && d.directResponse == None
  {
  }

  /**
   * The bonus test of the short-circuit is in effect `bonus == 0`: the
   * analyzer's bonus is either 0 or at least 0.3, never in (0, 0.1).
   */
  lemma ReallySimpleHasNoBonus(input: string, hit: Hits)
    ensures IsReallySimple(AnalysisOf(input, hit)) ==> AnalysisOf(input, hit).multiCompetenceBonus == 0.0
  {
  }

  /** The analyzer's weights are the ones the scorer's soundness lemmas assume. */
  lemma AnalysisInRange(input: string, hit: Hits)
    ensures WeightsInRange(AnalysisOf(input, hit))
  {
  }

  /**
   * When the input is not really simple, every profile gets one record, in
   * registry order, with a score in [0, 1], and the threshold is 0.15, or
   * 0.105 for a strong multi-competence request.
   */
  lemma DecisionScores(a: TokenAnalysis, hit: Hits)
    requires WeightsInRange(a) && !IsReallySimple(a)
    ensures var d := Decide(a, hit);
      && AlignedWithRegistry(d.allScores)
      && (forall i :: 0 <= i < |d.allScores| ==> 0.0 <= d.allScores[i].score <= 1.0)
      && d.activationThreshold == (if a.multiCompetenceBonus > 0.3 then 0.105 else 0.15)
  {
    var raw := RawScores(a, hit);
    var t := DynamicThreshold(a);
    var c := Chosen(raw, t);
    var all := FinalScores(a, hit);
    forall i | 0 <= i < |Registry| ensures 0.0 <= raw[i] <= 1.0 {
      ScoreSpec(Registry[i], a, hit);
    }
    NormalisationBoundsAndOrder(raw, t);
    NormalisationKeepsOthers(raw, t);
    forall i | 0 <= i < |all| ensures all[i].specialist == Registry[i] && 0.0 <= all[i].score <= 1.0 {
      FinalScoreAt(a, hit, i);
      if i in c {
        var k :| 0 <= k < |c| && c[k] == i;
      }
    }
  }

  /**
   * When the input is not really simple, the selected records are the full
   * list's records at the chosen positions (the same entries, renormalised),
   * at most three, distinct, each scored at least the threshold before
   * renormalisation, best first; the generic model is used exactly when none
   * is selected, and otherwise the selected scores add up to 1.
   */
  lemma DecisionSelection(a: TokenAnalysis, hit: Hits)
    requires !IsReallySimple(a)
    ensures var d := Decide(a, hit); var raw := RawScores(a, hit); var c := Chosen(raw, d.activationThreshold);
      && |d.selectedSpecialists| == |c| <= MaxSpecialists
      && Distinct(c)
      && (forall k :: 0 <= k < |c| ==> d.selectedSpecialists[k] == d.allScores[c[k]] && raw[c[k]] >= d.activationThreshold)
      && (forall p, q :: 0 <= p < q < |c| ==> d.selectedSpecialists[p].score >= d.selectedSpecialists[q].score)
      && (d.useGeneric <==> d.selectedSpecialists == [])
      && (d.selectedSpecialists != [] ==> SumScores(d.selectedSpecialists) == 1.0)
  {
    var raw := RawScores(a, hit);
    var t := DynamicThreshold(a);
    var c := Chosen(raw, t);
    var ns := NewScores(raw, t);
    var sel := SelectedScores(a, hit);
    ChosenOrdered(raw, t);
    NormalisationBoundsAndOrder(raw, t);
    forall k | 0 <= k < |c| ensures sel[k].score == ns[c[k]] {
      FinalScoreAt(a, hit, c[k]);
    }
    if c != [] {
      NormalisationSumsToOne(raw, t);
      SumScoresOf(sel, KeyOf(ns), c);
    }
  }

  /**
   * The reasoning names the selected specialists in order and their leader,
   * and mentions the lowered threshold exactly for a strong multi-competence
   * request; with nothing selected it reports the threshold.
   */
  lemma DecisionReasoning(a: TokenAnalysis, hit: Hits)
    requires !IsReallySimple(a)
    ensures var d := Decide(a, hit); var sel := d.selectedSpecialists;
      if sel == [] then d.reasoning == NoneAboveThreshold(d.activationThreshold)
      else
        && d.reasoning.Activated?
        && |d.reasoning.names| == |sel|
        && (forall k :: 0 <= k < |sel| ==> d.reasoning.names[k] == sel[k].specialist.name)
        && d.reasoning.leader == sel[0]
        && (d.reasoning.loweredThreshold.Some? <==> a.multiCompetenceBonus > 0.3)
  {
  }
}

=== FILE: patterns.dfy ===
/**
 * The regular-expression tests of the core whose outcome depends on
 * JavaScript's regular-expression engine (word boundaries, case-insensitive
 * alternations over free text). The model does not interpret them: a
 * `Hits` value says, for the one input being analysed, which tests succeed.
 * All of them are case-insensitive, so a test on the input and on its
 * lower-cased copy succeed together.
 */
module Patterns {

  datatype Rx =
    /** The question words test of `hasQuestions`. */
    | QuestionWord
    /** CREATIVE_PATTERNS[k], k < 10. */
    | CreativePattern(k: nat)
    /** EMOTIONAL_PATTERNS[k], k < 4. */
    | EmotionalPattern(k: nat)
    /** ANALYTICAL_PATTERNS[k], k < 8; the router's explicit "analitico" test is the same regex as k = 4. */
    | AnalyticalPattern(k: nat)
    /** URGENCY_PATTERNS[k], k < 3. */
    | UrgencyPattern(k: nat)
    /** The "X e Y" combination patterns of the multi-competence detector, k < 4. */
    | CombinationPattern(k: nat)
    // Extra tests of the technical, creative, analytical and emotional weights.
    | ImplementationWords | ErrorWords | PerformanceWords
    | DirectIdeasRequest | OriginalityRequest | ConceptRequest | NarrativeRequest
    | ComparisonRequest | OptimisationRequest | VerificationRequest
    | SupportRequest | DifficultyWords | SocialWords
    // Persona-specific tests of the multi-specialist scorer.
    | BrainstormWords | NumberedIdeasRequest | CreativeWords | InnovationWords | ContentWords
    | CheckWords | QualityWords | HelpWords | HumanWords | ExplainWords

  /** `hit(p)` holds iff test `p` succeeds on the input. */
  type Hits = Rx -> bool

  const CreativePatterns: seq<Rx> := [
    CreativePattern(0), CreativePattern(1), CreativePattern(2), CreativePattern(3), CreativePattern(4),
    CreativePattern(5), CreativePattern(6), CreativePattern(7), CreativePattern(8), CreativePattern(9)]
  const EmotionalPatterns: seq<Rx> := [
    EmotionalPattern(0), EmotionalPattern(1), EmotionalPattern(2), EmotionalPattern(3)]
  const AnalyticalPatterns: seq<Rx> := [
    AnalyticalPattern(0), AnalyticalPattern(1), AnalyticalPattern(2), AnalyticalPattern(3),
    AnalyticalPattern(4), AnalyticalPattern(5), AnalyticalPattern(6), AnalyticalPattern(7)]
  const UrgencyPatterns: seq<Rx> := [UrgencyPattern(0), UrgencyPattern(1), UrgencyPattern(2)]
  const CombinationPatterns: seq<Rx> := [
    CombinationPattern(0), CombinationPattern(1), CombinationPattern(2), CombinationPattern(3)]

  /** How many of `pats` succeed. */
  function Matched(pats: seq<Rx>, hit: Hits): (n: nat)
    ensures n <= |pats|
  {
    if pats == [] then 0
    else Matched(pats[..|pats| - 1], hit) + (if hit(pats[|pats| - 1]) then 1 else 0)
  }

  /** `pats.some(p => p.test(input))`. */
  predicate AnyHit(pats: seq<Rx>, hit: Hits) {
    exists p :: p in pats && hit(p)
  }

  /** `weaker` succeeds on no test that `stronger` fails. */
  ghost predicate Weaker(weaker: Hits, stronger: Hits) {
    forall p :: weaker(p) ==> stronger(p)
  }

  /** `some` holds exactly when at least one test counts. */
  lemma {:induction false} AnyHitIffMatched(pats: seq<Rx>, hit: Hits)
    ensures AnyHit(pats, hit) <==> Matched(pats, hit) > 0
  {
    if pats != [] {
      var init := pats[..|pats| - 1];
      AnyHitIffMatched(init, hit);
      if AnyHit(pats, hit) && !hit(pats[|pats| - 1]) {
        var p :| p in pats && hit(p);
        assert p in init;
      }
    }
  }

  /** More successful tests never lower the count. */
  lemma {:induction false} MatchedMonotone(pats: seq<Rx>, weaker: Hits, stronger: Hits)
    requires Weaker(weaker, stronger)
    ensures Matched(pats, weaker) <= Matched(pats, stronger)
  {
    if pats != [] {
      MatchedMonotone(pats[..|pats| - 1], weaker, stronger);
    }
  }
}

=== FILE: reply_format.dfy ===
/**
 * The shape of a completion-service reply, shared by the routers and the
 * synthesizer: the text of the first choice, and the JSON object embedded in
 * free text.
 */
module ReplyFormat {
  import opened Wrappers
  import opened Json
  import opened Text

  /**
   * `data.choices[0]?.message?.content?.trim()` when it is a non-empty
   * string; `None` for every body on which the source throws or finds no reply.
   */
  function ReplyText(body: Json): (r: Option<string>)
    ensures r.Some? ==> r.value != []
  {
    match GetOpt(FirstOpt(Get(body, "choices")), "message")
    case Some(message) =>
      (match Get(message, "content")
       case Some(JStr(content)) => if Trim(content) != [] then Some(Trim(content)) else None
       case _ => None)
    case None => None
  }

  /** The position of the first `c` in `s`. */
  function FirstIndex(s: string, c: char): (r: Option<nat>)
    ensures r.Some? <==> c in s
    ensures r.Some? ==> r.value < |s| && s[r.value] == c && forall p :: 0 <= p < r.value ==> s[p] != c
  {
    if s == [] then None
    else if s[0] == c then Some(0)
    else
      match FirstIndex(s[1..], c)
      case None => None
      case Some(i) => Some(i + 1)
  }

  /** The position of the last `c` in `s`. */
  function LastIndex(s: string, c: char): (r: Option<nat>)
    ensures r.Some? <==> c in s
    ensures r.Some? ==> r.value < |s| && s[r.value] == c && forall p :: r.value < p < |s| ==> s[p] != c
  {
    if s == [] then None
    else if s[|s| - 1] == c then Some(|s| - 1)
    else
      var init := s[..|s| - 1];
      assert forall p :: 0 <= p < |init| ==> init[p] == s[p];
      LastIndex(init, c)
  }

  /**
   * The match of `/\{[\s\S]*\}/`: the leftmost `{` and, by greediness, the
   * last `}` after it. There is a match exactly when some `{` precedes some
   * `}`, and then it is the longest such span: no `{` before it, no `}` after.
   */
  function ExtractJson(reply: string): (r: Option<string>)
    ensures r.Some? <==> exists p, q :: 0 <= p < q < |reply| && reply[p] == '{' && reply[q] == '}'
    ensures r.Some? ==> exists p, q :: (
      && 0 <= p < q < |reply| && r.value == reply[p..q + 1]
      && reply[p] == '{' && reply[q] == '}'
      && (forall m :: 0 <= m < p ==> reply[m] != '{')
      && (forall m :: q < m < |reply| ==> reply[m] != '}'))
  {
    var first := FirstIndex(reply, '{');
    var last := LastIndex(reply, '}');
    assert forall p, q :: 0 <= p < q < |reply| && reply[p] == '{' && reply[q] == '}' ==>
        first.Some? && last.Some? && first.value <= p && q <= last.value by {
      forall p, q | 0 <= p < q < |reply| && reply[p] == '{' && reply[q] == '}'
        ensures first.Some? && last.Some? && first.value <= p && q <= last.value
      {
        assert reply[p] in reply;
        assert reply[q] in reply;
      }
    }
    if first.Some? && last.Some? && first.value < last.value then
      Some(reply[first.value..last.value + 1])
    else
      None
  }
}

=== FILE: specialist_router.dfy ===
/**
 * The earlier single-specialist router: a short input of low complexity goes
 * to the generic model; any other goes to exactly one specialist, chosen by a
 * fixed priority over the analysis flags.
 */
module SpecialistRouter {
  import opened Wrappers
  import opened Patterns
  import opened Specialists
  import opened SpecialistTypes
  import TokenAnalyzer
  import Text

  /** The token limit of the generic model. */
  const GenericThreshold: nat := 15

  datatype LegacyReason =
    /** "Input semplice (n token) - usando API generica". */
    | SimpleInput(tokenCount: nat)
    /** "Input complesso (n token) - routing a <name>". */
    | ComplexInput(tokenCount: nat, name: string)

  /** This router's decision: one specialist at most, no score lists. */
  datatype LegacyDecision = LegacyDecision(
    useGeneric: bool,
    selectedSpecialist: Option<SpecialistProfile>,
    tokenCount: nat,
    complexity: Complexity,
    reasoning: LegacyReason)

  /** The registry profile with the given id, for one of the four registry ids. */
  function Profile(id: string): (p: SpecialistProfile)
    requires id in Ids()
    ensures p in Registry && p.id == id
  {
    Find(id).value
  }

  /** `selectSpecialist`: technical content, then creativity, then emotion, then articulated questions. */
  function SelectSpecialist(a: TokenAnalysis): (p: SpecialistProfile)
    ensures p in Registry
  {
    RegistryOrder();
    if a.hasTechnicalTerms then Profile(AnalyticTechnical)
    else if a.requiresCreativity then Profile(CreativeIdeator)
    else if a.hasEmotionalContent then Profile(EmpatheticFacilitator)
    else if a.hasQuestions && a.complexity == High then Profile(CriticalVerifier)
    else Profile(EmpatheticFacilitator)
  }

  /** The decision for an analysed input. */
  function Decide(a: TokenAnalysis): (d: LegacyDecision)
  {
    if a.complexity == Low && a.count <= GenericThreshold then
      LegacyDecision(true, None, a.count, a.complexity, SimpleInput(a.count))
    else
      var p := SelectSpecialist(a);
      LegacyDecision(false, Some(p), a.count, a.complexity, ComplexInput(a.count, p.name))
  }

  /** `route`. */
  function Route(userInput: string, hit: Hits): LegacyDecision
  {
    Decide(TokenAnalyzer.AnalysisOf(userInput, hit))
  }

  /**
   * The generic model is used exactly for short inputs of low complexity, and
   * then no specialist is chosen; otherwise exactly one registry specialist is.
   */
  lemma DecideSpec(a: TokenAnalysis)
    ensures var d := Decide(a);
      && (d.useGeneric <==> a.complexity == Low && a.count <= GenericThreshold)
      && (d.useGeneric <==> d.selectedSpecialist.None?)
      && (d.selectedSpecialist.Some? ==>
            d.selectedSpecialist.value in Registry && d.reasoning == ComplexInput(a.count, d.selectedSpecialist.value.name))
      && d.tokenCount == a.count && d.complexity == a.complexity
  {
  }

  /**
   * Which specialist is chosen, said per specialist: technical content always
   * wins; creativity wins without it; the critical verifier only for
   * articulated high-complexity questions without any of the three flags; the
   * empathetic facilitator otherwise.
   */
  lemma SelectionCharacterised(a: TokenAnalysis)
    ensures var id := SelectSpecialist(a).id;
      && (id == AnalyticTechnical <==> a.hasTechnicalTerms)
      && (id == CreativeIdeator <==> !a.hasTechnicalTerms && a.requiresCreativity)
      && (id == CriticalVerifier <==>
            !a.hasTechnicalTerms && !a.requiresCreativity && !a.hasEmotionalContent
            && a.hasQuestions && a.complexity == High)
      && (id == EmpatheticFacilitator <==>
            !a.hasTechnicalTerms && !a.requiresCreativity
            && (a.hasEmotionalContent || !(a.hasQuestions && a.complexity == High)))
  {
    RegistryOrder();
  }

  /** On a real input the technical flag is the analyzer's technical weight above 0.3. */
  lemma TechnicalInputGoesToAnalyst(userInput: string, hit: Hits)
    requires !Route(userInput, hit).useGeneric
    ensures Route(userInput, hit).selectedSpecialist.value.id == AnalyticTechnical
        <==> TokenAnalyzer.TechnicalWeightOf(Text.Lower(userInput), hit) > 0.3
  {
    SelectionCharacterised(TokenAnalyzer.AnalysisOf(userInput, hit));
  }
}

=== FILE: specialist_types.dfy ===
/**
 * The records exchanged by the routers: the analysis of an input, a
 * specialist's score with its justification, and a routing decision.
 */
module SpecialistTypes {
  import opened Wrappers
  import opened Json
  import opened Specialists

  datatype Complexity = Low | Medium | High

  /** The feature vector of one input. */
  datatype TokenAnalysis = TokenAnalysis(
    count: nat,
    words: nat,
    complexity: Complexity,
    hasQuestions: bool,
    hasTechnicalTerms: bool,
    hasEmotionalContent: bool,
    requiresCreativity: bool,
    technicalWeight: real,
    creativeWeight: real,
    analyticalWeight: real,
    emotionalWeight: real,
    urgencyLevel: real,
    domainHints: seq<string>,
    multiCompetenceBonus: real)

  /** The scoring rules of the multi-specialist scorer, one per increment it can add. */
  datatype ScoreRule =
    | MultiCompetenceBaseline
    | TechnicalContent | AnalyticalContent | ExplicitlyAnalytical | ProgrammingDomain
    | HighComplexity | MediumComplexity
    | CreativeContent | CreativeDomain | OpenQuestions | Brainstorming | NumberedIdeas
    | ExplicitlyCreative | Innovation | ContentCreation
    | VerificationContent | VerificationWords | QualityFocus | StructuredContent
    | EmotionalContent | SupportWords | BusinessContext | HumanInteraction | ExplanationWords

  /** One rule that fired, with the increment it added. */
  datatype Contribution = Contribution(rule: ScoreRule, bonus: real)

  /** Why a specialist got its score. */
  datatype Why =
    /** The rules that fired, in the order the scorer checks them. */
    | ByRules(contributions: seq<Contribution>)
    /** The router reply's own `reasoning` value, carried verbatim. */
    | FromReply(value: Json)
    /** A fixed sentence. */
    | Fixed(text: string)

  datatype Score = Score(specialist: SpecialistProfile, score: real, why: Why)

  /** The decision's explanation. */
  datatype RouteReason =
    /** "Input veramente semplice (n token, ...)". */
    | TrulySimple(tokenCount: nat)
    /** "Nessuno specialista sopra soglia t - usando fallback generico". */
    | NoneAboveThreshold(threshold: real)
    /** "Attivati n specialisti: names. Leader: ...", with the lowered threshold when multi-competence applied. */
    | Activated(names: seq<string>, leader: Score, loweredThreshold: Option<real>)
    /** The router reply's own `reasoning` value, carried verbatim. */
    | ReplyReasoning(value: Json)
    /** "AI Router selected n specialists". */
    | AiSelectedCount(n: nat)
    /** A fixed sentence. */
    | FixedReason(text: string)

  datatype RouterDecision = RouterDecision(
    useGeneric: bool,
    selectedSpecialists: seq<Score>,
    allScores: seq<Score>,
    tokenCount: nat,
    complexity: Complexity,
    reasoning: RouteReason,
    activationThreshold: real,
    directResponse: Option<Json>)

  /** The score list has one entry per registry profile, in registry order. */
  predicate AlignedWithRegistry(scores: seq<Score>) {
    |scores| == |Registry| && forall i :: 0 <= i < |scores| ==> scores[i].specialist == Registry[i]
  }
}

=== FILE: specialists.dfy ===
/**
 * The specialist registry: four fixed persona profiles. Their order is the
 * order of every full score list and breaks ties between equal scores.
 * Prompt texts and notes are not part of the model.
 */
module Specialists {
  import opened Wrappers

  /** Opposing preference pairs, each pair in percent. */
  datatype MbtiProfile = MbtiProfile(E: int, I: int, N: int, S: int, T: int, F: int, J: int, P: int)

  /** Big Five traits, each in [0, 1]. */
  datatype BigFiveProfile = BigFiveProfile(O: real, C: real, E: real, A: real, N: real)

  datatype SpecialistProfile = SpecialistProfile(
    id: string,
    name: string,
    mbti: string,
    mbtiProfile: MbtiProfile,
    bigFive: BigFiveProfile)

  const AnalyticTechnical := "analytic-technical"
  const CreativeIdeator := "creative-ideator"
  const CriticalVerifier := "critical-verifier"
  const EmpatheticFacilitator := "empathetic-facilitator"

  const Registry: seq<SpecialistProfile> := [
    SpecialistProfile(AnalyticTechnical, "Analitico Tecnico", "INTJ",
      MbtiProfile(E := 10, I := 90, N := 94, S := 6, T := 85, F := 15, J := 80, P := 20),
      BigFiveProfile(O := 0.85, C := 0.80, E := 0.15, A := 0.30, N := 0.45)),
    SpecialistProfile(CreativeIdeator, "Creativo Ideatore", "ENFP",
      MbtiProfile(E := 85, I := 15, N := 93, S := 7, T := 25, F := 75, J := 20, P := 80),
      BigFiveProfile(O := 0.88, C := 0.40, E := 0.82, A := 0.75, N := 0.50)),
    SpecialistProfile(CriticalVerifier, "Verificatore Critico", "ISTJ",
      MbtiProfile(E := 20, I := 80, N := 15, S := 85, T := 80, F := 20, J := 90, P := 10),
      BigFiveProfile(O := 0.30, C := 0.80, E := 0.25, A := 0.45, N := 0.35)),
    SpecialistProfile(EmpatheticFacilitator, "Facilitatore Empatico", "ENFJ",
      MbtiProfile(E := 88, I := 12, N := 75, S := 25, T := 18, F := 82, J := 72, P := 28),
      BigFiveProfile(O := 0.78, C := 0.72, E := 0.77, A := 0.85, N := 0.45))
  ]

  /** The registry's ids, in registry order. */
  function Ids(): (ids: seq<string>)
    ensures |ids| == |Registry|
    ensures forall i :: 0 <= i < |Registry| ==> ids[i] == Registry[i].id
  {
    seq(|Registry|, i requires 0 <= i < |Registry| => Registry[i].id)
  }

  /** The first profile of `profiles` with the given id (`profiles.find(s => s.id === id)`). */
  function FindIn(profiles: seq<SpecialistProfile>, id: string): (r: Option<SpecialistProfile>)
    ensures r.Some? <==> exists i :: 0 <= i < |profiles| && profiles[i].id == id
    ensures r.Some? ==> r.value.id == id && r.value in profiles
    ensures r.Some? ==>
      exists i :: 0 <= i < |profiles| && profiles[i] == r.value && forall j :: 0 <= j < i ==> profiles[j].id != id
  {
    if profiles == [] then None
    else if profiles[0].id == id then Some(profiles[0])
    else
      var r := FindIn(profiles[1..], id);
      assert forall i :: 1 <= i < |profiles| ==> profiles[i] == profiles[1..][i - 1];
      r
  }

  /** `SPECIALISTS.find(s => s.id === id)`. */
  function Find(id: string): (r: Option<SpecialistProfile>)
    ensures r.Some? <==> id in Ids()
    ensures r.Some? ==> r.value.id == id && r.value in Registry
  {
    FindIn(Registry, id)
  }

  /** The four-letter code of the dominant letter of each pair. */
  function DominantCode(p: MbtiProfile): (code: string)
    ensures |code| == 4
    ensures code[0] == (if p.I > p.E then 'I' else 'E')
    ensures code[1] == (if p.N > p.S then 'N' else 'S')
    ensures code[2] == (if p.T > p.F then 'T' else 'F')
    ensures code[3] == (if p.J > p.P then 'J' else 'P')
  {
    [if p.I > p.E then 'I' else 'E', if p.N > p.S then 'N' else 'S',
     if p.T > p.F then 'T' else 'F', if p.J > p.P then 'J' else 'P']
  }

  predicate PairsSumTo100(p: MbtiProfile) {
    p.I + p.E == 100 && p.N + p.S == 100 && p.T + p.F == 100 && p.J + p.P == 100
  }

  predicate InUnitInterval(x: real) { 0.0 <= x <= 1.0 }

  predicate TraitsInUnitInterval(b: BigFiveProfile) {
    InUnitInterval(b.O) && InUnitInterval(b.C) && InUnitInterval(b.E) && InUnitInterval(b.A) && InUnitInterval(b.N)
  }

  /** The registry holds exactly the four personas, in this order. */
  lemma RegistryOrder()
    ensures Ids() == [AnalyticTechnical, CreativeIdeator, CriticalVerifier, EmpatheticFacilitator]
  {
  }

  /** Ids are pairwise distinct, so a lookup by id is unambiguous. */
  lemma IdsDistinct()
    ensures forall i, j :: 0 <= i < j < |Registry| ==> Registry[i].id != Registry[j].id
  {
  }

  /** Lookup by id finds the registry entry at that id's position. */
  lemma FindIsPositional(i: nat)
    requires i < |Registry|
    ensures Find(Registry[i].id) == Some(Registry[i])
  {
    IdsDistinct();
    var r := Find(Registry[i].id);
    var j :| 0 <= j < |Registry| && Registry[j] == r.value && forall k :: 0 <= k < j ==> Registry[k].id != Registry[i].id;
    assert j == i;
  }

  /** Every profile is internally consistent: opposing pairs sum to 100, Big Five traits are in [0, 1],
      and the four-letter code names the dominant letter of each pair. */
  lemma ProfilesConsistent()
    ensures forall p :: p in Registry ==> PairsSumTo100(p.mbtiProfile)
    ensures forall p :: p in Registry ==> TraitsInUnitInterval(p.bigFive)
    ensures forall p :: p in Registry ==> p.mbti == DominantCode(p.mbtiProfile)
  {
  }
}

=== FILE: stable_sort.dfy ===
/**
 * Stable sorting by a real key, in descending order, as `Array.prototype.sort`
 * does with the comparator `(a, b) => key(b) - key(a)` (the sort is stable
 * since ECMAScript 2019). The model sorts the positions `0 .. n-1` of an
 * array; the sorted array is the array read in that order.
 */
module StableSort {

  /** Every pair in the order has non-increasing keys. */
  ghost predicate NonIncreasing(s: seq<nat>, key: nat -> real) {
    forall p, q :: 0 <= p < q < |s| ==> key(s[p]) >= key(s[q])
  }

  /** Inserts `x` after every element whose key is at least `key(x)`. */
  function Insert(x: nat, s: seq<nat>, key: nat -> real): seq<nat>
  {
    if s == [] then [x]
    else if key(s[0]) >= key(x) then [s[0]] + Insert(x, s[1..], key)
    else [x] + s
  }

  /** The number of leading elements whose key is at least `key(x)`. */
  function InsertPos(x: nat, s: seq<nat>, key: nat -> real): (k: nat)
    ensures k <= |s|
  {
    if s == [] then 0
    else if key(s[0]) >= key(x) then 1 + InsertPos(x, s[1..], key)
    else 0
  }

  /** The positions `0 .. n-1` ordered by descending key; equal keys keep ascending position. */
  function Ranking(n: nat, key: nat -> real): seq<nat>
  {
    if n == 0 then [] else Insert(n - 1, Ranking(n - 1, key), key)
  }

  /** Insertion puts `x` at `InsertPos` and keeps everything else in order. */
  lemma {:induction false} InsertSplits(x: nat, s: seq<nat>, key: nat -> real)
    ensures var k := InsertPos(x, s, key); Insert(x, s, key) == s[..k] + [x] + s[k..]
  {
    if s != [] && key(s[0]) >= key(x) {
      InsertSplits(x, s[1..], key);
      var k := InsertPos(x, s, key);
      assert s[..k] == [s[0]] + s[1..][..k - 1];
      assert s[k..] == s[1..][k - 1..];
    }
  }

  /** Everything before the insertion point has a key at least `key(x)`. */
  lemma {:induction false} InsertPrefixKeys(x: nat, s: seq<nat>, key: nat -> real)
    ensures forall i :: 0 <= i < InsertPos(x, s, key) ==> key(s[i]) >= key(x)
  {
    if s != [] && key(s[0]) >= key(x) {
      InsertPrefixKeys(x, s[1..], key);
      forall i | 0 <= i < InsertPos(x, s, key) ensures key(s[i]) >= key(x) {
        if i > 0 { assert s[i] == s[1..][i - 1]; }
      }
    }
  }

  /** In a best-first list, everything from the insertion point on has a key below `key(x)`. */
  lemma {:induction false} InsertSuffixKeys(x: nat, s: seq<nat>, key: nat -> real)
    requires NonIncreasing(s, key)
    ensures forall i :: InsertPos(x, s, key) <= i < |s| ==> key(s[i]) < key(x)
  {
    if s == [] {
    } else if key(s[0]) >= key(x) {
      assert NonIncreasing(s[1..], key);
      InsertSuffixKeys(x, s[1..], key);
      forall i | InsertPos(x, s, key) <= i < |s| ensures key(s[i]) < key(x) {
        assert s[i] == s[1..][i - 1];
      }
    } else {
      forall i | 0 <= i < |s| ensures key(s[i]) < key(x) {
        if i > 0 { assert key(s[0]) >= key(s[i]); }
      }
    }
  }

  lemma InsertShape(x: nat, s: seq<nat>, key: nat -> real)
    ensures var k := InsertPos(x, s, key);
      && Insert(x, s, key) == s[..k] + [x] + s[k..]
      && (forall i :: 0 <= i < k ==> key(s[i]) >= key(x))
      && (NonIncreasing(s, key) ==> forall i :: k <= i < |s| ==> key(s[i]) < key(x))
  {
    InsertSplits(x, s, key);
    InsertPrefixKeys(x, s, key);
    if NonIncreasing(s, key) {
      InsertSuffixKeys(x, s, key);
    }
  }

  /** `r` lists each of the positions `0 .. n-1` exactly once. */
  ghost predicate IsPermutation(r: seq<nat>, n: nat) {
    && |r| == n
    && (forall p :: 0 <= p < n ==> r[p] < n)
    && (forall p, q :: 0 <= p < q < n ==> r[p] != r[q])
    && (forall i :: 0 <= i < n ==> i in r)
  }

  /** Of two positions with equal keys, the smaller one comes first. */
  ghost predicate TiesAscending(r: seq<nat>, key: nat -> real) {
    forall p, q :: 0 <= p < q < |r| && key(r[p]) == key(r[q]) ==> r[p] < r[q]
  }

  /** The facts about one insertion step that the three step lemmas share. */
  ghost predicate InsertedAt(r: seq<nat>, s: seq<nat>, x: nat, k: nat, key: nat -> real) {
    && k <= |s|
    && r == s[..k] + [x] + s[k..]
    && (forall i :: 0 <= i < k ==> key(s[i]) >= key(x))
    && (forall i :: k <= i < |s| ==> key(s[i]) < key(x))
  }

  lemma InsertedAtIndex(r: seq<nat>, s: seq<nat>, x: nat, k: nat, key: nat -> real)
    requires InsertedAt(r, s, x, k, key)
    ensures |r| == |s| + 1
    ensures forall p :: 0 <= p < k ==> r[p] == s[p]
    ensures r[k] == x
    ensures forall p :: k < p < |r| ==> r[p] == s[p - 1]
  {
  }

  lemma InsertKeepsPermutation(r: seq<nat>, s: seq<nat>, k: nat, n: nat, key: nat -> real)
    requires n > 0 && IsPermutation(s, n - 1) && InsertedAt(r, s, n - 1, k, key)
    ensures IsPermutation(r, n)
  {
    InsertedAtIndex(r, s, n - 1, k, key);
    forall i | 0 <= i < n ensures i in r {
      if i < n - 1 {
        assert i in s;
        var j :| 0 <= j < |s| && s[j] == i;
        if j < k { assert r[j] == i; } else { assert r[j + 1] == i; }
      } else {
        assert r[k] == i;
      }
    }
    forall p, q | 0 <= p < q < n ensures r[p] != r[q] {
      if q == k || p == k {
      } else {
        var p' := if p < k then p else p - 1;
        var q' := if q < k then q else q - 1;
        assert r[p] == s[p'] && r[q] == s[q'] && p' < q';
      }
    }
  }

  lemma InsertKeepsOrder(r: seq<nat>, s: seq<nat>, x: nat, k: nat, key: nat -> real)
    requires NonIncreasing(s, key) && InsertedAt(r, s, x, k, key)
    ensures NonIncreasing(r, key)
  {
    InsertedAtIndex(r, s, x, k, key);
    forall p, q | 0 <= p < q < |r| ensures key(r[p]) >= key(r[q]) {
      if q == k || p == k {
      } else {
        var p' := if p < k then p else p - 1;
        var q' := if q < k then q else q - 1;
        assert r[p] == s[p'] && r[q] == s[q'] && p' < q';
      }
    }
  }

  lemma InsertKeepsTies(r: seq<nat>, s: seq<nat>, n: nat, k: nat, key: nat -> real)
    requires n > 0 && IsPermutation(s, n - 1) && TiesAscending(s, key)
    requires InsertedAt(r, s, n - 1, k, key)
    ensures TiesAscending(r, key)
  {
    InsertedAtIndex(r, s, n - 1, k, key);
    forall p, q | 0 <= p < q < |r| ensures key(r[p]) == key(r[q]) ==> r[p] < r[q] {
      if q == k {
        assert r[p] == s[p];
      } else if p == k {
        assert r[q] == s[q - 1] && key(r[q]) < key(r[p]);
      } else {
        var p' := if p < k then p else p - 1;
        var q' := if q < k then q else q - 1;
        assert r[p] == s[p'] && r[q] == s[q'] && p' < q';
      }
    }
  }

  /** One step of the ranking inserts position `n - 1` into the ranking of the others. */
  lemma RankingStep(n: nat, key: nat -> real)
    requires n > 0 && NonIncreasing(Ranking(n - 1, key), key)
    ensures InsertedAt(Ranking(n, key), Ranking(n - 1, key), n - 1, InsertPos(n - 1, Ranking(n - 1, key), key), key)
  {
    InsertShape(n - 1, Ranking(n - 1, key), key);
  }

  lemma {:induction false} RankingOrder(n: nat, key: nat -> real)
    ensures NonIncreasing(Ranking(n, key), key)
  {
    if n > 0 {
      RankingOrder(n - 1, key);
      RankingStep(n, key);
      var s := Ranking(n - 1, key);
      InsertKeepsOrder(Ranking(n, key), s, n - 1, InsertPos(n - 1, s, key), key);
    }
  }

  lemma {:induction false} RankingPermutation(n: nat, key: nat -> real)
    ensures IsPermutation(Ranking(n, key), n)
  {
    if n > 0 {
      RankingPermutation(n - 1, key);
      RankingOrder(n - 1, key);
      RankingStep(n, key);
      var s := Ranking(n - 1, key);
      InsertKeepsPermutation(Ranking(n, key), s, InsertPos(n - 1, s, key), n, key);
    }
  }

  lemma {:induction false} RankingTies(n: nat, key: nat -> real)
    ensures TiesAscending(Ranking(n, key), key)
  {
    if n > 0 {
      RankingTies(n - 1, key);
      RankingPermutation(n - 1, key);
      RankingOrder(n - 1, key);
      RankingStep(n, key);
      var s := Ranking(n - 1, key);
      InsertKeepsTies(Ranking(n, key), s, n, InsertPos(n - 1, s, key), key);
    }
  }

  /** The ranking lists positions below `n` only, `n` of them. */
  lemma RankingBounds(n: nat, key: nat -> real)
    ensures |Ranking(n, key)| == n
    ensures forall k :: 0 <= k < n ==> Ranking(n, key)[k] < n
  {
    RankingPermutation(n, key);
  }

  /**
   * The ranking is a permutation of the positions, sorted by descending key,
   * and stable: of two positions with equal keys the smaller comes first.
   */
  lemma RankingSpec(n: nat, key: nat -> real)
    ensures IsPermutation(Ranking(n, key), n)
    ensures NonIncreasing(Ranking(n, key), key)
    ensures TiesAscending(Ranking(n, key), key)
  {
    RankingPermutation(n, key);
    RankingOrder(n, key);
    RankingTies(n, key);
  }
}

=== FILE: text.dfy ===
/**
 * The string operations of JavaScript that the core relies on, written out.
 *
 * Strings are sequences of Unicode scalar values; JavaScript counts UTF-16
 * code units instead, which only differs for characters outside the Basic
 * Multilingual Plane. Case folding is ASCII-only.
 */
module Text {

  /** The characters JavaScript's `\s` matches and `String.prototype.trim` strips. */
  predicate IsWhitespace(c: char) {
    || c == '\t' || c == '\n' || c == '\U{B}' || c == '\U{C}' || c == '\r' || c == ' '
    || c == '\U{A0}' || c == '\U{1680}' || ('\U{2000}' <= c <= '\U{200A}')
    || c == '\U{2028}' || c == '\U{2029}' || c == '\U{202F}' || c == '\U{205F}'
    || c == '\U{3000}' || c == '\U{FEFF}'
  }

  predicate IsUpper(c: char) { 'A' <= c <= 'Z' }

  function LowerChar(c: char): (d: char)
    ensures !IsUpper(d)
    ensures IsWhitespace(d) <==> IsWhitespace(c)
  {
    if IsUpper(c) then (c as int + 32) as char else c
  }

  /** `toLowerCase`, for the ASCII letters. */
  function Lower(s: string): (r: string)
    ensures |r| == |s|
    ensures forall i :: 0 <= i < |s| ==> r[i] == LowerChar(s[i])
  {
    seq(|s|, i requires 0 <= i < |s| => LowerChar(s[i]))
  }

  function TrimStart(s: string): string
  {
    if s != [] && IsWhitespace(s[0]) then TrimStart(s[1..]) else s
  }

  function TrimEnd(s: string): string
  {
    if s != [] && IsWhitespace(s[|s| - 1]) then TrimEnd(s[..|s| - 1]) else s
  }

  /** `trim()`. */
  function Trim(s: string): string
  {
    TrimEnd(TrimStart(s))
  }

  /** `s.includes(t)`. */
  predicate Contains(s: string, t: string)
    decreases |s|
  {
    t <= s || (s != [] && Contains(s[1..], t))
  }

  /** `s.startsWith(p)`. */
  predicate StartsWith(s: string, p: string) {
    p <= s
  }

  /** `s.substring(0, n)`. */
  function Take(s: string, n: nat): (r: string)
    ensures |r| <= n && r <= s
    ensures |s| <= n ==> r == s
  {
    if |s| <= n then s else s[..n]
  }

  /** The number of occurrences of `c` in `s` (`(s.match(/c/g) || []).length`). */
  function CountChar(s: string, c: char): nat
  {
    if s == [] then 0 else (if s[0] == c then 1 else 0) + CountChar(s[1..], c)
  }

  /** The number of maximal runs of white space in `s`, counted at the end of each run. */
  function WhitespaceRuns(s: string): nat
  {
    if s == [] then 0
    else if IsWhitespace(s[0]) && (|s| == 1 || !IsWhitespace(s[1])) then 1 + WhitespaceRuns(s[1..])
    else WhitespaceRuns(s[1..])
  }

  /** `s.split(/\s+/).length`: one field more than there are white-space runs. */
  function SplitCount(s: string): nat
  {
    1 + WhitespaceRuns(s)
  }

  /** `s.trim().split(/\s+/).length`. */
  function WordCount(s: string): nat
  {
    SplitCount(Trim(s))
  }

  /** ASCII word characters, those of the regular-expression class `\w`. */
  predicate IsWordChar(c: char) {
    'a' <= c <= 'z' || 'A' <= c <= 'Z' || '0' <= c <= '9' || c == '_'
  }

  /** The length of the run of word characters `s` starts with. */
  function WordLength(s: string): (n: nat)
    ensures n <= |s|
    ensures forall i :: 0 <= i < n ==> IsWordChar(s[i])
    ensures n < |s| ==> !IsWordChar(s[n])
  {
    if s != [] && IsWordChar(s[0]) then 1 + WordLength(s[1..]) else 0
  }

  /**
   * `(s.match(/\b[A-Z]{2,}\b/g) || []).length`: the number of maximal runs of
   * word characters that consist of at least two upper-case ASCII letters.
   */
  function CapsWords(s: string): nat
    decreases |s|
  {
    if s == [] then 0
    else if !IsWordChar(s[0]) then CapsWords(s[1..])
    else
      var n := WordLength(s);
      (if n >= 2 && forall i :: 0 <= i < n ==> IsUpper(s[i]) then 1 else 0) + CapsWords(s[n..])
  }

  /** `s.split('\n')`. */
  function SplitLines(s: string): (r: seq<string>)
    ensures |r| >= 1
  {
    if s == [] then [""]
    else if s[0] == '\n' then [""] + SplitLines(s[1..])
    else
      var rest := SplitLines(s[1..]);
      [[s[0]] + rest[0]] + rest[1..]
  }

  /** No piece of a split contains the separator. */
  lemma {:induction false} SplitLinesHaveNoNewline(s: string)
    ensures forall i :: 0 <= i < |SplitLines(s)| ==> '\n' !in SplitLines(s)[i]
  {
    if s != [] {
      SplitLinesHaveNoNewline(s[1..]);
    }
  }

  /** `lines.join('\n')`. */
  function JoinLines(lines: seq<string>): string
    requires |lines| >= 1
  {
    if |lines| == 1 then lines[0] else lines[0] + "\n" + JoinLines(lines[1..])
  }

  /** Every line followed by a newline: the text that the complete lines of a buffer came from. */
  function Terminated(lines: seq<string>): string
  {
    if lines == [] then "" else Terminated(lines[..|lines| - 1]) + lines[|lines| - 1] + "\n"
  }

  /** The chunks of a stream, concatenated in order. */
  function Concat(chunks: seq<string>): string
  {
    if chunks == [] then "" else Concat(chunks[..|chunks| - 1]) + chunks[|chunks| - 1]
  }

  /** Splitting undoes joining: no text is lost or invented by `split('\n')`. */
  lemma {:induction false} SplitLinesJoins(s: string)
    ensures JoinLines(SplitLines(s)) == s
  {
    if s == [] {
    } else if s[0] == '\n' {
      SplitLinesJoins(s[1..]);
      assert s == "\n" + s[1..];
    } else {
      var rest := SplitLines(s[1..]);
      SplitLinesJoins(s[1..]);
      if |rest| == 1 {
        assert s == [s[0]] + s[1..];
      } else {
        assert JoinLines(rest) == rest[0] + "\n" + JoinLines(rest[1..]);
        assert s == [s[0]] + s[1..];
      }
    }
  }

  /** Splitting a text that starts with `c`. */
  lemma SplitLinesCons(c: char, s: string)
    ensures SplitLines([c] + s) ==
      if c == '\n' then [""] + SplitLines(s)
      else [[c] + SplitLines(s)[0]] + SplitLines(s)[1..]
  {
    assert ([c] + s)[0] == c && ([c] + s)[1..] == s;
  }

  lemma TerminatedAppend(lines: seq<string>, more: seq<string>)
    ensures Terminated(lines + more) == Terminated(lines) + Terminated(more)
    decreases |more|
  {
    if more == [] {
      assert lines + more == lines;
    } else {
      var all := lines + more;
      assert all[..|all| - 1] == lines + more[..|more| - 1];
      TerminatedAppend(lines, more[..|more| - 1]);
    }
  }

  lemma AppendAssoc(a: string, b: string, c: string)
    ensures (a + b) + c == a + (b + c)
  {
  }

  lemma EmptyPrefix(s: string)
    ensures "" + s == s && s + "" == s
  {
  }

  lemma ConcatAppend(chunks: seq<string>, chunk: string)
    ensures Concat(chunks + [chunk]) == Concat(chunks) + chunk
  {
    assert (chunks + [chunk])[..|chunks|] == chunks;
  }

  /** Splitting a text whose first part has no newline: that part joins the first piece. */
  lemma {:induction false} SplitLinesPrefix(l: string, x: string)
    requires '\n' !in l
    ensures SplitLines(l + x) == [l + SplitLines(x)[0]] + SplitLines(x)[1..]
  {
    if l == [] {
      assert l + x == x;
      var sx := SplitLines(x);
      assert l + sx[0] == sx[0];
      assert [sx[0]] + sx[1..] == sx;
    } else {
      var t := l[1..];
      assert l == [l[0]] + t;
      assert l + x == [l[0]] + (t + x);
      SplitLinesPrefix(t, x);
      SplitLinesCons(l[0], t + x);
      var sx := SplitLines(x);
      var p := SplitLines(t + x);
      assert l[0] != '\n';
      assert p[0] == t + sx[0] && p[1..] == sx[1..];
      assert [l[0]] + (t + sx[0]) == l + sx[0];
    }
  }

  /**
   * The only way to write a text as newline-terminated lines followed by a
   * rest, none of which contain a newline, is the one `split('\n')` finds.
   */
  lemma {:induction false} SplitLinesOfTerminated(lines: seq<string>, rest: string)
    requires forall i :: 0 <= i < |lines| ==> '\n' !in lines[i]
    requires '\n' !in rest
    ensures SplitLines(Terminated(lines) + rest) == lines + [rest]
  {
    if lines == [] {
      assert Terminated(lines) + rest == rest;
      SplitLinesPrefix(rest, "");
      assert rest + "" == rest;
      assert SplitLines("") == [""];
      assert rest + "" == rest;
    } else {
      var l := lines[0];
      var more := lines[1..];
      assert lines == [l] + more;
      TerminatedAppend([l], more);
      assert Terminated([l]) == l + "\n" by {
        assert [l][..0] == [];
      }
      var x := Terminated(more) + rest;
      assert Terminated(lines) + rest == l + ("\n" + x);
      SplitLinesOfTerminated(more, rest);
      SplitLinesPrefix(l, "\n" + x);
      SplitLinesCons('\n', x);
      var sx := SplitLines("\n" + x);
      assert sx == [""] + (more + [rest]);
      assert sx[0] == "" && sx[1..] == more + [rest];
      assert l + "" == l;
    }
  }

  /** The pieces of a split, all but the last newline-terminated, give back the text. */
  lemma {:induction false} TerminatedJoin(lines: seq<string>)
    requires |lines| >= 1
    ensures Terminated(lines[..|lines| - 1]) + lines[|lines| - 1] == JoinLines(lines)
  {
    if |lines| > 1 {
      var more := lines[1..];
      TerminatedJoin(more);
      assert more[..|more| - 1] == lines[1..|lines| - 1];
      assert lines[..|lines| - 1] == [lines[0]] + lines[1..|lines| - 1];
      TerminatedAppend([lines[0]], lines[1..|lines| - 1]);
      assert Terminated([lines[0]]) == lines[0] + "\n" by {
        assert [lines[0]][..0] == [];
      }
    }
  }

  /** The first of several newline-terminated lines, split off. */
  lemma TerminatedFront(l: string, more: seq<string>)
    ensures Terminated([l] + more) == l + "\n" + Terminated(more)
  {
    TerminatedAppend([l], more);
    assert Terminated([l]) == l + "\n" by {
      assert [l][..0] == [];
    }
  }

  /** Splitting a text that starts with one newline-terminated line. */
  lemma SplitLinesLine(l: string, z: string)
    requires '\n' !in l
    ensures SplitLines(l + "\n" + z) == [l] + SplitLines(z)
  {
    assert l + "\n" + z == l + ("\n" + z);
    SplitLinesPrefix(l, "\n" + z);
    SplitLinesCons('\n', z);
    assert l + "" == l;
  }

  /** Splitting a text that starts with newline-terminated lines gives those lines, then the pieces of the rest. */
  lemma {:induction false} SplitLinesAfterTerminated(lines: seq<string>, x: string)
    requires forall i :: 0 <= i < |lines| ==> '\n' !in lines[i]
    ensures SplitLines(Terminated(lines) + x) == lines + SplitLines(x)
  {
    if lines == [] {
      assert Terminated(lines) + x == x;
    } else {
      var l, more := lines[0], lines[1..];
      var y := Terminated(more) + x;
      assert lines == [l] + more;
      assert Terminated(lines) + x == l + "\n" + y by {
        TerminatedFront(l, more);
      }
      assert SplitLines(y) == more + SplitLines(x) by {
        SplitLinesAfterTerminated(more, x);
      }
      assert SplitLines(l + "\n" + y) == [l] + SplitLines(y) by {
        SplitLinesLine(l, y);
      }
      assert [l] + (more + SplitLines(x)) == lines + SplitLines(x);
    }
  }

  /** The text of consecutive runs of chunks is the text of each run, in order. */
  lemma {:induction false} ConcatJoin(a: seq<string>, b: seq<string>)
    ensures Concat(a + b) == Concat(a) + Concat(b)
    decreases |b|
  {
    if b == [] {
      assert a + b == a;
    } else {
      var init := b[..|b| - 1];
      assert (a + b)[..|a + b| - 1] == a + init;
      ConcatJoin(a, init);
      AppendAssoc(Concat(a), Concat(init), b[|b| - 1]);
    }
  }

  /** The decimal spelling of a number, as a template literal prints it. */
  function Decimal(n: nat): string
  {
    var digit := "0123456789"[n % 10];
    if n < 10 then [digit] else Decimal(n / 10) + [digit]
  }
}

=== FILE: token_analyzer.dfy ===
/**
 * The feature extractor: turns an input text into a token estimate, five
 * weights in [0, 1], a multi-competence bonus, domain tags, boolean flags and
 * a complexity class. Each weight is a sum of fixed non-negative increments
 * for the rules that match, capped at 1.
 *
 * The specification functions (`...Of`) say what each value is; the methods
 * compute it step by step as the analyzer does and are proved equal to them.
 */
module TokenAnalyzer {
  import opened Text
  import opened Patterns
  import opened SpecialistTypes

  /** The anchored greetings and one-word replies of SIMPLE_PATTERNS, matched against the trimmed input. */
  const SimpleWords: set<string> := {
    "ciao", "salve", "buongiorno", "buonasera", "hello", "hi",
    "come stai", "come va", "tutto bene",
    "grazie", "prego", "scusa", "perfetto", "ok",
    "sì", "no", "forse", "bene", "male"}

  const TechnicalTerms: seq<string> := [
    "algoritmo", "database", "API", "framework", "codice", "programmazione",
    "react", "typescript", "javascript", "python", "sql", "html", "css",
    "server", "client", "backend", "frontend", "deployment", "bug", "debug",
    "architettura", "performance", "ottimizzazione", "sicurezza", "testing"]

  /** DOMAIN_KEYWORDS, in its key order. */
  const DomainKeywords: seq<(string, seq<string>)> := [
    ("programming", ["codice", "programmazione", "sviluppo", "software", "app"]),
    ("webdev", ["sito", "web", "html", "css", "frontend", "backend"]),
    ("data", ["dati", "database", "sql", "analytics", "report"]),
    ("business", ["business", "vendite", "marketing", "strategia", "clienti"]),
    ("design", ["design", "ui", "ux", "grafica", "visual", "layout"]),
    ("writing", ["scrivi", "testo", "articolo", "content", "blog", "copy"]),
    ("creative", ["idee", "creative", "innovative", "brainstorm", "concept"]),
    ("analytical", ["analitico", "analitiche", "analisi", "metodico", "rigoroso"])]

  /** `Math.min`. */
  function Min(a: real, b: real): (m: real)
    ensures m <= a && m <= b && (m == a || m == b)
  {
    if a <= b then a else b
  }

  /** `Math.min(x, 1.0)`. */
  function Clip(x: real): (r: real)
    ensures r <= 1.0 && (x <= 1.0 ==> r == x) && (x >= 1.0 ==> r == 1.0)
  {
    Min(x, 1.0)
  }

  /** The increment of a rule: `x` when it matched, nothing otherwise. */
  function Bonus(matched: bool, x: real): real
  {
    if matched then x else 0.0
  }

  predicate IsSimple(input: string) {
    Lower(Trim(input)) in SimpleWords
  }

  predicate HasQuestions(input: string, hit: Hits) {
    '?' in input || hit(QuestionWord)
  }

  /** `Math.ceil(words * 1.3)`. */
  function TokenCount(words: nat): (c: nat)
    ensures 10 * c >= 13 * words && 10 * c < 13 * words + 10
  {
    (13 * words + 9) / 10
  }

  /** How many of `terms` occur, lower-cased, as substrings of `lower`. */
  function TermMatches(lower: string, terms: seq<string>): (n: nat)
    ensures n <= |terms|
  {
    if terms == [] then 0
    else TermMatches(lower, terms[..|terms| - 1]) + (if Contains(lower, Lower(terms[|terms| - 1])) then 1 else 0)
  }

  function TechnicalWeightOf(lower: string, hit: Hits): (w: real)
    ensures 0.0 <= w <= 1.0
  {
    Clip(0.2 * (TermMatches(lower, TechnicalTerms) as real)
      + Bonus(hit(ImplementationWords), 0.15)
      + Bonus(hit(ErrorWords), 0.25)
      + Bonus(hit(PerformanceWords), 0.2))
  }

  function CreativeWeightOf(hit: Hits): (w: real)
    ensures 0.0 <= w <= 1.0
  {
    Clip(0.35 * (Matched(CreativePatterns, hit) as real)
      + Bonus(hit(DirectIdeasRequest), 0.4)
      + Bonus(hit(OriginalityRequest), 0.25)
      + Bonus(hit(ConceptRequest), 0.2)
      + Bonus(hit(NarrativeRequest), 0.25))
  }

  function AnalyticalWeightOf(hit: Hits): (w: real)
    ensures 0.0 <= w <= 1.0
  {
    Clip(0.3 * (Matched(AnalyticalPatterns, hit) as real)
      + Bonus(hit(ComparisonRequest), 0.25)
      + Bonus(hit(OptimisationRequest), 0.2)
      + Bonus(hit(VerificationRequest), 0.2))
  }

  /** The emotional weight; its increments add up to at most 0.8, so the cap never applies. */
  function EmotionalWeightOf(hit: Hits): (w: real)
    ensures 0.0 <= w <= 0.8
  {
    Clip(Bonus(AnyHit(EmotionalPatterns, hit), 0.3)
      + Bonus(hit(SupportRequest), 0.2)
      + Bonus(hit(DifficultyWords), 0.15)
      + Bonus(hit(SocialWords), 0.15))
  }

  /** Urgency: 0.4 for an urgency word, at most 0.3 for exclamation marks and at most 0.2 for words in capitals. */
  function UrgencyOf(input: string, hit: Hits): (u: real)
    ensures 0.0 <= u <= 0.9
  {
    Clip(Bonus(AnyHit(UrgencyPatterns, hit), 0.4)
      + Min((CountChar(input, '!') as real) * 0.2, 0.3)
      + Min((CapsWords(input) as real) * 0.1, 0.2))
  }

  /**
   * The technical family test of the multi-competence detector: a term of the
   * list, NOT lower-cased, occurs in the lower-cased input.
   */
  predicate HasTechnicalFamily(input: string) {
    exists t :: t in TechnicalTerms && Contains(Lower(input), t)
  }

  /** How many of the four competence families match. */
  function CompetenceTypes(input: string, hit: Hits): (n: nat)
    ensures n <= 4
  {
    (if AnyHit(CreativePatterns, hit) then 1 else 0)
    + (if AnyHit(AnalyticalPatterns, hit) then 1 else 0)
    + (if HasTechnicalFamily(input) then 1 else 0)
    + (if AnyHit(EmotionalPatterns, hit) then 1 else 0)
  }

  /**
   * The multi-competence bonus: 0.4 for an explicit combination phrase plus
   * 0.15 per matching family once two or more match, capped at 1.
   */
  function MultiCompetenceOf(input: string, hit: Hits): (b: real)
    ensures 0.0 <= b <= 1.0
    ensures b == 0.0 <==> CompetenceTypes(input, hit) < 2 && !AnyHit(CombinationPatterns, hit)
    ensures b != 0.0 ==> b >= 0.3
    ensures b > 0.3 <==> AnyHit(CombinationPatterns, hit) || CompetenceTypes(input, hit) >= 3
  {
    var n := CompetenceTypes(input, hit);
    Min(Bonus(AnyHit(CombinationPatterns, hit), 0.4) + (if n >= 2 then (n as real) * 0.15 else 0.0), 1.0)
  }

  /** Some keyword of a domain occurs, lower-cased, in `lower`. */
  predicate DomainMatches(lower: string, keywords: seq<string>) {
    exists k :: k in keywords && Contains(lower, Lower(k))
  }

  /** The positions in DOMAIN_KEYWORDS, among the first `n`, of the domains that match. */
  function DomainHits(lower: string, n: nat): (r: seq<nat>)
    requires n <= |DomainKeywords|
    ensures forall p :: 0 <= p < |r| ==> r[p] < n
  {
    if n == 0 then []
    else DomainHits(lower, n - 1) + (if DomainMatches(lower, DomainKeywords[n - 1].1) then [n - 1] else [])
  }

  /** The names of the domains at the given positions. */
  function DomainNames(positions: seq<nat>): (r: seq<string>)
    requires forall p :: 0 <= p < |positions| ==> positions[p] < |DomainKeywords|
    ensures |r| == |positions|
    ensures forall p :: 0 <= p < |r| ==> r[p] == DomainKeywords[positions[p]].0
  {
    seq(|positions|, p requires 0 <= p < |positions| => DomainKeywords[positions[p]].0)
  }

  function DomainsOf(lower: string): seq<string>
  {
    DomainNames(DomainHits(lower, |DomainKeywords|))
  }

  /** The complexity class, by the analyzer's if-chain. */
  function ComplexityOf(
    isSimple: bool, count: nat, technical: real, creative: real, analytical: real, emotional: real,
    urgency: real, bonus: real, hasQuestions: bool): Complexity
  {
    if isSimple && count <= 5 then Low
    else
      var avg := (technical + creative + analytical + emotional) / 4.0;
      if bonus > 0.3 then High
      else if creative > 0.4 || creative > 0.3 then (if count > 15 then High else Medium)
      else if count > 50 || avg > 0.6 || urgency > 0.7 then High
      else if count > 15 || avg > 0.3 || hasQuestions then Medium
      else Low
  }

  /** The analysis of `input`; weights in [0, 1], urgency at most 0.9. */
  function AnalysisOf(input: string, hit: Hits): (a: TokenAnalysis)
    ensures 0.0 <= a.technicalWeight <= 1.0 && 0.0 <= a.creativeWeight <= 1.0
    ensures 0.0 <= a.analyticalWeight <= 1.0 && 0.0 <= a.emotionalWeight <= 1.0
    ensures 0.0 <= a.urgencyLevel <= 0.9 && 0.0 <= a.multiCompetenceBonus <= 1.0
    ensures a.count >= 2
  {
    var words := WordCount(input);
    var count := TokenCount(words);
    var lower := Lower(input);
    var hasQuestions := HasQuestions(input, hit);
    var technical := TechnicalWeightOf(lower, hit);
    var creative := CreativeWeightOf(hit);
    var analytical := AnalyticalWeightOf(hit);
    var emotional := EmotionalWeightOf(hit);
    var urgency := UrgencyOf(input, hit);
    var bonus := MultiCompetenceOf(input, hit);
    TokenAnalysis(
      count := count,
      words := words,
      complexity := ComplexityOf(IsSimple(input), count, technical, creative, analytical, emotional,
                                 urgency, bonus, hasQuestions),
      hasQuestions := hasQuestions,
      hasTechnicalTerms := technical > 0.3,
      hasEmotionalContent := emotional > 0.3,
      requiresCreativity := creative > 0.3,
      technicalWeight := technical,
      creativeWeight := creative,
      analyticalWeight := analytical,
      emotionalWeight := emotional,
      urgencyLevel := urgency,
      domainHints := DomainsOf(lower),
      multiCompetenceBonus := bonus)
  }

  // ---------------------------------------------------------------------------
  // The analyzer's step-by-step computations

  method CalculateTechnicalWeight(lower: string, hit: Hits) returns (w: real)
    ensures w == TechnicalWeightOf(lower, hit)
  {
    var weight := 0.0;
    var i := 0;
    while i < |TechnicalTerms|
      invariant 0 <= i <= |TechnicalTerms|
      invariant weight == 0.2 * (TermMatches(lower, TechnicalTerms[..i]) as real)
    {
      assert TechnicalTerms[..i + 1][..i] == TechnicalTerms[..i];
      if Contains(lower, Lower(TechnicalTerms[i])) {
        weight := weight + 0.2;
      }
      i := i + 1;
    }
    assert TechnicalTerms[..i] == TechnicalTerms;
    if hit(ImplementationWords) { weight := weight + 0.15; }
    if hit(ErrorWords) { weight := weight + 0.25; }
    if hit(PerformanceWords) { weight := weight + 0.2; }
    w := Min(weight, 1.0);
  }

  method CalculateCreativeWeight(hit: Hits) returns (w: real)
    ensures w == CreativeWeightOf(hit)
  {
    var weight := 0.0;
    var i := 0;
    while i < |CreativePatterns|
      invariant 0 <= i <= |CreativePatterns|
      invariant weight == 0.35 * (Matched(CreativePatterns[..i], hit) as real)
    {
      assert CreativePatterns[..i + 1][..i] == CreativePatterns[..i];
      if hit(CreativePatterns[i]) {
        weight := weight + 0.35;
      }
      i := i + 1;
    }
    assert CreativePatterns[..i] == CreativePatterns;
    if hit(DirectIdeasRequest) { weight := weight + 0.4; }
    if hit(OriginalityRequest) { weight := weight + 0.25; }
    if hit(ConceptRequest) { weight := weight + 0.2; }
    if hit(NarrativeRequest) { weight := weight + 0.25; }
    w := Min(weight, 1.0);
  }

  method CalculateAnalyticalWeight(hit: Hits) returns (w: real)
    ensures w == AnalyticalWeightOf(hit)
  {
    var weight := 0.0;
    var i := 0;
    while i < |AnalyticalPatterns|
      invariant 0 <= i <= |AnalyticalPatterns|
      invariant weight == 0.3 * (Matched(AnalyticalPatterns[..i], hit) as real)
    {
      assert AnalyticalPatterns[..i + 1][..i] == AnalyticalPatterns[..i];
      if hit(AnalyticalPatterns[i]) {
        weight := weight + 0.3;
      }
      i := i + 1;
    }
    assert AnalyticalPatterns[..i] == AnalyticalPatterns;
    if hit(ComparisonRequest) { weight := weight + 0.25; }
    if hit(OptimisationRequest) { weight := weight + 0.2; }
    if hit(VerificationRequest) { weight := weight + 0.2; }
    w := Min(weight, 1.0);
  }

  method CalculateEmotionalWeight(hit: Hits) returns (w: real)
    ensures w == EmotionalWeightOf(hit)
  {
    var weight := 0.0;
    if AnyHit(EmotionalPatterns, hit) { weight := weight + 0.3; }
    if hit(SupportRequest) { weight := weight + 0.2; }
    if hit(DifficultyWords) { weight := weight + 0.15; }
    if hit(SocialWords) { weight := weight + 0.15; }
    w := Min(weight, 1.0);
  }

  method CalculateUrgencyLevel(input: string, hit: Hits) returns (u: real)
    ensures u == UrgencyOf(input, hit)
  {
    var urgency := 0.0;
    if AnyHit(UrgencyPatterns, hit) { urgency := urgency + 0.4; }
    var exclamationCount := CountChar(input, '!');
    urgency := urgency + Min((exclamationCount as real) * 0.2, 0.3);
    var capsWords := CapsWords(input);
    urgency := urgency + Min((capsWords as real) * 0.1, 0.2);
    u := Min(urgency, 1.0);
  }

  method DetectMultiCompetence(input: string, hit: Hits) returns (b: real)
    ensures b == MultiCompetenceOf(input, hit)
  {
    var competenceTypes := 0;
    var bonus := 0.0;
    if AnyHit(CreativePatterns, hit) { competenceTypes := competenceTypes + 1; }
    if AnyHit(AnalyticalPatterns, hit) { competenceTypes := competenceTypes + 1; }
    if HasTechnicalFamily(input) { competenceTypes := competenceTypes + 1; }
    if AnyHit(EmotionalPatterns, hit) { competenceTypes := competenceTypes + 1; }
    if AnyHit(CombinationPatterns, hit) { bonus := bonus + 0.4; }
    if competenceTypes >= 2 { bonus := bonus + (competenceTypes as real) * 0.15; }
    b := Min(bonus, 1.0);
  }

  method IdentifyDomains(lower: string) returns (domains: seq<string>)
    ensures domains == DomainsOf(lower)
  {
    domains := [];
    var i := 0;
    while i < |DomainKeywords|
      invariant 0 <= i <= |DomainKeywords|
      invariant domains == DomainNames(DomainHits(lower, i))
    {
      var (domain, keywords) := DomainKeywords[i];
      if DomainMatches(lower, keywords) {
        domains := domains + [domain];
      }
      i := i + 1;
    }
  }

  /** `TokenAnalyzer.analyze`. */
  method Analyze(input: string, hit: Hits) returns (a: TokenAnalysis)
    ensures a == AnalysisOf(input, hit)
  {
    var wordCount := WordCount(input);
    var tokenCount := TokenCount(wordCount);
    var lowerInput := Lower(input);
    var isSimple := IsSimple(input);
    var hasQuestions := HasQuestions(input, hit);
    var technicalWeight := CalculateTechnicalWeight(lowerInput, hit);
    var creativeWeight := CalculateCreativeWeight(hit);
    var analyticalWeight := CalculateAnalyticalWeight(hit);
    var emotionalWeight := CalculateEmotionalWeight(hit);
    var urgencyLevel := CalculateUrgencyLevel(input, hit);
    var multiCompetenceBonus := DetectMultiCompetence(input, hit);
    var domainHints := IdentifyDomains(lowerInput);
    var hasTechnicalTerms := technicalWeight > 0.3;
    var hasEmotionalContent := emotionalWeight > 0.3;
    var requiresCreativity := creativeWeight > 0.3;

    var complexity := Low;
    if isSimple && tokenCount <= 5 {
      complexity := Low;
    } else {
      var avgWeight := (technicalWeight + creativeWeight + analyticalWeight + emotionalWeight) / 4.0;
      if multiCompetenceBonus > 0.3 {
        complexity := High;
      } else if creativeWeight > 0.4 || requiresCreativity {
        complexity := if tokenCount > 15 then High else Medium;
      } else if tokenCount > 50 || avgWeight > 0.6 || urgencyLevel > 0.7 {
        complexity := High;
      } else if tokenCount > 15 || avgWeight > 0.3 || hasQuestions {
        complexity := Medium;
      }
    }

    a := TokenAnalysis(
      count := tokenCount, words := wordCount, complexity := complexity,
      hasQuestions := hasQuestions, hasTechnicalTerms := hasTechnicalTerms,
      hasEmotionalContent := hasEmotionalContent, requiresCreativity := requiresCreativity,
      technicalWeight := technicalWeight, creativeWeight := creativeWeight,
      analyticalWeight := analyticalWeight, emotionalWeight := emotionalWeight,
      urgencyLevel := urgencyLevel, domainHints := domainHints,
      multiCompetenceBonus := multiCompetenceBonus);
  }
  // ---------------------------------------------------------------------------
  // Properties of the analysis

  /** The complexity rules: short greetings are low; a combination phrase or three families is high; and so on. */
  lemma ComplexityRules(input: string, hit: Hits)
    ensures var a := AnalysisOf(input, hit);
      var shortSimple := IsSimple(input) && a.count <= 5;
      && (shortSimple ==> a.complexity == Low)
      && (!shortSimple && (AnyHit(CombinationPatterns, hit) || CompetenceTypes(input, hit) >= 3) ==> a.complexity == High)
      && (!shortSimple && a.count > 50 ==> a.complexity == High)
      && (!shortSimple && a.hasQuestions ==> a.complexity != Low)
      && (!shortSimple && a.requiresCreativity ==> a.complexity != Low)
      && (a.complexity == Low && !shortSimple ==> !a.hasQuestions && a.count <= 15 && !a.requiresCreativity)
  {
  }

  /** A blank input still counts as one word, hence two tokens. */
  lemma BlankInputCounts(input: string, hit: Hits)
    requires Trim(input) == ""
    ensures AnalysisOf(input, hit).words == 1 && AnalysisOf(input, hit).count == 2
  {
  }

  /** Lower-casing never produces a capital letter, so a capitalised term never occurs in the result. */
  lemma {:induction false} LowerNeverContainsCapital(s: string, t: string)
    requires t != [] && IsUpper(t[0])
    ensures !Contains(Lower(s), t)
  {
    if s != [] {
      assert Lower(s)[1..] == Lower(s[1..]);
      LowerNeverContainsCapital(s[1..], t);
    }
  }

  /**
   * The family test compares the lower-cased input with the terms as written,
   * so "API" never counts towards it, while the technical weight does count
   * "api" because it lower-cases the term too.
   */
  lemma TechnicalFamilyIgnoresApi(input: string)
    ensures HasTechnicalFamily(input) <==> exists t :: t in TechnicalTerms && t != "API" && Contains(Lower(input), t)
    ensures Lower("API") == "api"
  {
    LowerNeverContainsCapital(input, "API");
  }

  /** Anything one oracle accepts, a stronger one accepts too. */
  lemma AnyHitMonotone(pats: seq<Rx>, weaker: Hits, stronger: Hits)
    requires Weaker(weaker, stronger)
    ensures AnyHit(pats, weaker) ==> AnyHit(pats, stronger)
  {
  }

  /** More successful pattern tests never lower a weight or the bonus. */
  lemma {:induction false} WeightsMonotone(input: string, weaker: Hits, stronger: Hits)
    requires Weaker(weaker, stronger)
    ensures TechnicalWeightOf(Lower(input), weaker) <= TechnicalWeightOf(Lower(input), stronger)
    ensures CreativeWeightOf(weaker) <= CreativeWeightOf(stronger)
    ensures AnalyticalWeightOf(weaker) <= AnalyticalWeightOf(stronger)
    ensures EmotionalWeightOf(weaker) <= EmotionalWeightOf(stronger)
    ensures UrgencyOf(input, weaker) <= UrgencyOf(input, stronger)
    ensures MultiCompetenceOf(input, weaker) <= MultiCompetenceOf(input, stronger)
  {
    MatchedMonotone(CreativePatterns, weaker, stronger);
    MatchedMonotone(AnalyticalPatterns, weaker, stronger);
    AnyHitMonotone(EmotionalPatterns, weaker, stronger);
    AnyHitMonotone(UrgencyPatterns, weaker, stronger);
    AnyHitMonotone(CreativePatterns, weaker, stronger);
    AnyHitMonotone(AnalyticalPatterns, weaker, stronger);
    AnyHitMonotone(CombinationPatterns, weaker, stronger);
  }

  /** Domain `i` of DOMAIN_KEYWORDS matches `lower`. */
  predicate DomainMatchesAt(lower: string, i: nat)
    requires i < |DomainKeywords|
  {
    DomainMatches(lower, DomainKeywords[i].1)
  }

  /** A position is among the hits exactly when that domain matches; the hits ascend. */
  lemma {:induction false} DomainHitsSpec(lower: string, n: nat)
    requires n <= |DomainKeywords|
    ensures forall i: nat :: i in DomainHits(lower, n) <==> i < n && DomainMatchesAt(lower, i)
    ensures forall p, q :: 0 <= p < q < |DomainHits(lower, n)| ==> DomainHits(lower, n)[p] < DomainHits(lower, n)[q]
  {
    if n > 0 {
      DomainHitsSpec(lower, n - 1);
    }
  }

  /** The domain names are pairwise different. */
  lemma DomainNamesDistinct()
    ensures forall i, j :: 0 <= i < j < |DomainKeywords| ==> DomainKeywords[i].0 != DomainKeywords[j].0
  {
  }

  /**
   * The domain tags are exactly the names of the matching domains, in the
   * key order of DOMAIN_KEYWORDS and without repetitions.
   */
  lemma DomainsSpec(lower: string)
    ensures forall d :: d in DomainsOf(lower) <==>
      exists i: nat :: i < |DomainKeywords| && DomainKeywords[i].0 == d && DomainMatchesAt(lower, i)
    ensures forall p, q :: 0 <= p < q < |DomainsOf(lower)| ==> DomainsOf(lower)[p] != DomainsOf(lower)[q]
    ensures var h := DomainHits(lower, |DomainKeywords|);
      && |DomainsOf(lower)| == |h|
      && (forall p :: 0 <= p < |h| ==> h[p] < |DomainKeywords| && DomainsOf(lower)[p] == DomainKeywords[h[p]].0)
      && (forall p, q :: 0 <= p < q < |h| ==> h[p] < h[q])
  {
    var h := DomainHits(lower, |DomainKeywords|);
    DomainHitsSpec(lower, |DomainKeywords|);
    DomainNamesDistinct();
    var r := DomainsOf(lower);
    assert r == DomainNames(h);
    forall d | d in r
      ensures exists i: nat :: i < |DomainKeywords| && DomainKeywords[i].0 == d && DomainMatchesAt(lower, i)
    {
      var p :| 0 <= p < |r| && r[p] == d;
      assert h[p] in h;
    }
    forall i: nat | i < |DomainKeywords| && DomainMatchesAt(lower, i)
      ensures DomainKeywords[i].0 in r
    {
      assert i in h;
      var p :| 0 <= p < |h| && h[p] == i;
      assert r[p] == DomainKeywords[i].0;
    }
    forall p, q | 0 <= p < q < |r|
      ensures r[p] != r[q]
    {
      assert h[p] < h[q];
    }
  }
}

=== FILE: wrappers.dfy ===
/** Failure-carrying wrappers shared by every module of the model. */
module Wrappers {

  /** A value that may be absent (`undefined` on the JavaScript side). */
  datatype Option<+T> = None | Some(value: T)

  /** The outcome of an operation that the source lets throw. */
  datatype Result<+T, +E> = Ok(value: T) | Err(error: E)
}
